=== FILE: README.md ===
# Exhibition trajectories: a Dafny model

This project models the discrete bookkeeping at the core of the DGN art-exhibition map.
The map draws the routes of artists between the places where they exhibited in the years 1905–1915.
The bookkeeping lives in five places:

- **Place folding** (`Place.from_hosts`, src/objects/place.ts) — module `Places`.
  It drops some host records and fixes known data errors.
  It then groups the surviving hosts by a name key into places numbered 0, 1, 2, …
- **Exhibition records** (`Exhibition.from_query` and `parse_year`, src/objects/exhibition.ts) — module `Exhibitions`.
  It keeps the records whose id `Number` converts to an integer and stores `Parse.int` of that id, which can be undefined.
  It clamps each start and end year into [1905, 1915]; a year that `Parse.int` reads as undefined or NaN passes through unclamped.
- **The artist trajectory graph** (`ArtistTrajectoryGraph` and `NPNMap`, frontend/src/app/map-view/artist_trajectory_graph.ts), in five modules:
  - `TrajectoryGraph`: places interned by name and connection points interned by (place, year), plus the years of each place and the representative of each exhibition.
  - `TrajectorySort`: `sort_trajectory_points`, which cuts the representatives into year batches and resolves a stack of batches.
  - `EdgeTables`: the transition and self-connection tables.
  - `GraphBuild`: the constructor and `compute_connections`, including the two `TypeError`s it can throw.
  - `NpnMap`: the pair-keyed map and its string keys.
- **Exhibition-to-exhibition connections** (`PlaceConnection`, frontend/src/app/map-view/place_connection.ts), in two modules:
  - `PlaceConnection` holds the operations.
  - `ConnectionFacts` states what a whole call returns.
- **The artist picker** (`ArtistList`, frontend/src/app/map-view/artist_list.ts) — module `ArtistList`.
  It is a state machine over load, select, remove and filter.

Support modules:

- `Wrappers` provides `Option` and `Result`.
- `Seqs` provides `Distinct`, `NoDup`, `Without`, `Intersect`, `Reverse` and subsequences.
- `Sorting` is a stable insertion sort under any total preorder, standing in for `Array.prototype.sort`.
- `Text` models JavaScript string behaviour:
  - integer formatting and `Number.parseInt` without a radix: leading white space and line terminators are skipped, then an optional sign and an optional `0x` prefix, then the longest run of decimal or hexadecimal digits;
  - the default string order of `sort()`, by UTF-16 code unit;
  - ASCII lower-casing and `includes`.

The model is pure: each method that changes an object's state becomes a function from the old state to the new one.
The source also changes its arguments in place in two spots. The write-back of `Place.from_hosts` into its host records is modelled (`Places.Written`). The in-place exhibition sort of `add_artist_trajectory` is listed under "## Left out".
A `throw` or a JavaScript `TypeError` becomes the `Err` side of a `Result`.

## Behaviour the model pins down

The model follows the code as written. These are its less obvious consequences.

- **Stack never flushed.** `sort_trajectory_points` never flushes the stack left after its last batch (artist_trajectory_graph.ts:304-350).
  - If the first year batch takes every representative, the trajectory yields no steps (`TrajectorySort.OneBatchNoSteps`).
  - A trajectory of two exhibitions or fewer yields no steps at all (`TrajectorySort.ShortTrajectoryNoSteps`).
  - Such an artist adds no connections.
- **Order within a batch.** `resolve_stack` reverses its output (line 292), so the points of one batch come out in reverse order (`TrajectorySort.ThreeYearsExample`).
- **Shared point emitted twice.** When a batch shares exactly one point with the batch before it, that point's steps are emitted twice (`TrajectorySort.SharedPointTwice`):
  - once by `resolve_stack`;
  - once more by the loop at lines 336-342.

  The comment at lines 332-333 says the common point is to be removed from the batch's unique points, so it was meant to be emitted once. The removal comes after `resolve_stack` has already emitted the batch.
- **Scan overshoot.** In `compute_subset`, the post-increment at line 229 runs before the year test. The batch therefore ends one past the first representative of another year (`TrajectorySort.ScanEnd`).
- **Edge weights.** Each connection carries a weight.
  - Self connections keep weight 1, because the increment is commented out (lines 112-113).
  - A transition's weight counts how often its ordered pair occurs (`GraphBuild.BuildSelfConnections`, `GraphBuild.BuildTransitions`).
- **Batch order.** Each exhibition contributes its own representative. The order of the steps comes only from the year order of the exhibitions and the reversal above; no distance between places is consulted.
- **Kept records without an id.** `Exhibition.from_query` filters on `Number(id)` but stores `Parse.int(id)` (exhibition.ts:23, 27).
  - A null id passes the filter, because `Number(null)` is 0, and is stored as undefined (`Exhibitions.NullIdKept`).
  - The id `"1e3"` passes as 1000 and is stored as 1 (`Exhibitions.ExponentIdStoredAsPrefix`).
- **NaN years.** `parse_year` compares the result of `Parse.int` with 1905 and 1915. A NaN, from `\N` or from text without leading digits, fails both comparisons and is returned unclamped (`Exhibitions.NaNYearUnclamped`).
- **The constructor can throw.** It throws when an artist has no exhibition with places, or has an exhibition whose places are all unnamed (`GraphBuild.BuildFails`).
- **Hague split.** In `Place.from_hosts`, the grouping key is taken before "Hague, The" is renamed to "Hague". Hosts recorded both ways therefore become two places, both named "Hague" (`Places.HagueSplits`).
- **Fix-ups written back.** `from_hosts` writes its fix-ups into the caller's host records (place.ts:28, 34-35, 42; `Places.Written`). A second call on the same records sees the rename, so the two Hague hosts then fold into one place (`Places.HagueSecondCall`).
- **Tracker lookups always miss.** In `get_connections`, the trackers are `Map`s keyed by freshly built arrays, so a lookup never finds anything. The model gives every array an allocation identity, and the lookups visibly miss (`PlaceConnection.FreshLookupMisses`). Two consequences:
  - there is one directed connection per consecutive pair of exhibitions (`ConnectionFacts.ConnectionsJoinConsecutive`);
  - there is one same-exhibition connection per neighbouring pair of places (`ConnectionFacts.SeConnectionCount`).

## Model

| member | source | states |
|---|---|---|
| Places.Admit | src/objects/place.ts:20-42 | a host survives exactly when its place or town name is non-empty, it has a country or is "Christiania", and its country is not JP, US or AR; the key is the place name (else the town) taken before the Hague rename; Christiania gets country NO, Berlin gets the fixed coordinates, "Hague, The" is stored as "Hague", other fields are kept |
| Places.FindKey | src/objects/place.ts:45 | finds a place already registered under the key, or reports that no place has it |
| Places.GroupByKey | src/objects/place.ts:44-58 | one group per distinct key in first-seen order, each holding exactly the surviving hosts with that key in input order; the group sizes add up to the number of survivors |
| Places.FromHosts | src/objects/place.ts:15-75 | one place per distinct key of the surviving hosts, in first-seen order; place i has id i, holds the survivors with its key and takes place, town, country and location from its first host |
| Places.FromHostsKeepsEveryHost | src/objects/place.ts:44-58 | every surviving host lands in exactly one place: the host counts of the places add up to the survivors |
| Places.SameNameFolds | src/objects/place.ts:45-47 | two surviving hosts with the same place name fold into one place holding both, in order |
| Places.HagueSplits | src/objects/place.ts:23-42 | a "Hague, The" host and a "Hague" host become two places, both named "Hague" |
| Places.Written | src/objects/place.ts:20-42 | the caller's host record after the body: a country-less Christiania gets NO, a Berlin host that has a country gets the fixed coordinates even if it is dropped later, and "Hague, The" becomes "Hague" only for a host that gets past the blacklist; id, name and town are untouched |
| Places.WrittenIdempotent | src/objects/place.ts:26-42 | writing the fix-ups into an already fixed record changes nothing |
| Places.HagueSecondCall | src/objects/place.ts:23-42 | the first call gives two places, but a second call on the same, now renamed, records folds the two Hague hosts into one place named "Hague" |
| Exhibitions.ParseIntField | frontend/src/objects/common.ts:1-8 | `Parse.int`: undefined exactly for a missing or empty field; NaN for `\N`; otherwise the integer `parseInt` reads after leading blanks, a sign and a `0x` prefix, or NaN when it reads no digit |
| Exhibitions.Clamp | src/objects/exhibition.ts:40-45 | undefined stays undefined and NaN stays NaN; a year at or below 1905 becomes 1905, at or above 1915 becomes 1915, anything between is kept |
| Exhibitions.ParseYear | src/objects/exhibition.ts:39-46 | undefined exactly for a missing or empty date, NaN exactly when `Parse.int` gives NaN (always for `\N`), otherwise a year in [1905, 1915] that equals the parsed year when that lies strictly inside |
| Exhibitions.ClampIdempotent | src/objects/exhibition.ts:42-44 | clamping a clamped year changes nothing |
| Exhibitions.ClampMonotone | src/objects/exhibition.ts:42-44 | clamping keeps the order of years |
| Exhibitions.FromRaw | src/objects/exhibition.ts:24-34 | the stored id is `Parse.int` of the raw id, not the number the filter tested; the years are `parse_year` of the dates; title and organizer are `Parse.string` of theirs, the type is `toExhibitionType` of `Parse.string` of the raw type, and the hosts are kept |
| Exhibitions.ToExhibitionType | src/objects/exhibition.ts:58-67 | undefined for a missing or empty value; a member's name gives the member, its number "0", "1" or "2" gives its name, a key inherited from `Object.prototype` gives the inherited member, anything else undefined |
| Exhibitions.ToExhibitionTypeBothWays | src/objects/exhibition.ts:58-67 | the numeric enum maps both ways: name to member and number back to name |
| Exhibitions.Kept | src/objects/exhibition.ts:23 | exactly the records whose `Number(id)` is an integer |
| Exhibitions.KeptSpec | src/objects/exhibition.ts:20-23 | the filter keeps the passing records in input order, each as often as it occurs, and no other |
| Exhibitions.FilterMap | src/objects/exhibition.ts:20-36 | no more records than the input; each output record is the conversion of an input record that passed the filter |
| Exhibitions.FromQuery | src/objects/exhibition.ts:15-37 | an empty list for a missing query or a missing exhibitions field; otherwise each record converts an input record that passed the filter, and every start and end year that is a number lies in [1905, 1915] |
| Exhibitions.FromQueryKeptInOrder | src/objects/exhibition.ts:20-36 | one output record per kept record, in input order, each its conversion |
| Exhibitions.FromQueryKeepsIntegerIds | src/objects/exhibition.ts:20-36 | the output ids are `Parse.int` of the raw ids of the kept records, in input order |
| Exhibitions.NullIdKept | src/objects/exhibition.ts:22-27 | a null id passes the filter and is stored as undefined |
| Exhibitions.ExponentIdStoredAsPrefix | src/objects/exhibition.ts:23-27 | the id "1e3" passes the filter and is stored as 1 |
| Exhibitions.NaNYearUnclamped | src/objects/exhibition.ts:40-45 | a date of `\N` or of text without leading digits gives NaN, which the clamp returns unchanged |
| NpnMap.UnkeyKey | frontend/src/app/map-view/artist_trajectory_graph.ts:409-418 | reading back the "n1,n2" key of a pair gives the pair |
| NpnMap.KeyInjective | frontend/src/app/map-view/artist_trajectory_graph.ts:409-411 | two pairs with the same key are the same pair |
| NpnMap.GetSet | frontend/src/app/map-view/artist_trajectory_graph.ts:374-380 | after setting a pair, looking it up gives the stored index and every other pair is unaffected |
| NpnMap.GetEmpty | frontend/src/app/map-view/artist_trajectory_graph.ts:359-361 | a new map finds nothing |
| Text.ParseIntOfString | frontend/src/app/map-view/artist_trajectory_graph.ts:409-418 | `Number.parseInt` reads back every integer written in decimal |
| Text.ParseIntSkipsSpace | frontend/src/objects/common.ts:2 | a leading white-space character or line terminator does not change what `parseInt` reads |
| Text.ParseIntLeadingBlank | frontend/src/objects/common.ts:2 | " 12" reads as 12 |
| Text.ParseIntHex | frontend/src/objects/common.ts:2 | a `0x` prefix after the sign selects hexadecimal: "0x1A" reads as 26 and "-0x1A" as -26 |
| Text.ParseIntStopsAtExponent | frontend/src/objects/common.ts:2 | the digit run ends at the first non-digit, so "1e3" reads as 1 and not 1000 |
| Text.YearStringOrder | frontend/src/app/map-view/artist_trajectory_graph.ts:201 | for four-digit years the default string order of `sort()` is numeric order |
| Text.StringOrderIsNotNumeric | frontend/src/app/map-view/artist_trajectory_graph.ts:201 | in general it is not: 10 sorts before 9 |
| Text.Utf16Injective | frontend/src/app/map-view/artist_list.ts:40 | different names have different UTF-16 code units, so the code-unit order of `sort()` is antisymmetric |
| Text.LexLeBmp | frontend/src/app/map-view/artist_trajectory_graph.ts:201 | on text without characters beyond U+FFFF, such as years, code-unit order is code-point order |
| Text.CodeUnitOrderIsNotCodePointOrder | frontend/src/app/map-view/artist_list.ts:40 | beyond U+FFFF it is not: U+1D49C sorts before U+FF21 |
| TrajectoryGraph.AddPlaceSpec | frontend/src/app/map-view/artist_trajectory_graph.ts:146-155 | an unnamed place changes nothing; a known name leaves the places as they are; a new name is appended |
| TrajectoryGraph.AddPlaceAt | frontend/src/app/map-view/artist_trajectory_graph.ts:148-155 | the returned index holds a place of that name and earlier places are untouched |
| TrajectoryGraph.AddPlacesSpec | frontend/src/app/map-view/artist_trajectory_graph.ts:142-159 | the place names afterwards are the distinct names of those before followed by the named input places, in first-seen order |
| TrajectoryGraph.AddPlacesAt | frontend/src/app/map-view/artist_trajectory_graph.ts:142-159 | one index per named input place, in order, each pointing at a place of that name |
| TrajectoryGraph.AddPlacesIndexed | frontend/src/app/map-view/artist_trajectory_graph.ts:148-153 | the name map keeps finding every place by its name, and nothing else |
| TrajectoryGraph.AddCpSpec | frontend/src/app/map-view/artist_trajectory_graph.ts:174-189 | a known (place, year) gets its existing index, a new one is appended; the index returned holds that connection point |
| TrajectoryGraph.AddConnectionPointsSpec | frontend/src/app/map-view/artist_trajectory_graph.ts:161-192 | the connection points afterwards are the distinct points of those before followed by the exhibition's (place, year) points |
| TrajectoryGraph.AddConnectionPointsAt | frontend/src/app/map-view/artist_trajectory_graph.ts:161-192 | the j-th returned index holds the point of the j-th place index in that year |
| TrajectoryGraph.AddConnectionPointsIndexed | frontend/src/app/map-view/artist_trajectory_graph.ts:181-186 | the pair map keeps finding every connection point, and nothing else |
| TrajectoryGraph.WithPlaces | frontend/src/app/map-view/artist_trajectory_graph.ts:45-52 | keeps exactly the exhibitions that have places |
| TrajectoryGraph.WithPlacesSpec | frontend/src/app/map-view/artist_trajectory_graph.ts:45-52 | the `forEach` with its early `return` keeps the exhibitions with places in input order (a subsequence), each as often as it occurs, and none of the others |
| TrajectoryGraph.TrajectoryShape | frontend/src/app/map-view/artist_trajectory_graph.ts:33-65 | one entry per year-sorted exhibition with places; an entry is empty exactly when none of its places is named |
| TrajectoryGraph.AddTrajectoriesValid | frontend/src/app/map-view/artist_trajectory_graph.ts:33-65 | adding all artists keeps both tables consistent and every trajectory refers to existing connection points |
| TrajectoryGraph.EmptyValid | frontend/src/app/map-view/artist_trajectory_graph.ts:353-361 | the empty graph is consistent |
| TrajectoryGraph.PushYearsSpec | frontend/src/app/map-view/artist_trajectory_graph.ts:196-198 | each place gains the years of its connection points, in order |
| TrajectoryGraph.YearsOfNoDup | frontend/src/app/map-view/artist_trajectory_graph.ts:196-198 | deduplicated connection points give each place each year at most once |
| TrajectoryGraph.SortYearsSpec | frontend/src/app/map-view/artist_trajectory_graph.ts:201 | the sorted years are a permutation in string order without repeats, in numeric order when all have four digits |
| TrajectoryGraph.PlaceYearsSpec | frontend/src/app/map-view/artist_trajectory_graph.ts:194-202 | each place ends up with exactly the years of its connection points, once each, sorted |
| TrajectoryGraph.ArgMaxFirst | frontend/src/app/map-view/artist_trajectory_graph.ts:77-86 | the position of a largest size, the first one on ties |
| TrajectoryGraph.Representative | frontend/src/app/map-view/artist_trajectory_graph.ts:76-87 | a member of the list whose place has the most years, the earliest such on ties |
| TrajectorySort.ScanEnd | frontend/src/app/map-view/artist_trajectory_graph.ts:227-231 | the scan consumes at least one representative and stops one past the first of another year |
| TrajectorySort.ScanEndUnique | frontend/src/app/map-view/artist_trajectory_graph.ts:227-231 | that end position is the only one with this property |
| TrajectorySort.ComputeSubset | frontend/src/app/map-view/artist_trajectory_graph.ts:219-238 | a non-empty range from the running index whose unique points are exactly the representatives in it, without repeats |
| TrajectorySort.Emit | frontend/src/app/map-view/artist_trajectory_graph.ts:244-252 | one step per occurrence of the point in the batch, each with that point as main |
| TrajectorySort.EmitCount | frontend/src/app/map-view/artist_trajectory_graph.ts:244-252 | the number of steps of a point equals its occurrences in the batch |
| TrajectorySort.Exclude | frontend/src/app/map-view/artist_trajectory_graph.ts:268-283 | the batch points other than the locked one |
| TrajectorySort.ResolveFrom | frontend/src/app/map-view/artist_trajectory_graph.ts:256-290 | extends the steps so far and leaves a strictly shorter prefix of the stack |
| TrajectorySort.ResolveClears | frontend/src/app/map-view/artist_trajectory_graph.ts:256-272 | when only the bottom batch has no shared point, resolving empties the stack |
| TrajectorySort.ResolveStartsWithTop | frontend/src/app/map-view/artist_trajectory_graph.ts:256-286 | resolving begins with the steps of the top batch |
| TrajectorySort.ResolveFromRepsAll | frontend/src/app/map-view/artist_trajectory_graph.ts:239-293 | every step resolved is a representative with its exhibition's other points |
| TrajectorySort.StepStack | frontend/src/app/map-view/artist_trajectory_graph.ts:318-346 | the new batch is on top with its shared points; with two or more shared points nothing is popped |
| TrajectorySort.StepShape | frontend/src/app/map-view/artist_trajectory_graph.ts:318-346 | only the bottom batch lacks shared points, and after zero or one shared point the new batch is alone on the stack |
| TrajectorySort.Step | frontend/src/app/map-view/artist_trajectory_graph.ts:304-347 | each iteration consumes at least one representative and only appends steps |
| TrajectorySort.Loop | frontend/src/app/map-view/artist_trajectory_graph.ts:304-350 | the loop only appends to the steps already sorted |
| TrajectorySort.SortTrajectory | frontend/src/app/map-view/artist_trajectory_graph.ts:204-351 | every step's main is a representative and its side is that exhibition's other points, never the main itself |
| TrajectorySort.OneBatchNoSteps | frontend/src/app/map-view/artist_trajectory_graph.ts:296-350 | when the first year batch takes every representative, nothing is emitted |
| TrajectorySort.ShortTrajectoryNoSteps | frontend/src/app/map-view/artist_trajectory_graph.ts:296-350 | one or two representatives never give a step |
| TrajectorySort.ThreeYearsExample | frontend/src/app/map-view/artist_trajectory_graph.ts:204-351 | three exhibitions in 1905, 1906 and 1907 at three places give two steps: the overshoot puts 1905 and 1906 in one batch, which comes out reversed, and the 1907 point is never emitted |
| TrajectorySort.SharedPointTwice | frontend/src/app/map-view/artist_trajectory_graph.ts:323-342 | with exactly one shared point, its steps in the new batch are emitted at least twice |
| EdgeTables.AddSideSpec | frontend/src/app/map-view/artist_trajectory_graph.ts:100-110 | one self connection: the map stays valid, only new ends are appended, with weight 1, and existing connections are untouched |
| EdgeTables.AddSidesEnds | frontend/src/app/map-view/artist_trajectory_graph.ts:94-115 | one self connection per distinct ordered pair, in first-seen order |
| EdgeTables.AddSidesWeights | frontend/src/app/map-view/artist_trajectory_graph.ts:105-113 | existing self connections are untouched and every new one has weight 1 |
| EdgeTables.AddSidesIndexed | frontend/src/app/map-view/artist_trajectory_graph.ts:101-104 | the pair map finds every self connection by its ends |
| EdgeTables.AddTransitionSpec | frontend/src/app/map-view/artist_trajectory_graph.ts:124-137 | one transition: only new ends are appended, and the weight of the connection with these ends, and no other, grows by one |
| EdgeTables.AddTransitionsEnds | frontend/src/app/map-view/artist_trajectory_graph.ts:117-138 | one transition per distinct ordered pair in first-seen order; (a, b) and (b, a) are different |
| EdgeTables.AddTransitionsWeights | frontend/src/app/map-view/artist_trajectory_graph.ts:117-138 | a transition's weight is its weight before plus the number of occurrences of its pair |
| EdgeTables.AddTransitionsIndexed | frontend/src/app/map-view/artist_trajectory_graph.ts:125-128 | the pair map finds every transition by its ends |
| EdgeTables.AddSidesAppend | frontend/src/app/map-view/artist_trajectory_graph.ts:72-115 | adding two batches of self connections in turn is adding them at once |
| EdgeTables.AddTransitionsAppend | frontend/src/app/map-view/artist_trajectory_graph.ts:72-139 | the same for transitions |
| GraphBuild.Reps | frontend/src/app/map-view/artist_trajectory_graph.ts:76-87 | one representative per exhibition, each an existing connection point |
| GraphBuild.Points | frontend/src/app/map-view/artist_trajectory_graph.ts:89-91 | every step is an exhibition's representative with its other points, and its main is not among them |
| GraphBuild.TrajectoryPoints | frontend/src/app/map-view/artist_trajectory_graph.ts:76-91 | fails exactly for a trajectory with an empty entry (the `reduce` throws) or no entry (`reps[0]`), with that error |
| GraphBuild.SidePairs | frontend/src/app/map-view/artist_trajectory_graph.ts:94-98 | the pairs are exactly the (main, side point) pairs of the steps |
| GraphBuild.TransitionPairs | frontend/src/app/map-view/artist_trajectory_graph.ts:118-122 | one pair per consecutive two steps, joining their mains |
| GraphBuild.ConnectOne | frontend/src/app/map-view/artist_trajectory_graph.ts:72-138 | one trajectory fails exactly when it cannot be sorted, with that error |
| GraphBuild.ConnectFails | frontend/src/app/map-view/artist_trajectory_graph.ts:72-139 | the connection step throws exactly when some trajectory fails, and then with the first failing one's error |
| GraphBuild.ConnectTables | frontend/src/app/map-view/artist_trajectory_graph.ts:72-139 | when nothing fails, the tables get all self connections and all transitions, trajectory by trajectory |
| GraphBuild.AllSides | frontend/src/app/map-view/artist_trajectory_graph.ts:94-115 | every self connection joins two different existing connection points |
| GraphBuild.AllTransitions | frontend/src/app/map-view/artist_trajectory_graph.ts:117-122 | every transition joins two existing connection points |
| GraphBuild.SidePairsIn | frontend/src/app/map-view/artist_trajectory_graph.ts:244-251 | the same for one trajectory's self connections |
| GraphBuild.TransitionPairsIn | frontend/src/app/map-view/artist_trajectory_graph.ts:117-122 | the same for one trajectory's transitions |
| GraphBuild.Prepare | frontend/src/app/map-view/artist_trajectory_graph.ts:11-14 | one trajectory per artist, all referring to existing places and connection points |
| GraphBuild.ArtistFailing | frontend/src/app/map-view/artist_trajectory_graph.ts:45-62 | an artist's trajectory fails exactly when none of their exhibitions has places or one of them has only unnamed places |
| GraphBuild.BuildFails | frontend/src/app/map-view/artist_trajectory_graph.ts:11-16 | the constructor throws exactly when some artist cannot be plotted |
| GraphBuild.BuildOk | frontend/src/app/map-view/artist_trajectory_graph.ts:11-16 | when every artist can be plotted the build succeeds, no trajectory fails, and its tables hold all self connections and all transitions |
| GraphBuild.BuildSelfConnections | frontend/src/app/map-view/artist_trajectory_graph.ts:94-115 | one self connection per distinct (main, side) pair of all steps, in first-seen order, each of weight 1 and joining two different points |
| GraphBuild.BuildTransitions | frontend/src/app/map-view/artist_trajectory_graph.ts:117-138 | one transition per distinct ordered pair of consecutive steps, in first-seen order, weighted by how often it occurs |
| GraphBuild.PreparedYears | frontend/src/app/map-view/artist_trajectory_graph.ts:194-202 | once all artists are in, each place holds exactly the years of its connection points, once each, sorted |
| PlaceConnection.SymConnKey | frontend/src/app/map-view/place_connection.ts:126-128 | the two ids, smaller first |
| PlaceConnection.SymConnKeySymmetric | frontend/src/app/map-view/place_connection.ts:126-128 | the key does not depend on the order of the ids |
| PlaceConnection.SortPlaces | frontend/src/app/map-view/place_connection.ts:132-134 | a permutation of the places in ascending id order |
| PlaceConnection.SortExhibitions | frontend/src/app/map-view/place_connection.ts:15-19 | a permutation of the exhibitions in ascending year order |
| PlaceConnection.FindById | frontend/src/app/map-view/place_connection.ts:149 | a position holding the id, if any |
| PlaceConnection.FindByIdFirst | frontend/src/app/map-view/place_connection.ts:149 | the first such position, and nothing only when no place has the id |
| PlaceConnection.FirstSharedFirst | frontend/src/app/map-view/place_connection.ts:148-151 | the first place of the later exhibition that also occurs in the earlier one, matched with its first copy; nothing only when they share no id |
| PlaceConnection.ScanMinIsMin | frontend/src/app/map-view/place_connection.ts:160-174 | the first pair of least distance, or nothing when no pair is nearer than `MAX_SAFE_INTEGER` |
| PlaceConnection.GetOptimalPlaces | frontend/src/app/map-view/place_connection.ts:138-143 | throws the empty-set error exactly when either list is empty |
| PlaceConnection.OptimalPlacesShared | frontend/src/app/map-view/place_connection.ts:145-151 | the chosen places come from the two lists, and a shared place is chosen on both sides when there is one |
| PlaceConnection.OptimalPlacesNearest | frontend/src/app/map-view/place_connection.ts:153-179 | without a shared place, the nearest pair is chosen; the search fails exactly when no pair is nearer than `MAX_SAFE_INTEGER` |
| PlaceConnection.FreshLookupMisses | frontend/src/app/map-view/place_connection.ts:26-28 | a lookup with a freshly built array key finds nothing |
| PlaceConnection.AddConnection | frontend/src/app/map-view/place_connection.ts:31-34 | appends the connection and touches nothing else |
| PlaceConnection.AddSeConnection | frontend/src/app/map-view/place_connection.ts:35-38 | appends the same-exhibition connection and touches nothing else |
| PlaceConnection.Chain | frontend/src/app/map-view/place_connection.ts:46-57 | one link per neighbouring pair of places |
| PlaceConnection.SeLink | frontend/src/app/map-view/place_connection.ts:76-86 | the tracker lookup misses, so the connection is always added |
| PlaceConnection.SeLinks | frontend/src/app/map-view/place_connection.ts:73-88 | all neighbouring pairs of the exhibition's places are linked |
| PlaceConnection.LinkStep | frontend/src/app/map-view/place_connection.ts:61-120 | one later exhibition adds its chain and exactly one directed connection, or throws the search's error |
| PlaceConnection.Stops | frontend/src/app/map-view/place_connection.ts:41-43 | each exhibition with its places sorted by id |
| PlaceConnection.SearchesAt | frontend/src/app/map-view/place_connection.ts:91 | the k-th search is between the places of exhibitions k and k+1 |
| PlaceConnection.PrefixSpec | frontend/src/app/map-view/place_connection.ts:41-120 | the loop succeeds exactly when every search does, giving all links and all chains |
| PlaceConnection.PrefixError | frontend/src/app/map-view/place_connection.ts:142-143 | a failing loop throws the error of its first failing search |
| PlaceConnection.GetConnections | frontend/src/app/map-view/place_connection.ts:11-123 | no exhibitions is an error; otherwise the call succeeds exactly when every search succeeds, returning the links and chains of the year-sorted exhibitions |
| ConnectionFacts.ConnectionsJoinConsecutive | frontend/src/app/map-view/place_connection.ts:61-120 | a successful call yields one directed connection per pair of consecutive exhibitions, joining their optimal places |
| ConnectionFacts.ConnectionsForward | frontend/src/app/map-view/place_connection.ts:97-114 | directed connections never run backwards in time |
| ConnectionFacts.EmptyPlacesThrow | frontend/src/app/map-view/place_connection.ts:142-143 | with two exhibitions or more, one without places makes the call throw |
| ConnectionFacts.SingleExhibition | frontend/src/app/map-view/place_connection.ts:41-61 | one exhibition never throws and yields only the chain of its places |
| ConnectionFacts.SeConnectionCount | frontend/src/app/map-view/place_connection.ts:41-88 | the number of same-exhibition connections is the sum over exhibitions of their places minus one |
| ConnectionFacts.SeTotalPermutation | frontend/src/app/map-view/place_connection.ts:15-19 | that sum does not depend on the order of the exhibitions |
| ConnectionFacts.SeConnectionsOrdered | frontend/src/app/map-view/place_connection.ts:73-86 | every same-exhibition connection goes from the lower place id to the higher |
| ConnectionFacts.EmptyStopFails | frontend/src/app/map-view/place_connection.ts:142-143 | an exhibition without places fails a search on a side of it |
| ArtistList.InitValid | frontend/src/app/map-view/artist_list.ts:9-20 | the picker starts unloaded, with one placeholder offered and nothing picked |
| ArtistList.Load | frontend/src/app/map-view/artist_list.ts:37-43 | the offered names become the full names of the artists in UTF-16 code-unit order; the picker is loaded and the picked names are kept |
| ArtistList.Select | frontend/src/app/map-view/artist_list.ts:45-51 | nothing changes before loading or for a picked name; otherwise the name is picked last and no longer offered, and all other offered names stay |
| ArtistList.Remove | frontend/src/app/map-view/artist_list.ts:53-57 | the name is unpicked and offered once more, in UTF-16 code-unit order, whether or not it was offered already |
| ArtistList.LoadValid | frontend/src/app/map-view/artist_list.ts:37-43 | loading keeps the offered names sorted and the picked ones unique |
| ArtistList.SelectValid | frontend/src/app/map-view/artist_list.ts:45-51 | so does selecting |
| ArtistList.RemoveValid | frontend/src/app/map-view/artist_list.ts:53-57 | so does removing |
| ArtistList.SelectRemove | frontend/src/app/map-view/artist_list.ts:45-57 | picking a name offered once and unpicking it restores the state |
| ArtistList.RemoveUnpicked | frontend/src/app/map-view/artist_list.ts:53-57 | unpicking an offered name that was never picked offers it twice |
| ArtistList.Filter | frontend/src/app/map-view/artist_list.ts:59-64 | every name kept contains the filter text, ignoring case |
| ArtistList.FilterSpec | frontend/src/app/map-view/artist_list.ts:59-64 | the filter keeps exactly the matching names, as often as offered, in the order offered |
| ArtistList.FilterEmpty | frontend/src/app/map-view/artist_list.ts:59-64 | an empty filter keeps every name |
| ArtistList.FilterSorted | frontend/src/app/map-view/artist_list.ts:59-64 | the filtered names are sorted |

## Left out

- Drawing, the map projection, the zoom, tooltips and the Angular components are not modelled; they are presentation only.
- Routing curves between markers, marker declutter and vector geometry (vec2.ts, line.ts, graph_drawer.ts) are not modelled; they are floating-point geometry.
- The GraphQL transport and `Parse.query` are not modelled; hosts arrive already parsed. `Parse.int` and `Parse.string` follow frontend/src/objects/common.ts; src/objects/common.ts is not part of this model.
- `Exhibitions.Kept`: whether `Number(id)` is an integer comes with each raw record, because JavaScript's `Number` conversion of text (exponents, hexadecimal, blanks) is not modelled.
- `MatSelect.writeValue` in `select_artist` is a UI side effect and is dropped.
- The frontend `Place.from_hosts`, which the graph builder and `PlaceConnection` call, is not part of this model. The place lists those two receive are inputs.
- `d3.intersection` is modelled as an intersection that keeps the first set's order (`Seqs.Intersect`).
- The year comparator of `add_artist_trajectory` and `get_connections` returns 0 when a year is missing, which is not a consistent order. The model assumes every exhibition has a start year and sorts stably by year.
- `TrajectoryGraph.PlaceYearsSpec`: numeric order of the years is stated only for four-digit years, because the default `sort()` compares strings and orders 10 before 9.
- `Text.ParseInt`: the result is an unbounded integer. JavaScript returns a double, which rounds numerals beyond 2^53.
- `ToLower` lower-cases ASCII letters only, so other scripts are not case-folded.
- `get_optimal_places_for_conn` compares squared distances over reals instead of `Math.sqrt` on doubles. The minimum found is the same, but floating-point rounding is not modelled.
- `TrajectoryGraph.AddArtistTrajectory`: `add_artist_trajectory` sorts the artist's `exhibited_exhibitions` array in place (artist_trajectory_graph.ts:35-41). The model sorts a copy and does not return the reordered artist.
- `NPNMap.delete`, `values`, `clear`, `forEach` and `size` are never used by the graph and are not modelled.
- Number widths are not modelled: ids, indices and years are unbounded integers. Indices in the source stay far below 2^53.

=== FILE: artist_list.dfy ===
/** `ArtistList` of frontend/src/app/map-view/artist_list.ts: the names
    offered in the artist picker and the names picked, as a state machine
    over load, select, remove and filter. */
module ArtistList {

  import opened Wrappers
  import opened Seqs
  import opened Sorting
  import opened Text

  /** An artist as far as the list needs it: a first and a last name,
      either of which may be missing. */
  datatype Artist = Artist(firstName: Option<string>, lastName: Option<string>)

  datatype State = State(available: seq<string>, selected: seq<string>, loaded: bool)

  /** Before loading, the picker shows a single placeholder entry. */
  const Init := State(["..."], [], false)

  /** A name part in a template string: a missing one prints as
      "undefined". */
  function Part(s: Option<string>): string {
    match s
    case Some(v) => v
    case None => "undefined"
  }

  /** `first_name + ' ' + last_name`. */
  function FullName(a: Artist): string {
    Part(a.firstName) + " " + Part(a.lastName)
  }

  function Names(artists: seq<Artist>): (r: seq<string>)
    ensures |r| == |artists|
    ensures forall i :: 0 <= i < |artists| ==> r[i] == FullName(artists[i])
  {
    seq(|artists|, i requires 0 <= i < |artists| => FullName(artists[i]))
  }

  /** `Array.prototype.sort` without a comparison: string order. */
  function SortNames(names: seq<string>): (r: seq<string>)
    ensures multiset(r) == multiset(names)
    ensures SortedBy(LexLe, r)
  {
    LexLeTotalPreorder();
    SortBySorted(LexLe, names);
    SortBy(LexLe, names)
  }

  /** The state the picker keeps between operations: offered names in
      string order, no name picked twice. */
  predicate Valid(st: State) {
    SortedBy(LexLe, st.available) && NoDup(st.selected)
  }

  lemma InitValid()
    ensures Valid(Init) && !Init.loaded && Init.selected == []
  {
  }

  /** `load_artists`: offer every artist's full name, in string order. The
      picked names stay as they were. */
  function Load(st: State, artists: seq<Artist>): (r: State)
    ensures r.loaded && r.selected == st.selected
    ensures SortedBy(LexLe, r.available)
    ensures multiset(r.available) == multiset(Names(artists))
  {
    State(SortNames(Names(artists)), st.selected, true)
  }

  /** `select_artist`: nothing before loading or for a name already
      picked; otherwise the name is picked and no longer offered. */
  function Select(st: State, artist: string): (r: State)
    ensures !st.loaded || artist in st.selected ==> r == st
    ensures st.loaded && artist !in st.selected ==>
      r.loaded && r.selected == st.selected + [artist] &&
      artist !in r.available &&
      (forall y :: y in r.available <==> y in st.available && y != artist)
  {
    if !st.loaded then st
    else if artist in st.selected then st
    else State(Without(st.available, artist), st.selected + [artist], st.loaded)
  }

  /** `remove_artist`: the name is unpicked and offered again, whether or
      not it was picked or already offered. */
  function Remove(st: State, artist: string): (r: State)
    ensures r.loaded == st.loaded
    ensures SortedBy(LexLe, r.available)
    ensures multiset(r.available) == multiset(st.available) + multiset{artist}
    ensures artist !in r.selected
    ensures forall y :: y in r.selected <==> y in st.selected && y != artist
  {
    State(SortNames(st.available + [artist]), Without(st.selected, artist), st.loaded)
  }

  /** Loading, selecting and removing keep the state valid. */
  lemma LoadValid(st: State, artists: seq<Artist>)
    requires Valid(st)
    ensures Valid(Load(st, artists))
  {
  }

  lemma SelectValid(st: State, artist: string)
    requires Valid(st)
    ensures Valid(Select(st, artist))
  {
    if st.loaded && artist !in st.selected {
      SortedSubsequence(LexLe, st.available, artist);
      var sel := st.selected + [artist];
      forall i, j | 0 <= i < j < |sel|
        ensures sel[i] != sel[j]
      {
        if j == |sel| - 1 {
          assert sel[i] in st.selected;
        }
      }
    }
  }

  lemma RemoveValid(st: State, artist: string)
    requires Valid(st)
    ensures Valid(Remove(st, artist))
  {
    WithoutNoDup(st.selected, artist);
  }

  /** Picking an offered name and then unpicking it restores the state,
      provided the name was offered once and not yet picked. */
  lemma SelectRemove(st: State, artist: string)
    requires Valid(st) && st.loaded && artist !in st.selected
    requires multiset(st.available)[artist] == 1
    ensures Remove(Select(st, artist), artist) == st
  {
    var mid := Select(st, artist);
    var back := Remove(mid, artist);
    WithoutMultiset(st.available, artist);
    assert multiset(back.available) == multiset(st.available);
    LexLeTotalPreorder();
    forall x, y | LexLe(x, y) && LexLe(y, x)
      ensures x == y
    {
      LexLeAntisymmetric(x, y);
    }
    SortedUnique(LexLe, back.available, st.available);
    WithoutSnoc(st.selected, artist);
  }

  /** Unpicking a name that was never picked still offers it once more. */
  lemma RemoveUnpicked(st: State, artist: string)
    requires artist in st.available && artist !in st.selected
    ensures multiset(Remove(st, artist).available)[artist] >= 2
    ensures Remove(st, artist).selected == st.selected
  {
    assert multiset(st.available)[artist] >= 1;
  }

  // ---------------------------------------------------------------------
  // Filter

  /** The case-insensitive substring test of `filter_artists`. */
  predicate Matches(name: string, value: string) {
    Contains(ToLower(name), ToLower(value))
  }

  /** `filter_artists`: the offered names that contain the filter text,
      ignoring case, in their order. */
  function Filter(names: seq<string>, value: string): (r: seq<string>)
    ensures |r| <= |names|
    ensures forall x :: x in r ==> Matches(x, value)
  {
    if |names| == 0 then []
    else (if Matches(names[0], value) then [names[0]] else []) + Filter(names[1..], value)
  }

  function FilterArtists(st: State, value: string): seq<string> {
    Filter(st.available, value)
  }

  /** The filter keeps exactly the matching names, each as often as it is
      offered, in the order offered. */
  lemma FilterSpec(names: seq<string>, value: string)
    ensures IsSubsequence(Filter(names, value), names)
    ensures forall x :: multiset(Filter(names, value))[x] == if Matches(x, value) then multiset(names)[x] else 0
  {
    FilterSubsequence(names, value);
    forall x ensures multiset(Filter(names, value))[x] == if Matches(x, value) then multiset(names)[x] else 0 {
      FilterCount(names, value, x);
    }
  }

  lemma {:induction false} FilterSubsequence(names: seq<string>, value: string)
    ensures IsSubsequence(Filter(names, value), names)
  {
    if |names| > 0 {
      var rest := Filter(names[1..], value);
      FilterSubsequence(names[1..], value);
      if Matches(names[0], value) {
        var r := [names[0]] + rest;
        assert Filter(names, value) == r;
        assert r[0] == names[0] && r[1..] == rest;
      } else {
        assert Filter(names, value) == rest;
      }
    }
  }

  lemma {:induction false} FilterCount(names: seq<string>, value: string, x: string)
    ensures multiset(Filter(names, value))[x] == if Matches(x, value) then multiset(names)[x] else 0
  {
    if |names| > 0 {
      var head := if Matches(names[0], value) then [names[0]] else [];
      var rest := Filter(names[1..], value);
      assert Filter(names, value) == head + rest;
      assert names == [names[0]] + names[1..];
      assert multiset(names)[x] == multiset([names[0]])[x] + multiset(names[1..])[x];
      assert multiset(head + rest)[x] == multiset(head)[x] + multiset(rest)[x];
      FilterCount(names[1..], value, x);
    }
  }

  /** An empty filter offers every name. */
  lemma {:induction false} FilterEmpty(names: seq<string>)
    ensures Filter(names, "") == names
  {
    if |names| > 0 {
      assert ToLower("") == "";
      ContainsEmpty(ToLower(names[0]));
      FilterEmpty(names[1..]);
      assert names == [names[0]] + names[1..];
    }
  }

  /** The filter of sorted names is sorted. */
  lemma FilterSorted(st: State, value: string)
    requires Valid(st)
    ensures SortedBy(LexLe, FilterArtists(st, value))
  {
    FilterSpec(st.available, value);
    SubsequenceSorted(LexLe, Filter(st.available, value), st.available);
  }
}

=== FILE: connection_facts.dfy ===
/** What `get_connections` of frontend/src/app/map-view/place_connection.ts
    builds, stated about the input exhibitions: how many connections of each
    kind, which places they join, and when the call throws. */
module ConnectionFacts {

  import opened Wrappers
  import opened PlaceConnection

  // ---------------------------------------------------------------------
  // Directed connections

  /** The connection between stops k and k+1 when their search succeeds. */
  function LinkAt(stops: seq<Exhibition>, k: nat): Connection
    requires k + 1 < |stops|
    requires GetOptimalPlaces(stops[k].places, stops[k + 1].places).Ok?
  {
    ConnectionFor(GetOptimalPlaces(stops[k].places, stops[k + 1].places).value, stops[k].year, stops[k + 1].year)
  }

  /** The searches succeed exactly when each of them does. */
  lemma {:induction false} LinksOkAll(found: seq<Result<(Place, Place), ConnectionError>>, n: nat)
    requires n <= |found| + 1
    ensures LinksOk(found, n) <==> forall k :: 0 <= k < n - 1 ==> found[k].Ok?
  {
    if n > 1 {
      LinksOkAll(found, n - 1);
    }
  }

  /** When every search succeeds, the k-th connection joins stops k and
      k+1 at the pair found between them, and there is one per consecutive
      pair. */
  lemma {:induction false} LinksAt(stops: seq<Exhibition>, found: seq<Result<(Place, Place), ConnectionError>>, n: nat)
    requires 1 <= n <= |stops| && n <= |found| + 1 && LinksOk(found, n)
    ensures |Links(stops, found, n)| == n - 1
    ensures forall k :: 0 <= k < n - 1 ==>
      found[k].Ok? && Links(stops, found, n)[k] == ConnectionFor(found[k].value, stops[k].year, stops[k + 1].year)
  {
    if n > 1 {
      LinksAt(stops, found, n - 1);
      var pre := Links(stops, found, n - 1);
      var all := Links(stops, found, n);
      forall k | 0 <= k < n - 1
        ensures found[k].Ok? && all[k] == ConnectionFor(found[k].value, stops[k].year, stops[k + 1].year)
      {
        if k < n - 2 {
          assert all[k] == pre[k];
        }
      }
    }
  }

  /** With the searches between consecutive stops, the k-th connection is
      the one `LinkAt` describes. */
  lemma SearchLinkAt(stops: seq<Exhibition>, k: nat)
    requires |stops| >= 1 && LinksOk(Searches(stops), |stops|) && k + 1 < |stops|
    ensures |Links(stops, Searches(stops), |stops|)| == |stops| - 1
    ensures GetOptimalPlaces(stops[k].places, stops[k + 1].places).Ok?
    ensures Links(stops, Searches(stops), |stops|)[k] == LinkAt(stops, k)
  {
    var found := Searches(stops);
    LinksAt(stops, found, |stops|);
    SearchesAt(stops, k);
  }

  /** A successful call yields one connection per pair of exhibitions that
      are consecutive in year order, joining their optimal places. */
  lemma ConnectionsJoinConsecutive(exhibitions: seq<Exhibition>)
    requires GetConnections(exhibitions).Ok?
    ensures |GetConnections(exhibitions).value.0| == |exhibitions| - 1
    ensures forall k :: 0 <= k < |exhibitions| - 1 ==>
      GetOptimalPlaces(InYearOrder(exhibitions)[k].places, InYearOrder(exhibitions)[k + 1].places).Ok? &&
      GetConnections(exhibitions).value.0[k] == LinkAt(InYearOrder(exhibitions), k)
  {
    var stops := InYearOrder(exhibitions);
    LinksAt(stops, Searches(stops), |stops|);
    forall k | 0 <= k < |exhibitions| - 1
      ensures GetOptimalPlaces(stops[k].places, stops[k + 1].places).Ok? &&
        GetConnections(exhibitions).value.0[k] == LinkAt(stops, k)
    {
      SearchLinkAt(stops, k);
    }
  }

  /** Consecutive stops are in year order, so the links go forward. */
  lemma LinksForward(stops: seq<Exhibition>, found: seq<Result<(Place, Place), ConnectionError>>, n: nat)
    requires 1 <= n <= |stops| && n <= |found| + 1 && LinksOk(found, n)
    requires forall i, j :: 0 <= i < j < |stops| ==> stops[i].year <= stops[j].year
    ensures forall c :: c in Links(stops, found, n) ==> c.lfy <= c.lty
  {
    var conns := Links(stops, found, n);
    LinksAt(stops, found, n);
    forall c | c in conns
      ensures c.lfy <= c.lty
    {
      var k :| 0 <= k < |conns| && conns[k] == c;
      assert c.lfy == stops[k].year && c.lty == stops[k + 1].year;
    }
  }

  /** The stops keep the years of the year-sorted input. */
  lemma InYearOrderSorted(exhibitions: seq<Exhibition>)
    ensures forall i, j :: 0 <= i < j < |exhibitions| ==> InYearOrder(exhibitions)[i].year <= InYearOrder(exhibitions)[j].year
  {
    var sorted := SortExhibitions(exhibitions);
    var stops := InYearOrder(exhibitions);
    assert forall k :: 0 <= k < |stops| ==> stops[k].year == sorted[k].year;
  }

  /** Connections never run backwards in time. */
  lemma ConnectionsForward(exhibitions: seq<Exhibition>)
    requires GetConnections(exhibitions).Ok?
    ensures forall c :: c in GetConnections(exhibitions).value.0 ==> c.lfy <= c.lty
  {
    var stops := InYearOrder(exhibitions);
    InYearOrderSorted(exhibitions);
    LinksForward(stops, Searches(stops), |exhibitions|);
  }

  // ---------------------------------------------------------------------
  // Errors

  /** A stop without places fails the search on each side of it. */
  lemma EmptyStopFails(stops: seq<Exhibition>, k: nat)
    requires 2 <= |stops| && k < |stops| && |stops[k].places| == 0
    ensures !LinksOk(Searches(stops), |stops|)
  {
    var found := Searches(stops);
    var j := if k == 0 then 0 else k - 1;
    SearchesAt(stops, j);
    assert found[j] == Err(EmptyPlaces);
    LinksOkAll(found, |stops|);
  }

  /** Sorting keeps an exhibition without places among the stops. */
  lemma EmptyStopKept(exhibitions: seq<Exhibition>, e: Exhibition) returns (k: nat)
    requires e in exhibitions && |e.places| == 0
    ensures k < |exhibitions| && |InYearOrder(exhibitions)[k].places| == 0
  {
    var sorted := SortExhibitions(exhibitions);
    assert e in multiset(sorted);
    k :| 0 <= k < |sorted| && sorted[k] == e;
  }

  /** With two exhibitions or more, one without places makes the call
      throw. */
  lemma EmptyPlacesThrow(exhibitions: seq<Exhibition>, e: Exhibition)
    requires |exhibitions| >= 2 && e in exhibitions && |e.places| == 0
    ensures GetConnections(exhibitions).Err?
  {
    var k := EmptyStopKept(exhibitions, e);
    EmptyStopFails(InYearOrder(exhibitions), k);
  }

  /** A single exhibition never throws: no directed connection, only the
      chain of its own places. */
  lemma SingleExhibition(e: Exhibition)
    ensures GetConnections([e]) == Ok(([], Chain(SortPlaces(e.places), e.year)))
  {
    var sorted := SortExhibitions([e]);
    assert sorted == [e] by {
      assert |sorted| == 1;
      assert sorted[0] in multiset(sorted);
    }
    var stops := InYearOrder([e]);
    var found := Searches(stops);
    assert stops[0] == Exhibition(e.year, SortPlaces(e.places));
    assert Chains(stops, 1) == Chains(stops, 0) + Chain(stops[0].places, stops[0].year);
    assert Chains(stops, 1) == Chain(SortPlaces(e.places), e.year);
    assert LinksOk(found, 1) && Links(stops, found, 1) == [];
    var r := GetConnections([e]);
    assert r.Ok? && r.value.0 == [] && r.value.1 == Chain(SortPlaces(e.places), e.year);
  }

  // ---------------------------------------------------------------------
  // Same-exhibition connections

  /** Links between neighbouring places of one exhibition. */
  function SePairs(e: Exhibition): nat {
    if |e.places| == 0 then 0 else |e.places| - 1
  }

  function SeTotal(exs: seq<Exhibition>): nat {
    if |exs| == 0 then 0 else SeTotal(exs[..|exs| - 1]) + SePairs(exs[|exs| - 1])
  }

  lemma {:induction false} SeTotalAppend(a: seq<Exhibition>, b: seq<Exhibition>)
    ensures SeTotal(a + b) == SeTotal(a) + SeTotal(b)
    decreases |b|
  {
    if |b| == 0 {
      assert a + b == a;
    } else {
      var n := |b| - 1;
      assert (a + b)[..|a + b| - 1] == a + b[..n];
      SeTotalAppend(a, b[..n]);
    }
  }

  /** Taking out one exhibition takes out its links. */
  lemma SeTotalRemove(b: seq<Exhibition>, k: nat)
    requires k < |b|
    ensures SeTotal(b) == SeTotal(b[..k] + b[k + 1..]) + SePairs(b[k])
  {
    assert b == b[..k] + ([b[k]] + b[k + 1..]);
    SeTotalAppend(b[..k], [b[k]] + b[k + 1..]);
    SeTotalAppend([b[k]], b[k + 1..]);
    SeTotalAppend(b[..k], b[k + 1..]);
    assert SeTotal([b[k]]) == SePairs(b[k]) by {
      assert [b[k]][..0] == [];
    }
  }

  /** The count does not depend on the order of the exhibitions. */
  lemma {:induction false} SeTotalPermutation(a: seq<Exhibition>, b: seq<Exhibition>)
    requires multiset(a) == multiset(b)
    ensures SeTotal(a) == SeTotal(b)
    decreases |a|
  {
    if |a| == 0 {
      assert |b| == |multiset(b)| == 0;
    } else {
      var n := |a| - 1;
      var x := a[n];
      assert a == a[..n] + [x];
      assert x in multiset(b);
      var k :| 0 <= k < |b| && b[k] == x;
      var rest := b[..k] + b[k + 1..];
      assert b == b[..k] + [x] + b[k + 1..];
      assert multiset(rest) == multiset(b) - multiset{x};
      assert multiset(a[..n]) == multiset(a) - multiset{x};
      SeTotalPermutation(a[..n], rest);
      SeTotalRemove(b, k);
    }
  }

  lemma {:induction false} ChainsLength(stops: seq<Exhibition>, n: nat)
    requires n <= |stops|
    ensures |Chains(stops, n)| == SeTotal(stops[..n])
  {
    if n > 0 {
      ChainsLength(stops, n - 1);
      assert stops[..n][..n - 1] == stops[..n - 1];
    }
  }

  lemma {:induction false} SeTotalSamePlaceCounts(a: seq<Exhibition>, b: seq<Exhibition>)
    requires |a| == |b|
    requires forall k :: 0 <= k < |a| ==> |a[k].places| == |b[k].places|
    ensures SeTotal(a) == SeTotal(b)
  {
    if |a| > 0 {
      SeTotalSamePlaceCounts(a[..|a| - 1], b[..|b| - 1]);
    }
  }

  /** A successful call links every exhibition's places in a chain: one
      same-exhibition connection per neighbouring pair, whatever the input
      order. */
  lemma SeConnectionCount(exhibitions: seq<Exhibition>)
    requires GetConnections(exhibitions).Ok?
    ensures |GetConnections(exhibitions).value.1| == SeTotal(exhibitions)
  {
    ChainsCount(exhibitions);
  }

  /** The chains of all stops hold one link per neighbouring pair of places
      of each input exhibition. */
  lemma ChainsCount(exhibitions: seq<Exhibition>)
    ensures |Chains(InYearOrder(exhibitions), |exhibitions|)| == SeTotal(exhibitions)
  {
    var sorted := SortExhibitions(exhibitions);
    var stops := InYearOrder(exhibitions);
    ChainsLength(stops, |stops|);
    assert stops[..|stops|] == stops;
    SeTotalSamePlaceCounts(stops, sorted);
    SeTotalPermutation(sorted, exhibitions);
  }

  /** Each link of a chain over id-sorted places goes from the lower id to
      the higher, between places of that exhibition. */
  lemma ChainOrdered(places: seq<Place>, year: int)
    requires forall i, j :: 0 <= i < j < |places| ==> places[i].id <= places[j].id
    ensures forall c :: c in Chain(places, year) ==> c.p1.id <= c.p2.id && c.p1 in places && c.p2 in places
  {
    if |places| > 1 {
      var ch := Chain(places, year);
      forall c | c in ch
        ensures c.p1.id <= c.p2.id && c.p1 in places && c.p2 in places
      {
        var k :| 0 <= k < |ch| && ch[k] == c;
        assert c == NonDirectionalConnection(places[k], places[k + 1], year);
      }
    }
  }

  lemma {:induction false} ChainsOrdered(stops: seq<Exhibition>, n: nat)
    requires n <= |stops|
    requires forall k :: 0 <= k < |stops| ==>
      forall a, b :: 0 <= a < b < |stops[k].places| ==> stops[k].places[a].id <= stops[k].places[b].id
    ensures forall c :: c in Chains(stops, n) ==> c.p1.id <= c.p2.id
  {
    if n > 0 {
      ChainsOrdered(stops, n - 1);
      ChainOrdered(stops[n - 1].places, stops[n - 1].year);
    }
  }

  /** Every same-exhibition connection of a successful call goes from the
      lower place id to the higher. */
  lemma SeConnectionsOrdered(exhibitions: seq<Exhibition>)
    requires GetConnections(exhibitions).Ok?
    ensures forall c :: c in GetConnections(exhibitions).value.1 ==> c.p1.id <= c.p2.id
  {
    ChainsOrdered(InYearOrder(exhibitions), |exhibitions|);
  }
}

=== FILE: edge_tables.dfy ===
/** The two connection tables of `compute_connections` in
    frontend/src/app/map-view/artist_trajectory_graph.ts: a list of
    connections between connection points and an `NPNMap` from the ordered
    pair of ends to the connection's position. Self connections are added
    with weight 1 and never incremented; transitions start at 0 and are
    incremented on every occurrence. */
module EdgeTables {

  import opened Wrappers
  import opened Seqs
  import opened NpnMap

  /** `Connection`: two connection-point indices and a weight. */
  datatype Edge = Edge(p1: int, p2: int, weight: nat)

  datatype EdgeTable = EdgeTable(edges: seq<Edge>, index: NPNMap)

  const NoEdges := EdgeTable([], EmptyMap)

  function EndsOf(e: Edge): NumberPair {
    NumberPair(e.p1, e.p2)
  }

  /** The ordered end pairs of a list of connections. */
  function Ends(edges: seq<Edge>): (r: seq<NumberPair>)
    ensures |r| == |edges|
    ensures forall k :: 0 <= k < |edges| ==> r[k] == EndsOf(edges[k])
  {
    seq(|edges|, k requires 0 <= k < |edges| => EndsOf(edges[k]))
  }

  /** The map finds every connection by its ends, and nothing else. */
  ghost predicate Indexed(t: EdgeTable) {
    (forall k :: 0 <= k < |t.edges| ==> t.index.Get(EndsOf(t.edges[k])) == Some(k)) &&
    (forall np :: t.index.Get(np).Some? ==>
      t.index.Get(np).value < |t.edges| && EndsOf(t.edges[t.index.Get(np).value]) == np)
  }

  lemma NoEdgesIndexed()
    ensures Indexed(NoEdges) && |NoEdges.edges| == 0
  {
    forall np ensures NoEdges.index.Get(np) == None {
      GetEmpty(np);
    }
  }

  lemma IndexedNoDup(t: EdgeTable)
    requires Indexed(t)
    ensures NoDup(Ends(t.edges))
  {
  }

  /** Adding a new pair appends it and keeps the map valid. */
  lemma AppendIndexed(t: EdgeTable, e: Edge)
    requires Indexed(t) && t.index.Get(EndsOf(e)).None?
    ensures Indexed(EdgeTable(t.edges + [e], t.index.Set(EndsOf(e), |t.edges|)))
    ensures EndsOf(e) !in Ends(t.edges)
  {
    var np := EndsOf(e);
    var t2 := EdgeTable(t.edges + [e], t.index.Set(np, |t.edges|));
    forall k | 0 <= k < |t.edges| ensures EndsOf(t.edges[k]) != np {
      assert t.index.Get(EndsOf(t.edges[k])) == Some(k);
    }
    forall q ensures t2.index.Get(q) == if q == np then Some(|t.edges|) else t.index.Get(q) {
      GetSet(t.index, np, |t.edges|, q);
    }
  }

  // ---------------------------------------------------------------------
  // Self connections

  /** One self connection: added with weight 1 if its ends are new (the
      increment after it is commented out in the source). */
  function AddSide(t: EdgeTable, np: NumberPair): (r: EdgeTable)
    ensures |t.edges| <= |r.edges|
  {
    match t.index.Get(np)
    case Some(_) => t
    case None => EdgeTable(t.edges + [Edge(np.n1, np.n2, 1)], t.index.Set(np, |t.edges|))
  }

  function AddSides(t: EdgeTable, pairs: seq<NumberPair>): (r: EdgeTable)
    ensures |t.edges| <= |r.edges|
  {
    if |pairs| == 0 then t
    else AddSide(AddSides(t, pairs[..|pairs| - 1]), pairs[|pairs| - 1])
  }

  /** One step keeps the map valid, appends only a new pair, with weight 1,
      and changes no existing connection. */
  lemma AddSideSpec(t: EdgeTable, np: NumberPair)
    requires Indexed(t)
    ensures Indexed(AddSide(t, np))
    ensures Ends(AddSide(t, np).edges) ==
      if np in Ends(t.edges) then Ends(t.edges) else Ends(t.edges) + [np]
    ensures AddSide(t, np).edges[..|t.edges|] == t.edges
    ensures forall k :: |t.edges| <= k < |AddSide(t, np).edges| ==> AddSide(t, np).edges[k].weight == 1
  {
    if t.index.Get(np).None? {
      AppendIndexed(t, Edge(np.n1, np.n2, 1));
      assert Ends(AddSide(t, np).edges) == Ends(t.edges) + [np];
    } else {
      assert np == Ends(t.edges)[t.index.Get(np).value];
    }
  }

  lemma {:induction false} AddSidesIndexed(t: EdgeTable, pairs: seq<NumberPair>)
    requires Indexed(t)
    ensures Indexed(AddSides(t, pairs))
  {
    if |pairs| > 0 {
      var n := |pairs| - 1;
      AddSidesIndexed(t, pairs[..n]);
      AddSideSpec(AddSides(t, pairs[..n]), pairs[n]);
    }
  }

  /** There is one self connection per distinct ordered pair, in
      first-seen order. */
  lemma {:induction false} AddSidesEnds(t: EdgeTable, pairs: seq<NumberPair>)
    requires Indexed(t)
    ensures Ends(AddSides(t, pairs).edges) == Distinct(Ends(t.edges) + pairs)
  {
    if |pairs| == 0 {
      assert Ends(t.edges) + pairs == Ends(t.edges);
      IndexedNoDup(t);
      DistinctNoDup(Ends(t.edges));
    } else {
      var n := |pairs| - 1;
      var pre := Ends(t.edges) + pairs[..n];
      assert pairs == pairs[..n] + [pairs[n]];
      assert Ends(t.edges) + pairs == pre + [pairs[n]];
      AddSidesEnds(t, pairs[..n]);
      AddSidesIndexed(t, pairs[..n]);
      AddSideSpec(AddSides(t, pairs[..n]), pairs[n]);
      DistinctSnoc(pre, pairs[n]);
    }
  }

  /** Existing self connections are untouched and every new one has
      weight 1. */
  lemma {:induction false} AddSidesWeights(t: EdgeTable, pairs: seq<NumberPair>)
    requires Indexed(t)
    ensures AddSides(t, pairs).edges[..|t.edges|] == t.edges
    ensures forall k :: |t.edges| <= k < |AddSides(t, pairs).edges| ==> AddSides(t, pairs).edges[k].weight == 1
  {
    if |pairs| > 0 {
      var n := |pairs| - 1;
      assert pairs == pairs[..n] + [pairs[n]];
      AddSidesWeights(t, pairs[..n]);
      AddSidesIndexed(t, pairs[..n]);
      var prev := AddSides(t, pairs[..n]);
      AddSideSpec(prev, pairs[n]);
      var r := AddSides(t, pairs);
      assert r.edges[..|t.edges|] == r.edges[..|prev.edges|][..|t.edges|];
      forall k | |t.edges| <= k < |r.edges| ensures r.edges[k].weight == 1 {
        if k < |prev.edges| {
          assert r.edges[k] == r.edges[..|prev.edges|][k] == prev.edges[k];
        }
      }
    }
  }

  // ---------------------------------------------------------------------
  // Transitions

  /** One transition: added with weight 0 if its ends are new, then its
      weight is incremented. */
  function AddTransition(t: EdgeTable, np: NumberPair): (r: EdgeTable)
    ensures |t.edges| <= |r.edges|
  {
    var found := match t.index.Get(np)
      case Some(k) => (t, k)
      case None => (EdgeTable(t.edges + [Edge(np.n1, np.n2, 0)], t.index.Set(np, |t.edges|)), |t.edges|);
    var t1 := found.0;
    var k := found.1;
    if k < |t1.edges| then
      EdgeTable(t1.edges[k := t1.edges[k].(weight := t1.edges[k].weight + 1)], t1.index)
    else t1
  }

  function AddTransitions(t: EdgeTable, pairs: seq<NumberPair>): (r: EdgeTable)
    ensures |t.edges| <= |r.edges|
  {
    if |pairs| == 0 then t
    else AddTransition(AddTransitions(t, pairs[..|pairs| - 1]), pairs[|pairs| - 1])
  }

  /** One step keeps the map valid, appends only a new pair, and adds one
      to the weight of the connection with these ends and to no other. */
  lemma AddTransitionSpec(t: EdgeTable, np: NumberPair)
    requires Indexed(t)
    ensures Indexed(AddTransition(t, np))
    ensures Ends(AddTransition(t, np).edges) ==
      if np in Ends(t.edges) then Ends(t.edges) else Ends(t.edges) + [np]
    ensures forall k :: 0 <= k < |AddTransition(t, np).edges| ==>
      AddTransition(t, np).edges[k].weight ==
        (if k < |t.edges| then t.edges[k].weight else 0) + (if EndsOf(AddTransition(t, np).edges[k]) == np then 1 else 0)
  {
    var r := AddTransition(t, np);
    match t.index.Get(np)
    case Some(k) => {
      assert np == Ends(t.edges)[k];
      assert Ends(r.edges) == Ends(t.edges);
      forall i | 0 <= i < |r.edges| && i != k ensures EndsOf(r.edges[i]) != np {
        assert t.index.Get(EndsOf(t.edges[i])) == Some(i);
      }
    }
    case None => {
      var e := Edge(np.n1, np.n2, 0);
      AppendIndexed(t, e);
      var t1 := EdgeTable(t.edges + [e], t.index.Set(np, |t.edges|));
      assert Ends(r.edges) == Ends(t1.edges) == Ends(t.edges) + [np];
      forall i | 0 <= i < |t.edges| ensures EndsOf(r.edges[i]) != np {
        assert EndsOf(t.edges[i]) in Ends(t.edges);
      }
    }
  }

  lemma {:induction false} AddTransitionsIndexed(t: EdgeTable, pairs: seq<NumberPair>)
    requires Indexed(t)
    ensures Indexed(AddTransitions(t, pairs))
  {
    if |pairs| > 0 {
      var n := |pairs| - 1;
      AddTransitionsIndexed(t, pairs[..n]);
      AddTransitionSpec(AddTransitions(t, pairs[..n]), pairs[n]);
    }
  }

  /** There is one transition per distinct ordered pair, in first-seen
      order; `(a, b)` and `(b, a)` are different transitions. */
  lemma {:induction false} AddTransitionsEnds(t: EdgeTable, pairs: seq<NumberPair>)
    requires Indexed(t)
    ensures Ends(AddTransitions(t, pairs).edges) == Distinct(Ends(t.edges) + pairs)
  {
    if |pairs| == 0 {
      assert Ends(t.edges) + pairs == Ends(t.edges);
      IndexedNoDup(t);
      DistinctNoDup(Ends(t.edges));
    } else {
      var n := |pairs| - 1;
      var pre := Ends(t.edges) + pairs[..n];
      assert pairs == pairs[..n] + [pairs[n]];
      assert Ends(t.edges) + pairs == pre + [pairs[n]];
      AddTransitionsEnds(t, pairs[..n]);
      AddTransitionsIndexed(t, pairs[..n]);
      AddTransitionSpec(AddTransitions(t, pairs[..n]), pairs[n]);
      DistinctSnoc(pre, pairs[n]);
    }
  }

  /** The weight of a transition is its weight before plus the number of
      times its ordered pair occurs. */
  lemma {:induction false} AddTransitionsWeights(t: EdgeTable, pairs: seq<NumberPair>)
    requires Indexed(t)
    ensures forall k :: 0 <= k < |AddTransitions(t, pairs).edges| ==>
      AddTransitions(t, pairs).edges[k].weight ==
        (if k < |t.edges| then t.edges[k].weight else 0) + multiset(pairs)[EndsOf(AddTransitions(t, pairs).edges[k])]
  {
    if |pairs| > 0 {
      var n := |pairs| - 1;
      assert pairs == pairs[..n] + [pairs[n]];
      assert multiset(pairs) == multiset(pairs[..n]) + multiset{pairs[n]};
      AddTransitionsWeights(t, pairs[..n]);
      AddTransitionsIndexed(t, pairs[..n]);
      var prev := AddTransitions(t, pairs[..n]);
      AddTransitionSpec(prev, pairs[n]);
      var r := AddTransitions(t, pairs);
      forall k | 0 <= k < |r.edges|
        ensures r.edges[k].weight ==
          (if k < |t.edges| then t.edges[k].weight else 0) + multiset(pairs)[EndsOf(r.edges[k])]
      {
        assert Ends(r.edges)[k] == EndsOf(r.edges[k]);
        if k < |prev.edges| {
          assert EndsOf(r.edges[k]) == Ends(r.edges)[k] == Ends(prev.edges)[k] == EndsOf(prev.edges[k]);
        } else {
          assert EndsOf(r.edges[k]) == pairs[n];
          assert pairs[n] !in Ends(prev.edges);
          assert multiset(pairs[..n])[pairs[n]] == 0 by {
            AddTransitionsEnds(t, pairs[..n]);
          }
        }
      }
    }
  }

  // ---------------------------------------------------------------------
  // Folding in several batches

  /** Adding two batches of self connections one after the other is adding
      their concatenation. */
  lemma {:induction false} AddSidesAppend(t: EdgeTable, a: seq<NumberPair>, b: seq<NumberPair>)
    ensures AddSides(AddSides(t, a), b) == AddSides(t, a + b)
  {
    if |b| == 0 {
      assert a + b == a;
    } else {
      var n := |b| - 1;
      assert (a + b)[..|a + b| - 1] == a + b[..n];
      assert (a + b)[|a + b| - 1] == b[n];
      AddSidesAppend(t, a, b[..n]);
    }
  }

  /** The same for transitions. */
  lemma {:induction false} AddTransitionsAppend(t: EdgeTable, a: seq<NumberPair>, b: seq<NumberPair>)
    ensures AddTransitions(AddTransitions(t, a), b) == AddTransitions(t, a + b)
  {
    if |b| == 0 {
      assert a + b == a;
    } else {
      var n := |b| - 1;
      assert (a + b)[..|a + b| - 1] == a + b[..n];
      assert (a + b)[|a + b| - 1] == b[n];
      AddTransitionsAppend(t, a, b[..n]);
    }
  }
}

=== FILE: exhibition.dfy ===
/** src/objects/exhibition.ts: exhibition records built from a query
    result, with start and end years clamped to the displayed range. */
module Exhibitions {

  import opened Wrappers
  import opened Seqs
  import Text

  /** First and last year shown on the map. */
  const FirstYear: int := 1905
  const LastYear: int := 1915

  datatype ExhibitionType = Solo | Group | Auction

  /** The member's name, the key of the forward mapping. */
  function TypeName(t: ExhibitionType): string {
    match t
    case Solo => "solo"
    case Group => "group"
    case Auction => "auction"
  }

  /** The member's number, whose decimal text is the key of the reverse
      mapping. */
  function TypeNumber(t: ExhibitionType): nat {
    match t
    case Solo => 0
    case Group => 1
    case Auction => 2
  }

  function NumberKey(t: ExhibitionType): (k: string)
    ensures k == Text.IntToString(TypeNumber(t))
  {
    assert Text.IntToString(0) == "0" && Text.IntToString(1) == "1" && Text.IntToString(2) == "2";
    match t
    case Solo => "0"
    case Group => "1"
    case Auction => "2"
  }

  /** What indexing the enum object `ExhibitionType[value]` yields: the
      numeric enum maps each name to its member and each member's number
      back to the name; keys that the object inherits from
      `Object.prototype` yield the inherited member. */
  datatype TypeField = Member(t: ExhibitionType) | MemberName(name: string) | Inherited(key: string)

  /** The keys every object inherits from `Object.prototype`. */
  const InheritedKeys: seq<string> := [
    "constructor", "hasOwnProperty", "isPrototypeOf", "propertyIsEnumerable",
    "toLocaleString", "toString", "valueOf", "__proto__",
    "__defineGetter__", "__defineSetter__", "__lookupGetter__", "__lookupSetter__"]

  /** A JavaScript `number | undefined` as `Parse.int` returns it: undefined,
      NaN, or an integer. */
  datatype JsInt = Undefined | NaN | Int(value: int)

  /** A raw query record: text fields, missing when null. `idIsInteger` is
      `Number.isInteger(Number(id))`, the filter's test; JavaScript's
      `Number` conversion of text is given with the record rather than
      modelled. Hosts arrive already parsed. */
  datatype RawExhibition<Host> = RawExhibition(
    id: Option<string>,
    idIsInteger: bool,
    title: Option<string>,
    startDate: Option<string>,
    endDate: Option<string>,
    organizer: Option<string>,
    kind: Option<string>,
    hosts: seq<Host>)

  datatype Exhibition<Host> = Exhibition(
    id: JsInt,
    title: Option<string>,
    startYear: JsInt,
    endYear: JsInt,
    organizer: Option<string>,
    kind: Option<TypeField>,
    hosts: seq<Host>)

  /** The query object: missing altogether, or with a possibly missing
      `exhibitions` field. */
  datatype QueryData<Host> = QueryData(exhibitions: Option<seq<RawExhibition<Host>>>)

  /** `Parse.int` on a text field: a missing or empty field is falsy and
      gives undefined; the null marker `\N` is read as undefined, which
      `parseInt` turns into NaN; other text goes to `parseInt`. */
  function ParseIntField(value: Option<string>): (r: JsInt)
    ensures r.Undefined? <==> value.None? || value.value == ""
    ensures value == Some("\\N") ==> r.NaN?
    ensures r.Int? <==> value.Some? && value.value != "\\N" && Text.ParseInt(value.value).Some?
    ensures r.Int? ==> Text.ParseInt(value.value) == Some(r.value)
  {
    match value
    case None => Undefined
    case Some(v) =>
      if v == "" then Undefined
      else if v == "\\N" then NaN
      else match Text.ParseInt(v)
        case None => NaN
        case Some(n) => Int(n)
  }

  /** The clamp of `parse_year`: undefined stays undefined; NaN fails both
      comparisons and passes through; a year is clamped into
      [FirstYear, LastYear]. */
  function Clamp(year: JsInt): (r: JsInt)
    ensures r.Undefined? <==> year.Undefined?
    ensures r.NaN? <==> year.NaN?
    ensures r.Int? ==> FirstYear <= r.value <= LastYear
    ensures year.Int? && FirstYear < year.value < LastYear ==> r == year
    ensures year.Int? && year.value <= FirstYear ==> r == Int(FirstYear)
    ensures year.Int? && year.value >= LastYear ==> r == Int(LastYear)
  {
    match year
    case Undefined => Undefined
    case NaN => NaN
    case Int(y) =>
      if y <= FirstYear then Int(FirstYear)
      else if y >= LastYear then Int(LastYear)
      else Int(y)
  }

  /** `parse_year`: `Parse.int` of the date, then the clamp. A date that is
      missing or empty gives undefined; `\N` or text without leading digits
      gives NaN, unclamped. */
  function ParseYear(date: Option<string>): (r: JsInt)
    ensures r.Undefined? <==> date.None? || date.value == ""
    ensures r.NaN? <==> ParseIntField(date).NaN?
    ensures date == Some("\\N") ==> r.NaN?
    ensures r.Int? ==> FirstYear <= r.value <= LastYear
    ensures r.Int? && FirstYear < r.value < LastYear ==> Text.ParseInt(date.value) == Some(r.value)
  {
    Clamp(ParseIntField(date))
  }

  /** Clamping twice is clamping once. */
  lemma ClampIdempotent(year: JsInt)
    ensures Clamp(Clamp(year)) == Clamp(year)
  {
  }

  /** Clamping keeps the order of years. */
  lemma ClampMonotone(a: int, b: int)
    requires a <= b
    ensures Clamp(Int(a)).value <= Clamp(Int(b)).value
  {
  }

  /** `toExhibitionType`: undefined for a missing or empty value, otherwise
      the enum object indexed by the value. */
  function ToExhibitionType(value: Option<string>): (r: Option<TypeField>)
    ensures value.None? || value.value == "" ==> r.None?
    ensures r.Some? && r.value.Member? ==> value == Some(TypeName(r.value.t))
    ensures r.Some? && r.value.MemberName? ==>
      exists t :: value == Some(NumberKey(t)) && r.value.name == TypeName(t)
    ensures r.Some? && r.value.Inherited? ==> value == Some(r.value.key) && r.value.key in InheritedKeys
    ensures r.None? && value.Some? && value.value != "" ==>
      value.value !in InheritedKeys &&
      forall t :: value.value != TypeName(t) && value.value != NumberKey(t)
  {
    match value
    case None => None
    case Some(v) =>
      if v == "" then None
      else if v == "solo" then Some(Member(Solo))
      else if v == "group" then Some(Member(Group))
      else if v == "auction" then Some(Member(Auction))
      else if v == NumberKey(Solo) then Some(MemberName(TypeName(Solo)))
      else if v == NumberKey(Group) then Some(MemberName(TypeName(Group)))
      else if v == NumberKey(Auction) then Some(MemberName(TypeName(Auction)))
      else if v in InheritedKeys then Some(Inherited(v))
      else None
  }

  /** Both directions of the enum: a member's name gives the member, and
      its number gives its name back. */
  lemma ToExhibitionTypeBothWays(t: ExhibitionType)
    ensures ToExhibitionType(Some(TypeName(t))) == Some(Member(t))
    ensures ToExhibitionType(Some(Text.IntToString(TypeNumber(t)))) == Some(MemberName(TypeName(t)))
  {
  }

  /** `Parse.string`: the database's null marker `\N` reads as missing. */
  function ParseString(value: Option<string>): (r: Option<string>)
    ensures r.Some? ==> value == r && r.value != "\\N"
  {
    match value
    case Some(v) => if v == "\\N" then None else Some(v)
    case None => None
  }

  /** The record the `map` callback builds: the id is `Parse.int` of the
      raw id, not the number the filter tested. */
  function FromRaw<Host>(raw: RawExhibition<Host>): (e: Exhibition<Host>)
    ensures e.id == ParseIntField(raw.id) && e.hosts == raw.hosts
    ensures e.startYear == ParseYear(raw.startDate) && e.endYear == ParseYear(raw.endDate)
    ensures e.title == ParseString(raw.title) && e.organizer == ParseString(raw.organizer)
    ensures e.kind == ToExhibitionType(ParseString(raw.kind))
  {
    Exhibition(
      ParseIntField(raw.id),
      ParseString(raw.title),
      ParseYear(raw.startDate),
      ParseYear(raw.endDate),
      ParseString(raw.organizer),
      ToExhibitionType(ParseString(raw.kind)),
      raw.hosts)
  }

  /** The records the filter lets through: those whose id converts to an
      integer number. */
  function Kept<Host>(raws: seq<RawExhibition<Host>>): (r: seq<RawExhibition<Host>>)
    ensures |r| <= |raws|
    ensures forall x :: x in r ==> x in raws && x.idIsInteger
    ensures forall k :: 0 <= k < |raws| && raws[k].idIsInteger ==> raws[k] in r
  {
    if |raws| == 0 then []
    else
      assert forall k :: 1 <= k < |raws| ==> raws[k] == raws[1..][k - 1];
      (if raws[0].idIsInteger then [raws[0]] else []) + Kept(raws[1..])
  }

  /** The filter keeps exactly the records that pass, each as often as it
      occurs, in input order. */
  lemma KeptSpec<Host>(raws: seq<RawExhibition<Host>>)
    ensures IsSubsequence(Kept(raws), raws)
    ensures forall x :: multiset(Kept(raws))[x] == if x.idIsInteger then multiset(raws)[x] else 0
  {
    KeptSubsequence(raws);
    forall x ensures multiset(Kept(raws))[x] == if x.idIsInteger then multiset(raws)[x] else 0 {
      KeptCount(raws, x);
    }
  }

  lemma {:induction false} KeptSubsequence<Host>(raws: seq<RawExhibition<Host>>)
    ensures IsSubsequence(Kept(raws), raws)
  {
    if |raws| > 0 {
      var rest := Kept(raws[1..]);
      KeptSubsequence(raws[1..]);
      if raws[0].idIsInteger {
        var r := [raws[0]] + rest;
        assert Kept(raws) == r;
        assert r[0] == raws[0] && r[1..] == rest;
      } else {
        assert Kept(raws) == rest;
      }
    }
  }

  lemma {:induction false} KeptCount<Host>(raws: seq<RawExhibition<Host>>, x: RawExhibition<Host>)
    ensures multiset(Kept(raws))[x] == if x.idIsInteger then multiset(raws)[x] else 0
  {
    if |raws| > 0 {
      var head := if raws[0].idIsInteger then [raws[0]] else [];
      var rest := Kept(raws[1..]);
      assert Kept(raws) == head + rest;
      assert raws == [raws[0]] + raws[1..];
      assert multiset(raws)[x] == multiset([raws[0]])[x] + multiset(raws[1..])[x];
      assert multiset(head + rest)[x] == multiset(head)[x] + multiset(rest)[x];
      KeptCount(raws[1..], x);
    }
  }

  /** Filter, then convert each record kept. */
  function FilterMap<Host>(raws: seq<RawExhibition<Host>>): (r: seq<Exhibition<Host>>)
    ensures |r| <= |raws|
    ensures forall e :: e in r ==> exists k :: 0 <= k < |raws| && raws[k].idIsInteger && e == FromRaw(raws[k])
  {
    var kept := Kept(raws);
    var r := seq(|kept|, i requires 0 <= i < |kept| => FromRaw(kept[i]));
    assert forall e :: e in r ==> exists k :: 0 <= k < |raws| && raws[k].idIsInteger && e == FromRaw(raws[k]) by {
      forall e | e in r
        ensures exists k :: 0 <= k < |raws| && raws[k].idIsInteger && e == FromRaw(raws[k])
      {
        var i :| 0 <= i < |r| && r[i] == e;
        assert kept[i] in raws;
        var k :| 0 <= k < |raws| && raws[k] == kept[i];
      }
    }
    r
  }

  /** `from_query`. */
  function FromQuery<Host>(query: Option<QueryData<Host>>): (r: seq<Exhibition<Host>>)
    ensures query.None? || query.value.exhibitions.None? ==> r == []
    ensures query.Some? && query.value.exhibitions.Some? ==>
      |r| <= |query.value.exhibitions.value| &&
      forall e :: e in r ==> exists raw :: raw in query.value.exhibitions.value && raw.idIsInteger && e == FromRaw(raw)
    ensures forall e :: e in r ==> e.startYear.Int? ==> FirstYear <= e.startYear.value <= LastYear
    ensures forall e :: e in r ==> e.endYear.Int? ==> FirstYear <= e.endYear.value <= LastYear
  {
    match query
    case None => []
    case Some(data) =>
      match data.exhibitions
      case None => []
      case Some(raws) =>
        var r := FilterMap(raws);
        assert forall e :: e in r ==> exists raw :: raw in raws && raw.idIsInteger && e == FromRaw(raw) by {
          forall e | e in r
            ensures exists raw :: raw in raws && raw.idIsInteger && e == FromRaw(raw)
          {
            var k :| 0 <= k < |raws| && raws[k].idIsInteger && e == FromRaw(raws[k]);
            assert raws[k] in raws;
          }
        }
        r
  }

  /** `from_query` is the conversion of the kept records, one for one, in
      input order. */
  lemma FromQueryKeptInOrder<Host>(raws: seq<RawExhibition<Host>>)
    ensures |FromQuery(Some(QueryData(Some(raws))))| == |Kept(raws)|
    ensures forall i :: 0 <= i < |Kept(raws)| ==>
      FromQuery(Some(QueryData(Some(raws))))[i] == FromRaw(Kept(raws)[i])
  {
  }

  /** The ids `from_query` stores are `Parse.int` of the raw ids of the
      records whose `Number(id)` is an integer, in input order. */
  lemma FromQueryKeepsIntegerIds<Host>(raws: seq<RawExhibition<Host>>)
    ensures Ids(FromQuery(Some(QueryData(Some(raws))))) == ParsedIds(Kept(raws))
  {
    FromQueryKeptInOrder(raws);
  }

  function Ids<Host>(es: seq<Exhibition<Host>>): (r: seq<JsInt>)
    ensures |r| == |es| && forall i :: 0 <= i < |es| ==> r[i] == es[i].id
  {
    seq(|es|, i requires 0 <= i < |es| => es[i].id)
  }

  function ParsedIds<Host>(raws: seq<RawExhibition<Host>>): (r: seq<JsInt>)
    ensures |r| == |raws| && forall i :: 0 <= i < |raws| ==> r[i] == ParseIntField(raws[i].id)
  {
    seq(|raws|, i requires 0 <= i < |raws| => ParseIntField(raws[i].id))
  }

  /** A null id passes the filter, since `Number(null)` is 0, and is stored
      as undefined: a kept record need not have an id. */
  lemma NullIdKept<Host>(raw: RawExhibition<Host>)
    requires raw.id.None? && raw.idIsInteger
    ensures FromQuery(Some(QueryData(Some([raw])))) == [FromRaw(raw)]
    ensures FromQuery(Some(QueryData(Some([raw]))))[0].id == Undefined
  {
    assert [raw][1..] == [];
  }

  /** `"1e3"` passes the filter as 1000 and is stored as 1, since `parseInt`
      stops at the `e`. */
  lemma ExponentIdStoredAsPrefix<Host>(raw: RawExhibition<Host>)
    requires raw.id == Some("1e3") && raw.idIsInteger
    ensures FromQuery(Some(QueryData(Some([raw])))) == [FromRaw(raw)]
    ensures FromQuery(Some(QueryData(Some([raw]))))[0].id == Int(1)
  {
    assert Kept([raw]) == [raw] by {
      assert [raw][1..] == [];
    }
    FromQueryKeptInOrder([raw]);
    Text.ParseIntStopsAtExponent();
  }

  /** The null marker and text without leading digits give a NaN year,
      which the clamp does not touch. */
  lemma NaNYearUnclamped()
    ensures ParseYear(Some("\\N")) == NaN
    ensures ParseYear(Some("circa 1910")) == NaN
  {
    Text.ParseIntNoDigit("circa 1910");
  }
}

=== FILE: graph_build.dfy ===
/** The constructor of `ArtistTrajectoryGraph` and its
    `compute_connections` (frontend/src/app/map-view/artist_trajectory_graph.ts):
    build every artist's trajectory, collect the place years, pick one
    representative per exhibition, sort each trajectory into steps and
    record the self connections and transitions between its steps. */
module GraphBuild {

  import opened Wrappers
  import opened Seqs
  import opened Sorting
  import opened NpnMap
  import opened TrajectoryGraph
  import opened TrajectorySort
  import opened EdgeTables

  /** The two `TypeError`s the constructor can throw: the `reduce` without a
      start value on an exhibition none of whose places is named, and
      `reps[0]` of an artist without an exhibition that has places. */
  datatype BuildError = UnnamedPlaces | NoExhibitions

  /** The finished graph: places with their years, connection points, and
      the `_connections` and `_self_connections` tables. */
  datatype Built = Built(graph: Graph, connections: EdgeTable, selfConnections: EdgeTable)

  /** The year of each connection point, as `sort_trajectory_points` reads
      it. */
  function YearTable(cps: seq<ConnectionPoint>): (r: seq<int>)
    ensures |r| == |cps|
    ensures forall k :: 0 <= k < |cps| ==> r[k] == cps[k].year
  {
    seq(|cps|, k requires 0 <= k < |cps| => cps[k].year)
  }

  /** The graph and the trajectories agree: every place and connection
      point referred to exists. */
  predicate Ready(g: Graph, ts: seq<Trajectory>) {
    CpsIn(g.ct.cps, |g.pt.places|) && TrajectoriesIn(ts, |g.ct.cps|)
  }

  /** Some exhibition of the trajectory has no connection point. */
  predicate EmptyEntry(t: Trajectory) {
    [] in t.cpList
  }

  /** A trajectory the constructor cannot handle. */
  predicate Failing(t: Trajectory) {
    EmptyEntry(t) || |t.cpList| == 0
  }

  /** The error a failing trajectory throws: the representatives are picked
      before the sort reads the first one. */
  function ErrorOf(t: Trajectory): BuildError {
    if EmptyEntry(t) then UnnamedPlaces else NoExhibitions
  }

  /** The representatives of a trajectory, one per exhibition. */
  function Reps(g: Graph, cpList: seq<seq<nat>>): (r: seq<nat>)
    requires CpsIn(g.ct.cps, |g.pt.places|) && CpListIn(cpList, |g.ct.cps|)
    requires forall j :: 0 <= j < |cpList| ==> |cpList[j]| > 0
    ensures |r| == |cpList|
    ensures forall j :: 0 <= j < |cpList| ==> r[j] == Representative(g, cpList[j]) && r[j] < |g.ct.cps|
  {
    seq(|cpList|, j requires 0 <= j < |cpList| => Representative(g, cpList[j]))
  }

  /** A step of a trajectory: the representative of one of its exhibitions
      with the other connection points of that exhibition. */
  predicate PointOf(g: Graph, cpList: seq<seq<nat>>, p: Point)
    requires CpsIn(g.ct.cps, |g.pt.places|) && CpListIn(cpList, |g.ct.cps|)
  {
    exists i :: 0 <= i < |cpList| && |cpList[i]| > 0 &&
      p.main == Representative(g, cpList[i]) && p.side == Without(cpList[i], p.main)
  }

  /** The sorted steps of a trajectory that does not fail. */
  function Points(g: Graph, t: Trajectory): (r: seq<Point>)
    requires CpsIn(g.ct.cps, |g.pt.places|) && CpListIn(t.cpList, |g.ct.cps|) && !Failing(t)
    ensures forall j :: 0 <= j < |r| ==> PointOf(g, t.cpList, r[j])
    ensures forall j :: 0 <= j < |r| ==> r[j].main < |g.ct.cps| && r[j].main !in r[j].side
  {
    var reps := Reps(g, t.cpList);
    var r := SortTrajectory(YearTable(g.ct.cps), reps, t.cpList);
    forall j | 0 <= j < |r| ensures PointOf(g, t.cpList, r[j]) && r[j].main < |g.ct.cps| {
      var i :| 0 <= i < |reps| && i < |t.cpList| && reps[i] == r[j].main && r[j].side == Without(t.cpList[i], r[j].main);
      assert |t.cpList[i]| > 0;
    }
    r
  }

  /** One trajectory: its steps, or the error it throws. */
  function TrajectoryPoints(g: Graph, t: Trajectory): (r: Result<seq<Point>, BuildError>)
    requires CpsIn(g.ct.cps, |g.pt.places|) && CpListIn(t.cpList, |g.ct.cps|)
    ensures r.Err? <==> Failing(t)
    ensures r.Err? ==> r.error == ErrorOf(t)
    ensures r.Ok? ==> r.value == Points(g, t)
  {
    if EmptyEntry(t) then Err(UnnamedPlaces)
    else if |t.cpList| == 0 then Err(NoExhibitions)
    else Ok(Points(g, t))
  }

  /** The ends of the self connections of one step: the main point with
      each side point, in order. */
  function StepSidePairs(p: Point): (r: seq<NumberPair>)
    ensures |r| == |p.side|
    ensures forall k :: 0 <= k < |p.side| ==> r[k] == NumberPair(p.main, p.side[k])
  {
    seq(|p.side|, k requires 0 <= k < |p.side| => NumberPair(p.main, p.side[k]))
  }

  /** The ends of all self connections of a trajectory, step by step. */
  function SidePairs(ps: seq<Point>): (r: seq<NumberPair>)
    ensures forall np :: np in r <==> exists j :: 0 <= j < |ps| && np.n1 == ps[j].main && np.n2 in ps[j].side
  {
    if |ps| == 0 then []
    else
      var n := |ps| - 1;
      var prev := SidePairs(ps[..n]);
      var last := StepSidePairs(ps[n]);
      assert forall np :: np in last <==> np.n1 == ps[n].main && np.n2 in ps[n].side by {
        forall np ensures np in last <==> np.n1 == ps[n].main && np.n2 in ps[n].side {
          if np.n1 == ps[n].main && np.n2 in ps[n].side {
            var k :| 0 <= k < |ps[n].side| && ps[n].side[k] == np.n2;
            assert last[k] == np;
          }
        }
      }
      prev + last
  }

  /** The ends of the transitions of a trajectory: each step's main point
      to the next one's. */
  function TransitionPairs(ps: seq<Point>): (r: seq<NumberPair>)
    ensures |ps| > 0 ==> |r| == |ps| - 1
    ensures |ps| == 0 ==> r == []
    ensures forall i :: 0 <= i < |r| ==> r[i] == NumberPair(ps[i].main, ps[i + 1].main)
  {
    if |ps| == 0 then []
    else seq(|ps| - 1, i requires 0 <= i < |ps| - 1 => NumberPair(ps[i].main, ps[i + 1].main))
  }

  /** One trajectory of the `forEach`: add its self connections and its
      transitions, or throw. */
  function ConnectOne(g: Graph, t: Trajectory, tabs: (EdgeTable, EdgeTable)): (r: Result<(EdgeTable, EdgeTable), BuildError>)
    requires CpsIn(g.ct.cps, |g.pt.places|) && CpListIn(t.cpList, |g.ct.cps|)
    ensures r.Err? <==> Failing(t)
    ensures r.Err? ==> r.error == ErrorOf(t)
  {
    match TrajectoryPoints(g, t)
    case Err(e) => Err(e)
    case Ok(ps) => Ok((AddSides(tabs.0, SidePairs(ps)), AddTransitions(tabs.1, TransitionPairs(ps))))
  }

  /** The `forEach` over the trajectories; the first failing one throws. */
  function Connect(g: Graph, ts: seq<Trajectory>, tabs: (EdgeTable, EdgeTable)): (r: Result<(EdgeTable, EdgeTable), BuildError>)
    requires Ready(g, ts)
  {
    if |ts| == 0 then Ok(tabs)
    else
      var n := |ts| - 1;
      assert Ready(g, ts[..n]) && CpListIn(ts[n].cpList, |g.ct.cps|) by {
        assert forall j :: 0 <= j < n ==> ts[..n][j] == ts[j];
      }
      match Connect(g, ts[..n], tabs)
      case Err(e) => Err(e)
      case Ok(prev) => ConnectOne(g, ts[n], prev)
  }

  /** The first half of the constructor: add every artist's trajectory
      to an empty graph, then collect the place years. */
  function Prepare(artists: seq<ArtistIn>): (r: (Graph, seq<Trajectory>))
    ensures Ready(r.0, r.1) && |r.1| == |artists|
  {
    var added := AddTrajectories(Empty, artists);
    EmptyValid();
    AddTrajectoriesValid(Empty, artists);
    (ComputePlaceYears(added.0), added.1)
  }

  /** The constructor: prepare, then connect. */
  function Build(artists: seq<ArtistIn>): (r: Result<Built, BuildError>)
  {
    var prepared := Prepare(artists);
    match Connect(prepared.0, prepared.1, (NoEdges, NoEdges))
    case Err(e) => Err(e)
    case Ok(tabs) => Ok(Built(prepared.0, tabs.1, tabs.0))
  }

  // ---------------------------------------------------------------------
  // Failure

  /** No trajectory fails. */
  predicate NoneFailing(ts: seq<Trajectory>) {
    forall j :: 0 <= j < |ts| ==> !Failing(ts[j])
  }

  /** `ts[j]` is the first failing trajectory. */
  predicate FirstFailingAt(ts: seq<Trajectory>, j: nat) {
    j < |ts| && Failing(ts[j]) && NoneFailing(ts[..j])
  }

  lemma NoneFailingSnoc(ts: seq<Trajectory>)
    requires |ts| > 0 && NoneFailing(ts[..|ts| - 1]) && !Failing(ts[|ts| - 1])
    ensures NoneFailing(ts)
  {
    forall j | 0 <= j < |ts| ensures !Failing(ts[j]) {
      if j < |ts| - 1 {
        assert ts[j] == ts[..|ts| - 1][j];
      }
    }
  }

  /** `compute_connections` throws exactly when some trajectory fails, and
      then with the error of the first failing one. */
  lemma {:induction false} ConnectFails(g: Graph, ts: seq<Trajectory>, tabs: (EdgeTable, EdgeTable))
    requires Ready(g, ts)
    ensures Connect(g, ts, tabs).Err? <==> !NoneFailing(ts)
    ensures Connect(g, ts, tabs).Err? ==>
      exists j: nat :: FirstFailingAt(ts, j) && Connect(g, ts, tabs).error == ErrorOf(ts[j])
  {
    if |ts| > 0 {
      var n := |ts| - 1;
      assert forall j :: 0 <= j < n ==> ts[..n][j] == ts[j];
      assert Ready(g, ts[..n]) && CpListIn(ts[n].cpList, |g.ct.cps|);
      ConnectFails(g, ts[..n], tabs);
      var r := Connect(g, ts, tabs);
      match Connect(g, ts[..n], tabs)
      case Err(e) => {
        assert r == Err(e);
        var j: nat :| FirstFailingAt(ts[..n], j) && e == ErrorOf(ts[..n][j]);
        assert ts[..n][..j] == ts[..j];
        assert FirstFailingAt(ts, j);
      }
      case Ok(prev) => {
        assert r == ConnectOne(g, ts[n], prev);
        if Failing(ts[n]) {
          assert FirstFailingAt(ts, n);
        } else {
          NoneFailingSnoc(ts);
        }
      }
    }
  }

  /** An artist none of whose exhibitions has places, or with an
      exhibition whose places are all unnamed. */
  predicate Unplottable(a: ArtistIn) {
    (forall e :: e in a.exhibitions ==> |e.places| == 0) ||
    (exists e :: e in a.exhibitions && |e.places| > 0 && |SomeNames(e.places)| == 0)
  }

  /** No exhibition with places means no entry at all. */
  lemma NoEntries(a: ArtistIn, g: Graph)
    ensures |AddArtistTrajectory(g, a).1.cpList| == 0 <==> forall e :: e in a.exhibitions ==> |e.places| == 0
  {
    var sorted := SortBy(ExLe, a.exhibitions);
    var w := WithPlaces(sorted);
    TrajectoryShape(g, a);
    assert forall e :: e in sorted <==> e in a.exhibitions by {
      assert forall e :: e in sorted <==> e in multiset(sorted);
    }
    if |w| > 0 {
      assert w[0] in w;
    }
  }

  /** An empty entry comes from an exhibition whose places are all
      unnamed. */
  lemma EmptyEntryFrom(a: ArtistIn, g: Graph)
    requires EmptyEntry(AddArtistTrajectory(g, a).1)
    ensures exists e :: e in a.exhibitions && |e.places| > 0 && |SomeNames(e.places)| == 0
  {
    var sorted := SortBy(ExLe, a.exhibitions);
    var w := WithPlaces(sorted);
    var t := AddArtistTrajectory(g, a).1;
    TrajectoryShape(g, a);
    var j :| 0 <= j < |t.cpList| && t.cpList[j] == [];
    assert w[j] in w;
    assert w[j] in multiset(sorted);
  }

  /** Such an exhibition gives an empty entry. */
  lemma EmptyEntryTo(a: ArtistIn, g: Graph, e: ExhibitionIn)
    requires e in a.exhibitions && |e.places| > 0 && |SomeNames(e.places)| == 0
    ensures EmptyEntry(AddArtistTrajectory(g, a).1)
  {
    var sorted := SortBy(ExLe, a.exhibitions);
    var w := WithPlaces(sorted);
    var t := AddArtistTrajectory(g, a).1;
    TrajectoryShape(g, a);
    assert e in multiset(sorted);
    assert e in w;
    var j :| 0 <= j < |w| && w[j] == e;
    assert t.cpList[j] == [];
  }

  lemma EmptyEntries(a: ArtistIn, g: Graph)
    ensures EmptyEntry(AddArtistTrajectory(g, a).1) <==>
      exists e :: e in a.exhibitions && |e.places| > 0 && |SomeNames(e.places)| == 0
  {
    if EmptyEntry(AddArtistTrajectory(g, a).1) {
      EmptyEntryFrom(a, g);
    }
    if e :| e in a.exhibitions && |e.places| > 0 && |SomeNames(e.places)| == 0 {
      EmptyEntryTo(a, g, e);
    }
  }

  /** An artist's trajectory fails exactly when the artist cannot be
      plotted. */
  lemma ArtistFailing(g: Graph, a: ArtistIn)
    ensures Failing(AddArtistTrajectory(g, a).1) <==> Unplottable(a)
  {
    NoEntries(a, g);
    EmptyEntries(a, g);
  }

  /** One more artist keeps the earlier trajectories. */
  lemma AddTrajectoriesStep(g: Graph, artists: seq<ArtistIn>)
    requires |artists| > 0
    ensures AddTrajectories(g, artists).1[..|artists| - 1] == AddTrajectories(g, artists[..|artists| - 1]).1
    ensures AddTrajectories(g, artists).1[|artists| - 1] ==
      AddArtistTrajectory(AddTrajectories(g, artists[..|artists| - 1]).0, artists[|artists| - 1]).1
  {
  }

  /** The trajectory of the `j`-th artist is built on the graph of the
      artists before it. */
  lemma {:induction false} AddTrajectoriesAt(g: Graph, artists: seq<ArtistIn>, j: nat)
    requires j < |artists|
    ensures AddTrajectories(g, artists).1[j] == AddArtistTrajectory(AddTrajectories(g, artists[..j]).0, artists[j]).1
  {
    var n := |artists| - 1;
    AddTrajectoriesStep(g, artists);
    if j < n {
      assert artists[..n][..j] == artists[..j];
      assert artists[..n][j] == artists[j];
      AddTrajectoriesAt(g, artists[..n], j);
      assert AddTrajectories(g, artists).1[j] == AddTrajectories(g, artists).1[..n][j];
    }
  }

  /** The constructor throws exactly when some artist cannot be plotted. */
  lemma BuildFails(artists: seq<ArtistIn>)
    ensures Build(artists).Err? <==> exists a :: a in artists && Unplottable(a)
  {
    var prepared := Prepare(artists);
    var ts := prepared.1;
    ConnectFails(prepared.0, ts, (NoEdges, NoEdges));
    forall j | 0 <= j < |artists| ensures Failing(ts[j]) <==> Unplottable(artists[j]) {
      AddTrajectoriesAt(Empty, artists, j);
      ArtistFailing(AddTrajectories(Empty, artists[..j]).0, artists[j]);
    }
    if a :| a in artists && Unplottable(a) {
      var j :| 0 <= j < |artists| && artists[j] == a;
      assert Failing(ts[j]);
    }
  }

  // ---------------------------------------------------------------------
  // Connections

  /** The side points of a step are existing connection points other than
      its main point. */
  lemma PointSideIn(g: Graph, cpList: seq<seq<nat>>, p: Point)
    requires CpsIn(g.ct.cps, |g.pt.places|) && CpListIn(cpList, |g.ct.cps|)
    requires PointOf(g, cpList, p)
    ensures forall x :: x in p.side ==> x != p.main && x < |g.ct.cps|
  {
    var i :| 0 <= i < |cpList| && |cpList[i]| > 0 &&
      p.main == Representative(g, cpList[i]) && p.side == Without(cpList[i], p.main);
    forall x | x in p.side ensures x != p.main && x < |g.ct.cps| {
      var k :| 0 <= k < |cpList[i]| && cpList[i][k] == x;
    }
  }

  /** A self connection of a trajectory joins two different existing
      connection points. */
  lemma SidePairsIn(g: Graph, t: Trajectory)
    requires CpsIn(g.ct.cps, |g.pt.places|) && CpListIn(t.cpList, |g.ct.cps|) && !Failing(t)
    ensures forall np :: np in SidePairs(Points(g, t)) ==>
      np.n1 != np.n2 && 0 <= np.n1 < |g.ct.cps| && 0 <= np.n2 < |g.ct.cps|
  {
    var ps := Points(g, t);
    forall np | np in SidePairs(ps)
      ensures np.n1 != np.n2 && 0 <= np.n1 < |g.ct.cps| && 0 <= np.n2 < |g.ct.cps|
    {
      var j :| 0 <= j < |ps| && np.n1 == ps[j].main && np.n2 in ps[j].side;
      PointSideIn(g, t.cpList, ps[j]);
    }
  }

  /** A transition of a trajectory joins two existing connection points. */
  lemma TransitionPairsIn(g: Graph, t: Trajectory)
    requires CpsIn(g.ct.cps, |g.pt.places|) && CpListIn(t.cpList, |g.ct.cps|) && !Failing(t)
    ensures forall np :: np in TransitionPairs(Points(g, t)) ==> 0 <= np.n1 < |g.ct.cps| && 0 <= np.n2 < |g.ct.cps|
  {
    var ps := Points(g, t);
    var tp := TransitionPairs(ps);
    forall np | np in tp ensures 0 <= np.n1 < |g.ct.cps| && 0 <= np.n2 < |g.ct.cps| {
      var i :| 0 <= i < |tp| && tp[i] == np;
      assert np == NumberPair(ps[i].main, ps[i + 1].main);
    }
  }

  /** The ends of every self connection the trajectories add, in order. */
  function AllSides(g: Graph, ts: seq<Trajectory>): (r: seq<NumberPair>)
    requires Ready(g, ts) && NoneFailing(ts)
    ensures forall np :: np in r ==> np.n1 != np.n2 && 0 <= np.n1 < |g.ct.cps| && 0 <= np.n2 < |g.ct.cps|
  {
    if |ts| == 0 then []
    else
      var n := |ts| - 1;
      assert forall j :: 0 <= j < n ==> ts[..n][j] == ts[j];
      assert CpListIn(ts[n].cpList, |g.ct.cps|);
      SidePairsIn(g, ts[n]);
      AllSides(g, ts[..n]) + SidePairs(Points(g, ts[n]))
  }

  /** The ends of every transition the trajectories add, in order. */
  function AllTransitions(g: Graph, ts: seq<Trajectory>): (r: seq<NumberPair>)
    requires Ready(g, ts) && NoneFailing(ts)
    ensures forall np :: np in r ==> 0 <= np.n1 < |g.ct.cps| && 0 <= np.n2 < |g.ct.cps|
  {
    if |ts| == 0 then []
    else
      var n := |ts| - 1;
      assert forall j :: 0 <= j < n ==> ts[..n][j] == ts[j];
      assert CpListIn(ts[n].cpList, |g.ct.cps|);
      TransitionPairsIn(g, ts[n]);
      AllTransitions(g, ts[..n]) + TransitionPairs(Points(g, ts[n]))
  }

  /** When nothing fails, connecting adds all self connections to one table
      and all transitions to the other, trajectory by trajectory. */
  lemma {:induction false} ConnectTables(g: Graph, ts: seq<Trajectory>, tabs: (EdgeTable, EdgeTable))
    requires Ready(g, ts) && NoneFailing(ts)
    ensures Connect(g, ts, tabs) == Ok((AddSides(tabs.0, AllSides(g, ts)), AddTransitions(tabs.1, AllTransitions(g, ts))))
  {
    if |ts| > 0 {
      var n := |ts| - 1;
      assert forall j :: 0 <= j < n ==> ts[..n][j] == ts[j];
      assert CpListIn(ts[n].cpList, |g.ct.cps|);
      ConnectTables(g, ts[..n], tabs);
      var sides := AllSides(g, ts[..n]);
      var trans := AllTransitions(g, ts[..n]);
      var prev := (AddSides(tabs.0, sides), AddTransitions(tabs.1, trans));
      var ps := Points(g, ts[n]);
      assert Connect(g, ts, tabs) == ConnectOne(g, ts[n], prev);
      assert TrajectoryPoints(g, ts[n]) == Ok(ps);
      assert ConnectOne(g, ts[n], prev) == Ok((AddSides(prev.0, SidePairs(ps)), AddTransitions(prev.1, TransitionPairs(ps))));
      assert AllSides(g, ts) == sides + SidePairs(ps);
      assert AllTransitions(g, ts) == trans + TransitionPairs(ps);
      AddSidesAppend(tabs.0, sides, SidePairs(ps));
      AddTransitionsAppend(tabs.1, trans, TransitionPairs(ps));
    }
  }

  /** When every artist can be plotted, the build succeeds, finds no
      failing trajectory, and its tables hold all self connections and all
      transitions. */
  lemma BuildOk(artists: seq<ArtistIn>)
    requires forall a :: a in artists ==> !Unplottable(a)
    ensures Build(artists).Ok?
    ensures NoneFailing(Prepare(artists).1)
    ensures Build(artists).value.graph == Prepare(artists).0
    ensures Build(artists).value.selfConnections == AddSides(NoEdges, AllSides(Prepare(artists).0, Prepare(artists).1))
    ensures Build(artists).value.connections == AddTransitions(NoEdges, AllTransitions(Prepare(artists).0, Prepare(artists).1))
  {
    BuildFails(artists);
    var prepared := Prepare(artists);
    ConnectFails(prepared.0, prepared.1, (NoEdges, NoEdges));
    ConnectTables(prepared.0, prepared.1, (NoEdges, NoEdges));
  }

  /** There is one self connection per distinct (main, side) pair of all
      steps, in first-seen order, each of weight 1, and none joins a point
      to itself. */
  lemma BuildSelfConnections(artists: seq<ArtistIn>)
    requires forall a :: a in artists ==> !Unplottable(a)
    ensures Build(artists).Ok?
    ensures var b := Build(artists).value;
      NoneFailing(Prepare(artists).1) &&
      Ends(b.selfConnections.edges) == Distinct(AllSides(b.graph, Prepare(artists).1)) &&
      (forall k :: 0 <= k < |b.selfConnections.edges| ==>
        b.selfConnections.edges[k].weight == 1 && b.selfConnections.edges[k].p1 != b.selfConnections.edges[k].p2)
  {
    BuildOk(artists);
    var prepared := Prepare(artists);
    var b := Build(artists).value;
    var sides := AllSides(prepared.0, prepared.1);
    assert b.graph == prepared.0 && b.selfConnections == AddSides(NoEdges, sides);
    NoEdgesIndexed();
    assert Ends(NoEdges.edges) + sides == sides;
    AddSidesEnds(NoEdges, sides);
    AddSidesWeights(NoEdges, sides);
    forall k | 0 <= k < |b.selfConnections.edges| ensures b.selfConnections.edges[k].p1 != b.selfConnections.edges[k].p2 {
      assert Ends(b.selfConnections.edges)[k] in Distinct(sides);
    }
  }

  /** There is one transition per distinct ordered pair of consecutive
      steps, in first-seen order, weighted by how often that pair
      occurs. */
  lemma BuildTransitions(artists: seq<ArtistIn>)
    requires forall a :: a in artists ==> !Unplottable(a)
    ensures Build(artists).Ok?
    ensures var b := Build(artists).value;
      NoneFailing(Prepare(artists).1) &&
      Ends(b.connections.edges) == Distinct(AllTransitions(b.graph, Prepare(artists).1)) &&
      (forall k :: 0 <= k < |b.connections.edges| ==>
        b.connections.edges[k].weight == multiset(AllTransitions(b.graph, Prepare(artists).1))[EndsOf(b.connections.edges[k])])
  {
    BuildOk(artists);
    var prepared := Prepare(artists);
    var b := Build(artists).value;
    var trans := AllTransitions(prepared.0, prepared.1);
    assert b.graph == prepared.0 && b.connections == AddTransitions(NoEdges, trans);
    NoEdgesIndexed();
    assert Ends(NoEdges.edges) + trans == trans;
    AddTransitionsEnds(NoEdges, trans);
    AddTransitionsWeights(NoEdges, trans);
  }

  // ---------------------------------------------------------------------
  // Place years

  /** Every place still has no years. */
  predicate NoYears(places: seq<PlacePoint>) {
    forall i :: 0 <= i < |places| ==> places[i].years == []
  }

  lemma {:induction false} AddPlacesNoYears(t: PlaceTable, ps: seq<PlaceIn>)
    requires NoYears(t.places)
    ensures NoYears(AddPlaces(t, ps).0.places)
  {
    if |ps| > 0 {
      AddPlacesNoYears(t, ps[..|ps| - 1]);
    }
  }

  lemma {:induction false} AddExhibitionsNoYears(g: Graph, exs: seq<ExhibitionIn>)
    requires NoYears(g.pt.places)
    ensures NoYears(AddExhibitions(g, exs).0.pt.places)
  {
    if |exs| > 0 {
      var n := |exs| - 1;
      AddExhibitionsNoYears(g, exs[..n]);
      AddPlacesNoYears(AddExhibitions(g, exs[..n]).0.pt, exs[n].places);
    }
  }

  lemma {:induction false} AddTrajectoriesNoYears(g: Graph, artists: seq<ArtistIn>)
    requires NoYears(g.pt.places)
    ensures NoYears(AddTrajectories(g, artists).0.pt.places)
  {
    if |artists| > 0 {
      var n := |artists| - 1;
      AddTrajectoriesNoYears(g, artists[..n]);
      AddExhibitionsNoYears(AddTrajectories(g, artists[..n]).0, SortBy(ExLe, artists[n].exhibitions));
    }
  }

  /** Years are collected once, after every trajectory is in: each place
      holds exactly the years of its connection points, once each, in
      string order, which is numeric order for four-digit years. */
  lemma PreparedYears(artists: seq<ArtistIn>, p: nat)
    requires p < |Prepare(artists).0.pt.places|
    ensures var g := Prepare(artists).0; var ys := g.pt.places[p].years;
      multiset(ys) == multiset(YearsOf(g.ct.cps, p)) && SortedBy(YearStrLe, ys) && NoDup(ys) &&
      (FourDigitYears(YearsOf(g.ct.cps, p)) ==> Increasing(ys))
  {
    var added := AddTrajectories(Empty, artists);
    EmptyValid();
    AddTrajectoriesValid(Empty, artists);
    AddTrajectoriesNoYears(Empty, artists);
    PlaceYearsSpec(added.0, p);
  }
}

=== FILE: npn_map.dfy ===
/** `NPNMap` of artist_trajectory_graph.ts: a map from pairs of numbers to
    indices, backed by a `Map<string, number>` whose keys are the pair
    written as "n1,n2". */
module NpnMap {

  import opened Wrappers
  import opened Text

  datatype NumberPair = NumberPair(n1: int, n2: int)

  /** The string key of a pair: both numbers in decimal, joined by a comma. */
  function Key(np: NumberPair): string {
    IntToString(np.n1) + "," + IntToString(np.n2)
  }

  /** Position of the first `c` in `s`. */
  function IndexOf(s: string, c: char): (r: Option<nat>)
    ensures r.Some? ==> r.value < |s| && s[r.value] == c && c !in s[..r.value]
    ensures r.None? ==> c !in s
  {
    if |s| == 0 then None
    else if s[0] == c then Some(0)
    else match IndexOf(s[1..], c)
      case None => None
      case Some(i) =>
        assert s[..i + 1] == [s[0]] + s[1..][..i];
        Some(i + 1)
  }

  /** `unkey`: split the key at commas and parse the first two parts; a part
      that is missing or holds no digits parses to NaN (`None`). */
  function Unkey(key: string): (Option<int>, Option<int>) {
    match IndexOf(key, ',')
    case None => (ParseInt(key), None)
    case Some(i) =>
      var rest := key[i + 1..];
      var second := match IndexOf(rest, ',')
        case None => rest
        case Some(j) => rest[..j];
      (ParseInt(key[..i]), ParseInt(second))
  }

  lemma IndexOfAfter(a: string, b: string, c: char)
    requires c !in a
    ensures IndexOf(a + [c] + b, c) == Some(|a|)
  {
    if |a| > 0 {
      assert (a + [c] + b)[1..] == a[1..] + [c] + b;
      IndexOfAfter(a[1..], b, c);
    }
  }

  /** Unkeying a key gives back the pair it was built from. */
  lemma UnkeyKey(np: NumberPair)
    ensures Unkey(Key(np)) == (Some(np.n1), Some(np.n2))
  {
    var a, b := IntToString(np.n1), IntToString(np.n2);
    var k := Key(np);
    assert k == a + [','] + b;
    IndexOfAfter(a, b, ',');
    assert k[..|a|] == a;
    assert k[|a| + 1..] == b;
    ParseIntOfString(np.n1);
    ParseIntOfString(np.n2);
  }

  /** Different pairs never share a key. */
  lemma KeyInjective(p: NumberPair, q: NumberPair)
    requires Key(p) == Key(q)
    ensures p == q
  {
    UnkeyKey(p);
    UnkeyKey(q);
  }

  datatype NPNMap = NPNMap(entries: map<string, nat>) {

    /** `get`: the index stored under the pair's key. */
    function Get(np: NumberPair): Option<nat> {
      if Key(np) in entries then Some(entries[Key(np)]) else None
    }

    /** `set`: store an index under the pair's key. */
    function Set(np: NumberPair, v: nat): NPNMap {
      NPNMap(entries[Key(np) := v])
    }

    /** `has`. */
    predicate Has(np: NumberPair) {
      Key(np) in entries
    }
  }

  const EmptyMap := NPNMap(map[])

  /** Get after set: the stored index for the same pair, and nothing changed
      for any other pair. */
  lemma GetSet(m: NPNMap, np: NumberPair, v: nat, q: NumberPair)
    ensures m.Set(np, v).Get(q) == if q == np then Some(v) else m.Get(q)
  {
    if q != np && Key(q) == Key(np) {
      KeyInjective(q, np);
    }
  }

  lemma GetEmpty(q: NumberPair)
    ensures EmptyMap.Get(q) == None
  {
  }
}

=== FILE: place.dfy ===
/** src/objects/place.ts: folding the host records of an exhibition into
    places. Hosts are filtered by country, a few known data errors are
    fixed up, and the survivors are grouped by place name (or town name when
    the place name is missing) into places numbered 0, 1, 2, ... */
module Places {

  import opened Wrappers
  import opened Seqs

  /** Countries whose hosts are never drawn. */
  const BlackList: seq<string> := ["JP", "US", "AR"]

  /** Coordinates that replace whatever a host named Berlin carries. */
  const BerlinLongitude: real := 13.4
  const BerlinLatitude: real := 52.516667

  /** A parsed host record (the fields the folding reads or keeps). */
  datatype Host = Host(
    id: Option<int>,
    name: Option<string>,
    country: Option<string>,
    place: Option<string>,
    town: Option<string>,
    longitude: Option<real>,
    latitude: Option<real>)

  datatype Place = Place(
    id: nat,
    place: Option<string>,
    town: Option<string>,
    country: Option<string>,
    location: (Option<real>, Option<real>),
    hosts: seq<Host>)

  /** JavaScript truthiness of an optional string: defined and non-empty. */
  predicate Truthy(s: Option<string>) {
    s.Some? && s.value != ""
  }

  /** A host that passed the filters, with the name key it is grouped by. */
  datatype Keyed = Keyed(key: string, host: Host)

  /** The grouping key: the place name if truthy, else the town name. */
  function NameKey(h: Host): string
    requires Truthy(h.place) || Truthy(h.town)
  {
    if Truthy(h.place) then h.place.value else h.town.value
  }

  /** The host record as the body of the `forEach` in `from_hosts` leaves
      it. The fix-ups are written into the caller's record, each one as soon
      as the body reaches it, so a host dropped later still keeps the
      fix-ups made before the drop. */
  function Written(h: Host): (r: Host)
    ensures r.id == h.id && r.name == h.name && r.town == h.town
    ensures r.country == (if h.country.None? && h.place == Some("Christiania") then Some("NO") else h.country)
    ensures r.place ==
      (if h.place == Some("Hague, The") && h.country.Some? && h.country.value !in BlackList
       then Some("Hague") else h.place)
    ensures h.place == Some("Berlin") && h.country.Some? ==>
      r.longitude == Some(BerlinLongitude) && r.latitude == Some(BerlinLatitude)
    ensures !(h.place == Some("Berlin") && h.country.Some?) ==>
      r.longitude == h.longitude && r.latitude == h.latitude
  {
    if !Truthy(h.place) && !Truthy(h.town) then h
    else if h.country.None? && h.place != Some("Christiania") then h
    else
      var withCountry := if h.country.None? then h.(country := Some("NO")) else h;
      var located :=
        if withCountry.place == Some("Berlin")
        then withCountry.(longitude := Some(BerlinLongitude), latitude := Some(BerlinLatitude))
        else withCountry;
      if located.country.value in BlackList then located
      else if located.place == Some("Hague, The") then located.(place := Some("Hague"))
      else located
  }

  /** The fix-ups are stable: writing them a second time changes nothing. */
  lemma WrittenIdempotent(h: Host)
    ensures Written(Written(h)) == Written(h)
  {
  }

  /** One host through the body of the `forEach` in `from_hosts`: `None`
      when the host is dropped, otherwise the fixed-up host and its key.
      The key is taken before the Hague rename. */
  function Admit(h: Host): (r: Option<Keyed>)
    ensures r.Some? <==>
      && (Truthy(h.place) || Truthy(h.town))
      && (h.country.Some? || h.place == Some("Christiania"))
      && (h.country.Some? ==> h.country.value !in BlackList)
    ensures r.Some? ==> r.value.key == NameKey(h) && r.value.key != ""
    ensures r.Some? ==> r.value.host == Written(h)
    ensures r.Some? ==> r.value.host.country == (if h.country.None? then Some("NO") else h.country)
    ensures r.Some? ==> r.value.host.place == (if h.place == Some("Hague, The") then Some("Hague") else h.place)
    ensures r.Some? ==> r.value.host.id == h.id && r.value.host.name == h.name && r.value.host.town == h.town
    ensures r.Some? && h.place == Some("Berlin") ==>
      r.value.host.longitude == Some(BerlinLongitude) && r.value.host.latitude == Some(BerlinLatitude)
    ensures r.Some? && h.place != Some("Berlin") ==>
      r.value.host.longitude == h.longitude && r.value.host.latitude == h.latitude
  {
    if !Truthy(h.place) && !Truthy(h.town) then None
    else if h.country.None? && h.place != Some("Christiania") then None
    else if Written(h).country.value in BlackList then None
    else Some(Keyed(NameKey(h), Written(h)))
  }

  /** The hosts that pass the filters, in input order. */
  function Survivors(hosts: seq<Host>): (r: seq<Keyed>)
    ensures |r| <= |hosts|
  {
    if |hosts| == 0 then []
    else
      var pre := Survivors(hosts[..|hosts| - 1]);
      match Admit(hosts[|hosts| - 1])
      case None => pre
      case Some(k) => pre + [k]
  }

  function KeysOf(ks: seq<Keyed>): (r: seq<string>)
    ensures |r| == |ks|
    ensures forall i :: 0 <= i < |ks| ==> r[i] == ks[i].key
  {
    if |ks| == 0 then [] else KeysOf(ks[..|ks| - 1]) + [ks[|ks| - 1].key]
  }

  /** The hosts filed under `key`, in input order. */
  function HostsWithKey(ks: seq<Keyed>, key: string): (r: seq<Host>)
    ensures |r| <= |ks|
  {
    if |ks| == 0 then []
    else
      HostsWithKey(ks[..|ks| - 1], key)
        + (if ks[|ks| - 1].key == key then [ks[|ks| - 1].host] else [])
  }

  lemma {:induction false} HostsWithKeyNonEmpty(ks: seq<Keyed>, key: string)
    requires key in KeysOf(ks)
    ensures |HostsWithKey(ks, key)| > 0
  {
    if ks[|ks| - 1].key != key {
      assert key in KeysOf(ks[..|ks| - 1]);
      HostsWithKeyNonEmpty(ks[..|ks| - 1], key);
    }
  }

  /** A place under construction: its key and the hosts filed under it. */
  datatype Group = Group(key: string, hosts: seq<Host>)

  function GroupKeys(gs: seq<Group>): (r: seq<string>)
    ensures |r| == |gs|
    ensures forall i :: 0 <= i < |gs| ==> r[i] == gs[i].key
  {
    if |gs| == 0 then [] else GroupKeys(gs[..|gs| - 1]) + [gs[|gs| - 1].key]
  }

  /** `place_map.has(key)` / `get(key)`: the position of the group for `key`. */
  function FindKey(gs: seq<Group>, key: string): (r: Option<nat>)
    ensures r.Some? ==> r.value < |gs| && gs[r.value].key == key
    ensures r.None? ==> key !in GroupKeys(gs)
  {
    if |gs| == 0 then None
    else if gs[|gs| - 1].key == key then Some(|gs| - 1)
    else FindKey(gs[..|gs| - 1], key)
  }

  /** File one surviving host: append it to its key's group, or open a new
      group at the end. */
  function AddHost(gs: seq<Group>, k: Keyed): seq<Group> {
    match FindKey(gs, k.key)
    case Some(i) => gs[i := gs[i].(hosts := gs[i].hosts + [k.host])]
    case None => gs + [Group(k.key, [k.host])]
  }

  /** The number of hosts filed in all groups. */
  function TotalHosts(gs: seq<Group>): nat {
    if |gs| == 0 then 0 else TotalHosts(gs[..|gs| - 1]) + |gs[|gs| - 1].hosts|
  }

  lemma {:induction false} TotalHostsUpdate(gs: seq<Group>, i: nat, g: Group)
    requires i < |gs|
    ensures TotalHosts(gs[i := g]) == TotalHosts(gs) - |gs[i].hosts| + |g.hosts|
  {
    var u := gs[i := g];
    if i < |gs| - 1 {
      assert u[..|u| - 1] == gs[..|gs| - 1][i := g];
      TotalHostsUpdate(gs[..|gs| - 1], i, g);
    } else {
      assert u[..|u| - 1] == gs[..|gs| - 1];
    }
  }

  /** The grouping loop of `from_hosts`: one group per distinct key, in the
      order the keys are first seen, each holding exactly the hosts filed
      under its key, in input order. */
  function GroupByKey(ks: seq<Keyed>): (gs: seq<Group>)
    ensures GroupKeys(gs) == Distinct(KeysOf(ks))
    ensures forall i :: 0 <= i < |gs| ==> gs[i].hosts == HostsWithKey(ks, gs[i].key)
    ensures TotalHosts(gs) == |ks|
  {
    if |ks| == 0 then []
    else
      var gs0 := GroupByKey(ks[..|ks| - 1]);
      AddHostStep(ks, gs0);
      AddHost(gs0, ks[|ks| - 1])
  }

  /** The three facts `GroupByKey` promises about `gs` as the grouping of
      `ks`. */
  predicate GroupsOf(ks: seq<Keyed>, gs: seq<Group>) {
    && GroupKeys(gs) == Distinct(KeysOf(ks))
    && (forall i :: 0 <= i < |gs| ==> gs[i].hosts == HostsWithKey(ks, gs[i].key))
    && TotalHosts(gs) == |ks|
  }

  /** Filing the last host keeps the grouping facts. */
  lemma AddHostStep(ks: seq<Keyed>, gs0: seq<Group>)
    requires |ks| > 0 && GroupsOf(ks[..|ks| - 1], gs0)
    ensures GroupsOf(ks, AddHost(gs0, ks[|ks| - 1]))
  {
    var pre := ks[..|ks| - 1];
    assert pre + [ks[|ks| - 1]] == ks;
    AddHostKeys(pre, ks[|ks| - 1], gs0);
    AddHostHosts(pre, ks[|ks| - 1], gs0);
    AddHostTotal(pre, ks[|ks| - 1], gs0);
  }

  lemma AddHostKeys(pre: seq<Keyed>, k: Keyed, gs0: seq<Group>)
    requires GroupKeys(gs0) == Distinct(KeysOf(pre))
    ensures GroupKeys(AddHost(gs0, k)) == Distinct(KeysOf(pre + [k]))
  {
    KeysOfSnoc(pre, k);
    DistinctSnoc(KeysOf(pre), k.key);
    match FindKey(gs0, k.key)
    case Some(i) =>
      assert GroupKeys(gs0)[i] == k.key;
      GroupKeysUpdate(gs0, i, gs0[i].(hosts := gs0[i].hosts + [k.host]));
    case None =>
      GroupKeysSnoc(gs0, Group(k.key, [k.host]));
  }

  lemma GroupKeysUpdate(gs: seq<Group>, i: nat, g: Group)
    requires i < |gs| && g.key == gs[i].key
    ensures GroupKeys(gs[i := g]) == GroupKeys(gs)
  {
    var u := gs[i := g];
    assert forall j :: 0 <= j < |u| ==> GroupKeys(u)[j] == GroupKeys(gs)[j];
  }

  lemma GroupKeysSnoc(gs: seq<Group>, g: Group)
    ensures GroupKeys(gs + [g]) == GroupKeys(gs) + [g.key]
  {
    var u := gs + [g];
    assert u[..|u| - 1] == gs;
  }

  lemma KeysOfSnoc(pre: seq<Keyed>, k: Keyed)
    ensures KeysOf(pre + [k]) == KeysOf(pre) + [k.key]
  {
    var ks := pre + [k];
    assert ks[..|ks| - 1] == pre;
  }

  lemma HostsWithKeySnoc(pre: seq<Keyed>, k: Keyed, key: string)
    ensures HostsWithKey(pre + [k], key) == HostsWithKey(pre, key) + (if k.key == key then [k.host] else [])
  {
    var ks := pre + [k];
    assert ks[..|ks| - 1] == pre;
  }

  lemma AddHostHosts(pre: seq<Keyed>, k: Keyed, gs0: seq<Group>)
    requires GroupKeys(gs0) == Distinct(KeysOf(pre))
    requires forall i :: 0 <= i < |gs0| ==> gs0[i].hosts == HostsWithKey(pre, gs0[i].key)
    ensures forall i :: 0 <= i < |AddHost(gs0, k)| ==>
      AddHost(gs0, k)[i].hosts == HostsWithKey(pre + [k], AddHost(gs0, k)[i].key)
  {
    var gs := AddHost(gs0, k);
    var found := FindKey(gs0, k.key);
    forall j | 0 <= j < |gs|
      ensures gs[j].hosts == HostsWithKey(pre + [k], gs[j].key)
    {
      HostsWithKeySnoc(pre, k, gs[j].key);
      if found.Some? {
        if j != found.value {
          assert GroupKeys(gs0)[j] != GroupKeys(gs0)[found.value];
        }
      } else if j < |gs0| {
        assert gs0[j].key == GroupKeys(gs0)[j];
      } else {
        assert k.key !in Distinct(KeysOf(pre));
        HostsWithKeyPrefixMissing(pre, k.key);
      }
    }
  }

  lemma AddHostTotal(pre: seq<Keyed>, k: Keyed, gs0: seq<Group>)
    requires TotalHosts(gs0) == |pre|
    ensures TotalHosts(AddHost(gs0, k)) == |pre| + 1
  {
    match FindKey(gs0, k.key)
    case Some(i) =>
      TotalHostsUpdate(gs0, i, gs0[i].(hosts := gs0[i].hosts + [k.host]));
    case None =>
      var gs := AddHost(gs0, k);
      assert gs[..|gs| - 1] == gs0;
  }

  lemma HostsWithKeyPrefixMissing(ks: seq<Keyed>, key: string)
    requires key !in KeysOf(ks)
    ensures HostsWithKey(ks, key) == []
  {
    if |ks| > 0 {
      assert KeysOf(ks)[|ks| - 1] == ks[|ks| - 1].key;
      assert KeysOf(ks[..|ks| - 1]) == KeysOf(ks)[..|ks| - 1];
      HostsWithKeyPrefixMissing(ks[..|ks| - 1], key);
    }
  }

  /** The place built from a group: id `i`, attributes of its first host. */
  function ToPlace(i: nat, g: Group): Place
    requires |g.hosts| > 0
  {
    var first := g.hosts[0];
    Place(i, first.place, first.town, first.country, (first.longitude, first.latitude), g.hosts)
  }

  /** The keys of the places `from_hosts` returns, in output order. */
  function PlaceKeys(hosts: seq<Host>): seq<string> {
    Distinct(KeysOf(Survivors(hosts)))
  }

  /** Every group holds at least one host. */
  lemma GroupsNonEmpty(ks: seq<Keyed>)
    ensures forall i :: 0 <= i < |GroupByKey(ks)| ==> |GroupByKey(ks)[i].hosts| > 0
  {
    var gs := GroupByKey(ks);
    forall i | 0 <= i < |gs|
      ensures |gs[i].hosts| > 0
    {
      assert gs[i].key == GroupKeys(gs)[i];
      assert gs[i].key in KeysOf(ks);
      HostsWithKeyNonEmpty(ks, gs[i].key);
    }
  }

  /** `Place.from_hosts`. */
  function FromHosts(hosts: seq<Host>): (r: seq<Place>)
    ensures |r| == |PlaceKeys(hosts)|
    ensures forall i :: 0 <= i < |r| ==> r[i].id == i
    ensures forall i :: 0 <= i < |r| ==>
      r[i].hosts == HostsWithKey(Survivors(hosts), PlaceKeys(hosts)[i]) && |r[i].hosts| > 0
    ensures forall i :: 0 <= i < |r| ==>
      && r[i].place == r[i].hosts[0].place
      && r[i].town == r[i].hosts[0].town
      && r[i].country == r[i].hosts[0].country
      && r[i].location == (r[i].hosts[0].longitude, r[i].hosts[0].latitude)
  {
    FromKeyed(Survivors(hosts))
  }

  /** The grouping and numbering half of `from_hosts`, on the survivors. */
  function FromKeyed(ks: seq<Keyed>): (r: seq<Place>)
    ensures |r| == |Distinct(KeysOf(ks))|
    ensures forall i :: 0 <= i < |r| ==> r[i].id == i
    ensures forall i :: 0 <= i < |r| ==>
      r[i].hosts == HostsWithKey(ks, Distinct(KeysOf(ks))[i]) && |r[i].hosts| > 0
    ensures forall i :: 0 <= i < |r| ==>
      && r[i].place == r[i].hosts[0].place
      && r[i].town == r[i].hosts[0].town
      && r[i].country == r[i].hosts[0].country
      && r[i].location == (r[i].hosts[0].longitude, r[i].hosts[0].latitude)
  {
    var gs := GroupByKey(ks);
    GroupsNonEmpty(ks);
    assert GroupKeys(gs) == Distinct(KeysOf(ks));
    assert forall i :: 0 <= i < |gs| ==> gs[i].key == GroupKeys(gs)[i];
    Numbered(gs)
  }

  /** The groups as places numbered in order. */
  function Numbered(gs: seq<Group>): (r: seq<Place>)
    requires forall i :: 0 <= i < |gs| ==> |gs[i].hosts| > 0
    ensures |r| == |gs|
    ensures forall i :: 0 <= i < |r| ==> r[i].id == i && r[i].hosts == gs[i].hosts
    ensures forall i :: 0 <= i < |r| ==>
      && r[i].place == r[i].hosts[0].place
      && r[i].town == r[i].hosts[0].town
      && r[i].country == r[i].hosts[0].country
      && r[i].location == (r[i].hosts[0].longitude, r[i].hosts[0].latitude)
  {
    seq(|gs|, i requires 0 <= i < |gs| => ToPlace(i, gs[i]))
  }

  function TotalPlaceHosts(ps: seq<Place>): nat {
    if |ps| == 0 then 0 else TotalPlaceHosts(ps[..|ps| - 1]) + |ps[|ps| - 1].hosts|
  }

  lemma {:induction false} TotalPlaceHostsOfGroups(ps: seq<Place>, gs: seq<Group>)
    requires |ps| == |gs|
    requires forall i :: 0 <= i < |ps| ==> ps[i].hosts == gs[i].hosts
    ensures TotalPlaceHosts(ps) == TotalHosts(gs)
  {
    if |ps| > 0 {
      TotalPlaceHostsOfGroups(ps[..|ps| - 1], gs[..|gs| - 1]);
    }
  }

  /** Every surviving host lands in exactly one place: the places' host
      lists add up to the survivors. */
  lemma FromHostsKeepsEveryHost(hosts: seq<Host>)
    ensures TotalPlaceHosts(FromHosts(hosts)) == |Survivors(hosts)|
  {
    var gs := GroupByKey(Survivors(hosts));
    TotalPlaceHostsOfGroups(FromHosts(hosts), gs);
  }

  /** The survivors of two admitted hosts are both of them, in order. */
  lemma SurvivorsTwo(a: Host, b: Host)
    requires Admit(a).Some? && Admit(b).Some?
    ensures Survivors([a, b]) == [Admit(a).value, Admit(b).value]
  {
    var hs := [a, b];
    assert hs[..1] == [a];
    assert [a][..0] == [];
    assert Survivors([a]) == [Admit(a).value];
  }

  /** Keys and filed hosts of two surviving hosts. */
  lemma TwoKeyed(x: Keyed, y: Keyed, key: string)
    ensures KeysOf([x, y]) == [x.key, y.key]
    ensures HostsWithKey([x, y], key) ==
      (if x.key == key then [x.host] else []) + (if y.key == key then [y.host] else [])
  {
    var ks := [x, y];
    assert ks[..1] == [x] && ks[..1][..0] == [];
  }

  lemma DistinctTwo(u: string, v: string)
    ensures Distinct([u, v]) == if u == v then [u] else [u, v]
  {
    var s := [u, v];
    assert s[..1] == [u] && s[..1][..0] == [];
  }

  /** Two hosts under the same name key are filed under that one key. */
  lemma SameNameGroups(a: Host, b: Host)
    requires Admit(a).Some? && Admit(b).Some?
    requires a.place == b.place && Truthy(a.place)
    ensures PlaceKeys([a, b]) == [NameKey(a)]
    ensures HostsWithKey(Survivors([a, b]), NameKey(a)) == [Admit(a).value.host, Admit(b).value.host]
  {
    assert Admit(a).value.key == NameKey(a) == NameKey(b) == Admit(b).value.key;
    SurvivorsTwo(a, b);
    TwoKeyed(Admit(a).value, Admit(b).value, NameKey(a));
    assert HostsWithKey(Survivors([a, b]), NameKey(a)) == [Admit(a).value.host] + [Admit(b).value.host];
    DistinctTwo(NameKey(a), NameKey(a));
  }

  /** Two hosts under the same place name fold into a single place holding
      both. */
  lemma SameNameFolds(a: Host, b: Host)
    requires Admit(a).Some? && Admit(b).Some?
    requires a.place == b.place && Truthy(a.place)
    ensures |FromHosts([a, b])| == 1
    ensures FromHosts([a, b])[0].hosts == [Admit(a).value.host, Admit(b).value.host]
  {
    SameNameGroups(a, b);
  }

  /** Hosts recorded as "Hague, The" and as "Hague" are filed under two
      keys, one host each. */
  lemma HagueGroups(a: Host, b: Host)
    requires a.place == Some("Hague, The") && b.place == Some("Hague")
    requires a.country == Some("NL") && b.country == Some("NL")
    ensures Admit(a).Some? && Admit(b).Some?
    ensures PlaceKeys([a, b]) == ["Hague, The", "Hague"]
    ensures HostsWithKey(Survivors([a, b]), "Hague, The") == [Admit(a).value.host]
    ensures HostsWithKey(Survivors([a, b]), "Hague") == [Admit(b).value.host]
  {
    assert Admit(a).Some? && Admit(b).Some?;
    assert Admit(a).value.key == "Hague, The" && Admit(b).value.key == "Hague";
    SurvivorsTwo(a, b);
    TwoKeyed(Admit(a).value, Admit(b).value, "Hague, The");
    TwoKeyed(Admit(a).value, Admit(b).value, "Hague");
    DistinctTwo("Hague, The", "Hague");
  }

  /** The key is taken before the rename, so a host recorded as
      "Hague, The" and one recorded as "Hague" become two places, both named
      "Hague". */
  lemma HagueSplits(a: Host, b: Host)
    requires a.place == Some("Hague, The") && b.place == Some("Hague")
    requires a.country == Some("NL") && b.country == Some("NL")
    ensures |FromHosts([a, b])| == 2
    ensures FromHosts([a, b])[0].place == Some("Hague")
    ensures FromHosts([a, b])[1].place == Some("Hague")
  {
    HagueGroups(a, b);
  }

  /** The hosts as a call of `from_hosts` leaves them. */
  function WrittenAll(hosts: seq<Host>): (r: seq<Host>)
    ensures |r| == |hosts|
    ensures forall i :: 0 <= i < |hosts| ==> r[i] == Written(hosts[i])
  {
    seq(|hosts|, i requires 0 <= i < |hosts| => Written(hosts[i]))
  }

  /** A second call on the same records sees the rename of the first: the
      "Hague, The" host now reads "Hague", and the two hosts fold into one
      place. */
  lemma HagueSecondCall(a: Host, b: Host)
    requires a.place == Some("Hague, The") && b.place == Some("Hague")
    requires a.country == Some("NL") && b.country == Some("NL")
    ensures |FromHosts([a, b])| == 2
    ensures |FromHosts(WrittenAll([a, b]))| == 1
    ensures FromHosts(WrittenAll([a, b]))[0].place == Some("Hague")
  {
    HagueSplits(a, b);
    var hs := WrittenAll([a, b]);
    assert hs == [Written(a), Written(b)];
    SameNameFolds(Written(a), Written(b));
  }
}

=== FILE: place_connection.dfy ===
/** frontend/src/app/map-view/place_connection.ts: the connections of one
    artist's exhibitions. Consecutive exhibitions (in year order) are joined
    by one directed connection between their best-matching places, and the
    places of one exhibition are chained by "same exhibition" connections.

    The duplicate trackers are `Map`s keyed by two-element arrays. A `Map`
    compares object keys by identity and every key array is built fresh, so
    the model gives each array an allocation number and the lookups never
    find anything. */
module PlaceConnection {

  import opened Wrappers
  import opened Sorting

  /** A place as this module reads it: its id and its (longitude, latitude). */
  datatype Place = Place(id: int, location: (real, real))

  /** An exhibition with its start year and its already folded places. */
  datatype Exhibition = Exhibition(year: int, places: seq<Place>)

  /** A directed connection and the years of its two ends. */
  datatype Connection = Connection(f: Place, t: Place, lfy: int, lty: int)

  /** A "same exhibition" connection and its year. */
  datatype NonDirectionalConnection = NonDirectionalConnection(p1: Place, p2: Place, ly: int)

  /** The errors `get_connections` can throw. */
  datatype ConnectionError =
    | NoExhibitions   // `exhibitions[0]` of an empty list
    | EmptyPlaces     // "Cannot get optimal place for empty set of places."
    | NoNearPair      // "Could not find two places with smallest distance."

  /** `Number.MAX_SAFE_INTEGER`, the starting minimum distance. */
  const MaxSafeInteger: real := 9007199254740991.0

  // ---------------------------------------------------------------------
  // Keys and trackers

  /** `sym_conn_key`: the two ids, smaller first. */
  function SymConnKey(id1: int, id2: int): (r: (int, int))
    ensures r.0 <= r.1
    ensures multiset{r.0, r.1} == multiset{id1, id2}
  {
    if id1 < id2 then (id1, id2) else (id2, id1)
  }

  /** The key does not depend on the order of the ids. */
  lemma SymConnKeySymmetric(a: int, b: int)
    ensures SymConnKey(a, b) == SymConnKey(b, a)
  {
  }

  /** A freshly built two-element array: its identity is `alloc`. */
  datatype ArrayRef = ArrayRef(alloc: nat, first: int, second: int)

  /** A `Map` keyed by arrays. */
  datatype Tracker<V> = Tracker(entries: map<ArrayRef, V>)

  /** Every key in the tracker was allocated before `next`. The trigger
      keeps the fact to the lookups that need it. */
  predicate AllocatedBefore<V>(t: Tracker<V>, next: nat) {
    forall r {:trigger Get(t, r)} :: r in t.entries ==> r.alloc < next
  }

  /** `get`, by identity. */
  function Get<V>(t: Tracker<V>, key: ArrayRef): Option<V> {
    if key in t.entries then Some(t.entries[key]) else None
  }

  /** `set`. */
  function Put<V>(t: Tracker<V>, key: ArrayRef, v: V): Tracker<V> {
    Tracker(t.entries[key := v])
  }

  lemma PutAllocated<V>(t: Tracker<V>, next: nat, key: ArrayRef, v: V)
    requires AllocatedBefore(t, next) && key.alloc == next
    ensures AllocatedBefore(Put(t, key, v), next + 1)
  {
    forall r | r in Put(t, key, v).entries
      ensures r.alloc < next + 1
    {
      if r != key {
        assert Get(t, r).Some?;
      }
    }
  }

  lemma AllocatedLater<V>(t: Tracker<V>, next: nat, later: nat)
    requires AllocatedBefore(t, next) && next <= later
    ensures AllocatedBefore(t, later)
  {
    forall r | r in t.entries
      ensures r.alloc < later
    {
      assert Get(t, r).Some?;
    }
  }

  /** A lookup with an array allocated just now never finds anything. */
  lemma FreshLookupMisses<V>(t: Tracker<V>, next: nat, a: int, b: int)
    requires AllocatedBefore(t, next)
    ensures Get(t, ArrayRef(next, a, b)).None?
  {
  }

  // ---------------------------------------------------------------------
  // Sorting

  function YearLe(a: Exhibition, b: Exhibition): bool {
    a.year <= b.year
  }

  function IdLe(a: Place, b: Place): bool {
    a.id <= b.id
  }

  lemma YearLeTotalPreorder()
    ensures TotalPreorder(YearLe)
  {
  }

  lemma IdLeTotalPreorder()
    ensures TotalPreorder(IdLe)
  {
  }

  /** `sort_places`: ascending by id, a permutation of the input. */
  function SortPlaces(places: seq<Place>): (r: seq<Place>)
    ensures multiset(r) == multiset(places)
    ensures |r| == |places|
    ensures forall i, j :: 0 <= i < j < |r| ==> r[i].id <= r[j].id
  {
    IdLeTotalPreorder();
    SortBySorted(IdLe, places);
    SortBy(IdLe, places)
  }

  /** The exhibitions in year order (a sorted copy; the input is not touched). */
  function SortExhibitions(exhibitions: seq<Exhibition>): (r: seq<Exhibition>)
    ensures multiset(r) == multiset(exhibitions)
    ensures |r| == |exhibitions|
    ensures forall i, j :: 0 <= i < j < |r| ==> r[i].year <= r[j].year
  {
    YearLeTotalPreorder();
    SortBySorted(YearLe, exhibitions);
    SortBy(YearLe, exhibitions)
  }

  // ---------------------------------------------------------------------
  // Optimal pair

  /** `places.find((p) => p.id === id)`, as a position. */
  function FindById(places: seq<Place>, id: int): (r: Option<nat>)
    ensures r.Some? ==> r.value < |places| && places[r.value].id == id
  {
    if |places| == 0 then None
    else if places[0].id == id then Some(0)
    else match FindById(places[1..], id)
      case None => None
      case Some(k) => Some(k + 1)
  }

  /** `find` returns the first match, and nothing only when no place has
      the id. */
  lemma {:induction false} FindByIdFirst(places: seq<Place>, id: int)
    ensures FindById(places, id).Some? ==> forall k :: 0 <= k < FindById(places, id).value ==> places[k].id != id
    ensures FindById(places, id).None? <==> forall k :: 0 <= k < |places| ==> places[k].id != id
  {
    if |places| > 0 {
      FindByIdFirst(places[1..], id);
      if places[0].id != id {
        assert forall k :: 1 <= k < |places| ==> places[k] == places[1..][k - 1];
      }
    }
  }

  /** The first place of `to` (in order) whose id also occurs in `from`,
      with the position of its first match in `from`. */
  function FirstShared(from: seq<Place>, to: seq<Place>): (r: Option<(nat, nat)>)
    ensures r.Some? ==> r.value.0 < |from| && r.value.1 < |to|
    ensures r.Some? ==> from[r.value.0].id == to[r.value.1].id
  {
    if |to| == 0 then None
    else match FindById(from, to[0].id)
      case Some(i) => Some((i, 0))
      case None =>
        match FirstShared(from, to[1..])
        case None => None
        case Some(p) => Some((p.0, p.1 + 1))
  }

  /** The shared place found is the first of `to` that has a match, matched
      with its first copy in `from`; nothing is found only when the two
      lists share no id. */
  lemma {:induction false} FirstSharedFirst(from: seq<Place>, to: seq<Place>)
    ensures FirstShared(from, to).Some? ==>
      forall k :: 0 <= k < FirstShared(from, to).value.0 ==> from[k].id != to[FirstShared(from, to).value.1].id
    ensures FirstShared(from, to).Some? ==>
      forall j, k :: 0 <= j < FirstShared(from, to).value.1 && 0 <= k < |from| ==> from[k].id != to[j].id
    ensures FirstShared(from, to).None? <==>
      forall j, k :: 0 <= j < |to| && 0 <= k < |from| ==> from[k].id != to[j].id
  {
    if |to| > 0 {
      FindByIdFirst(from, to[0].id);
      FirstSharedFirst(from, to[1..]);
      assert forall j :: 1 <= j < |to| ==> to[j] == to[1..][j - 1];
    }
  }

  /** Squared straight-line distance. The source compares square roots;
      the square root is monotone, so the comparisons agree. */
  function Dist2(p: Place, q: Place): real {
    var dx := p.location.0 - q.location.0;
    var dy := p.location.1 - q.location.1;
    dx * dx + dy * dy
  }

  /** The pairs visited by the nested `forEach` loops, in visiting order. */
  function Pairs(from: seq<Place>, to: seq<Place>): seq<(Place, Place)> {
    if |from| == 0 then []
    else seq(|to|, j requires 0 <= j < |to| => (from[0], to[j])) + Pairs(from[1..], to)
  }

  /** Every pair of a `from` place with a `to` place is visited, and only
      those. */
  lemma {:induction false} PairsCover(from: seq<Place>, to: seq<Place>)
    ensures forall k :: 0 <= k < |Pairs(from, to)| ==> Pairs(from, to)[k].0 in from && Pairs(from, to)[k].1 in to
    ensures forall i, j :: 0 <= i < |from| && 0 <= j < |to| ==> (from[i], to[j]) in Pairs(from, to)
  {
    if |from| > 0 {
      var row := seq(|to|, j requires 0 <= j < |to| => (from[0], to[j]));
      var rest := Pairs(from[1..], to);
      PairsCover(from[1..], to);
      assert Pairs(from, to) == row + rest;
      forall i, j | 0 <= i < |from| && 0 <= j < |to|
        ensures (from[i], to[j]) in Pairs(from, to)
      {
        if i == 0 {
          assert row[j] == (from[0], to[j]);
        } else {
          assert from[i] == from[1..][i - 1];
        }
      }
    }
  }

  /** The scan with a strict `<` against a running minimum that starts at
      `MAX_SAFE_INTEGER`, as a position in `cands`. */
  function ScanMin(cands: seq<(Place, Place)>): (best: Option<nat>)
    ensures best.Some? ==> best.value < |cands|
  {
    if |cands| == 0 then None
    else
      var n := |cands| - 1;
      var prev := ScanMin(cands[..n]);
      var d := Dist2(cands[n].0, cands[n].1);
      var m := if prev.None? then MaxSafeInteger * MaxSafeInteger
               else Dist2(cands[prev.value].0, cands[prev.value].1);
      if d < m then Some(n) else prev
  }

  function Dist2Of(c: (Place, Place)): real {
    Dist2(c.0, c.1)
  }

  /** The scan finds the first pair of minimal distance, or nothing when no
      pair is nearer than `MAX_SAFE_INTEGER`. */
  lemma {:induction false} ScanMinIsMin(cands: seq<(Place, Place)>)
    ensures ScanMin(cands).Some? ==> Dist2Of(cands[ScanMin(cands).value]) < MaxSafeInteger * MaxSafeInteger
    ensures ScanMin(cands).Some? ==> forall k :: 0 <= k < |cands| ==>
      Dist2Of(cands[ScanMin(cands).value]) <= Dist2Of(cands[k])
    ensures ScanMin(cands).Some? ==> forall k :: 0 <= k < ScanMin(cands).value ==>
      Dist2Of(cands[ScanMin(cands).value]) < Dist2Of(cands[k])
    ensures ScanMin(cands).None? <==> forall k :: 0 <= k < |cands| ==>
      Dist2Of(cands[k]) >= MaxSafeInteger * MaxSafeInteger
  {
    if |cands| > 0 {
      var n := |cands| - 1;
      ScanMinIsMin(cands[..n]);
      assert forall k :: 0 <= k < n ==> cands[..n][k] == cands[k];
    }
  }

  /** `get_optimal_places_for_conn`: the pair of places (one from each
      exhibition) a connection joins. `OptimalPlaces` states which. */
  function GetOptimalPlaces(from: seq<Place>, to: seq<Place>): (r: Result<(Place, Place), ConnectionError>)
    ensures r == Err(EmptyPlaces) <==> |from| == 0 || |to| == 0
    ensures r != Err(NoExhibitions)
  {
    if |from| == 0 || |to| == 0 then Err(EmptyPlaces)
    else match FirstShared(from, to)
      case Some(p) => Ok((from[p.0], to[p.1]))
      case None =>
        match ScanMin(Pairs(from, to))
        case None => Err(NoNearPair)
        case Some(b) => Ok(Pairs(from, to)[b])
  }

  /** The chosen places come from the two lists. A place present in both
      exhibitions is chosen on both sides: the first such place of `to`,
      matched with its first copy in `from`. */
  lemma OptimalPlacesShared(from: seq<Place>, to: seq<Place>)
    ensures GetOptimalPlaces(from, to).Ok? ==>
      GetOptimalPlaces(from, to).value.0 in from && GetOptimalPlaces(from, to).value.1 in to
    ensures |from| > 0 && FirstShared(from, to).Some? ==>
      GetOptimalPlaces(from, to) == Ok((from[FirstShared(from, to).value.0], to[FirstShared(from, to).value.1]))
  {
    if |from| > 0 && |to| > 0 && FirstShared(from, to).None? {
      PairsCover(from, to);
    }
  }

  /** Without a shared place, the nearest pair is chosen, provided it is
      nearer than `MAX_SAFE_INTEGER`; otherwise the search fails. */
  lemma OptimalPlacesNearest(from: seq<Place>, to: seq<Place>)
    requires FirstShared(from, to).None?
    ensures GetOptimalPlaces(from, to).Ok? ==>
      forall i, j :: 0 <= i < |from| && 0 <= j < |to| ==>
        Dist2(GetOptimalPlaces(from, to).value.0, GetOptimalPlaces(from, to).value.1) <= Dist2(from[i], to[j])
    ensures GetOptimalPlaces(from, to) == Err(NoNearPair) <==>
      |from| > 0 && |to| > 0 &&
      forall i, j :: 0 <= i < |from| && 0 <= j < |to| ==> Dist2(from[i], to[j]) >= MaxSafeInteger * MaxSafeInteger
  {
    if |from| > 0 && |to| > 0 {
      var cands := Pairs(from, to);
      PairsCover(from, to);
      ScanMinIsMin(cands);
      var best := ScanMin(cands);
      if best.None? {
        forall i, j | 0 <= i < |from| && 0 <= j < |to|
          ensures Dist2(from[i], to[j]) >= MaxSafeInteger * MaxSafeInteger
        {
          var k :| 0 <= k < |cands| && cands[k] == (from[i], to[j]);
        }
      } else {
        var b := cands[best.value];
        forall i, j | 0 <= i < |from| && 0 <= j < |to|
          ensures Dist2(b.0, b.1) <= Dist2(from[i], to[j])
        {
          var k :| 0 <= k < |cands| && cands[k] == (from[i], to[j]);
        }
        assert Dist2(from[0], to[0]) >= Dist2(b.0, b.1);
      }
    }
  }

  // ---------------------------------------------------------------------
  // The connection builder

  /** Lists, trackers and the next array identity. */
  datatype State = State(
    connections: seq<Connection>,
    seConnections: seq<NonDirectionalConnection>,
    connTracker: Tracker<Connection>,
    seTracker: Tracker<NonDirectionalConnection>,
    nextAlloc: nat)

  predicate Fresh(st: State) {
    AllocatedBefore(st.connTracker, st.nextAlloc) && AllocatedBefore(st.seTracker, st.nextAlloc)
  }

  /** `add_se_connection`: push, and file under a newly built key array. */
  function AddSeConnection(st: State, c: NonDirectionalConnection): (r: State)
    requires Fresh(st)
    ensures Fresh(r) && r.nextAlloc == st.nextAlloc + 1
    ensures r.seConnections == st.seConnections + [c] && r.connections == st.connections
  {
    var k := SymConnKey(c.p1.id, c.p2.id);
    var key := ArrayRef(st.nextAlloc, k.0, k.1);
    PutAllocated(st.seTracker, st.nextAlloc, key, c);
    AllocatedLater(st.connTracker, st.nextAlloc, st.nextAlloc + 1);
    st.(seConnections := st.seConnections + [c],
        seTracker := Put(st.seTracker, key, c),
        nextAlloc := st.nextAlloc + 1)
  }

  /** `add_connection`. */
  function AddConnection(st: State, c: Connection): (r: State)
    requires Fresh(st)
    ensures Fresh(r) && r.nextAlloc == st.nextAlloc + 1
    ensures r.connections == st.connections + [c] && r.seConnections == st.seConnections
  {
    var key := ArrayRef(st.nextAlloc, c.f.id, c.t.id);
    PutAllocated(st.connTracker, st.nextAlloc, key, c);
    AllocatedLater(st.seTracker, st.nextAlloc, st.nextAlloc + 1);
    st.(connections := st.connections + [c],
        connTracker := Put(st.connTracker, key, c),
        nextAlloc := st.nextAlloc + 1)
  }

  /** The chain of "same exhibition" connections between neighbouring
      places of a sorted place list. */
  function Chain(places: seq<Place>, year: int): (r: seq<NonDirectionalConnection>)
    ensures |r| == if |places| == 0 then 0 else |places| - 1
  {
    if |places| <= 1 then []
    else seq(|places| - 1, k requires 0 <= k < |places| - 1 => NonDirectionalConnection(places[k], places[k + 1], year))
  }

  lemma ChainSnoc(places: seq<Place>, n: nat, year: int)
    requires 2 <= n <= |places|
    ensures Chain(places[..n], year) ==
      Chain(places[..n - 1], year) + [NonDirectionalConnection(places[n - 2], places[n - 1], year)]
  {
    var a := Chain(places[..n], year);
    var b := Chain(places[..n - 1], year) + [NonDirectionalConnection(places[n - 2], places[n - 1], year)];
    assert |a| == |b|;
    forall k | 0 <= k < |a| ensures a[k] == b[k] {
      assert places[..n][k] == places[k] && places[..n][k + 1] == places[k + 1];
    }
  }

  /** A tracked same-exhibition connection is renewed when absent or last
      seen in an earlier year. */
  predicate SeStale(found: Option<NonDirectionalConnection>, year: int) {
    match found
    case None => true
    case Some(c) => c.ly < year
  }

  /** A directed connection is added unless one with the same years is
      tracked. */
  predicate ConnAbsent(found: Option<Connection>, fromYear: int, toYear: int) {
    match found
    case None => true
    case Some(c) => c.lfy != fromYear || c.lty != toYear
  }

  function ConnectionFor(pair: (Place, Place), fromYear: int, toYear: int): Connection {
    Connection(pair.0, pair.1, fromYear, toYear)
  }

  /** The "same exhibition" loop over positions 1 .. n-1 of `places`. With
      `lookUp` false it is the loop for the first exhibition, which adds
      unconditionally; otherwise each pair is first looked up under a freshly
      built key and added when absent or last seen in an earlier year. */
  function SeLinks(st: State, places: seq<Place>, year: int, n: nat, lookUp: bool): (r: State)
    requires Fresh(st) && n <= |places|
    ensures Fresh(r) && r.nextAlloc >= st.nextAlloc
    ensures r.connections == st.connections
    ensures r.seConnections == st.seConnections + Chain(places[..n], year)
  {
    if n <= 1 then st
    else
      var pre := SeLinks(st, places, year, n - 1, lookUp);
      var c := NonDirectionalConnection(places[n - 2], places[n - 1], year);
      ChainSnoc(places, n, year);
      SeLink(pre, c, lookUp)
  }

  /** One pair of that loop. The probe builds a new key array, so it never
      finds an earlier link and the pair is always added. */
  function SeLink(st: State, c: NonDirectionalConnection, lookUp: bool): (r: State)
    requires Fresh(st)
    ensures Fresh(r) && r.nextAlloc >= st.nextAlloc
    ensures r.connections == st.connections
    ensures r.seConnections == st.seConnections + [c]
  {
    if !lookUp then AddSeConnection(st, c)
    else
      var k := SymConnKey(c.p1.id, c.p2.id);
      var found := Get(st.seTracker, ArrayRef(st.nextAlloc, k.0, k.1));
      var afterProbe := st.(nextAlloc := st.nextAlloc + 1);
      FreshLookupMisses(st.seTracker, st.nextAlloc, k.0, k.1);
      AllocatedLater(st.seTracker, st.nextAlloc, st.nextAlloc + 1);
      AllocatedLater(st.connTracker, st.nextAlloc, st.nextAlloc + 1);
      if SeStale(found, c.ly) then AddSeConnection(afterProbe, c) else afterProbe
  }

  /** One turn of the loop over exhibitions: the same-exhibition links of
      `places`, then the directed connection between the pair `search`
      found, or the error it threw. */
  function LinkStep(st: State, search: Result<(Place, Place), ConnectionError>, places: seq<Place>, fromYear: int, toYear: int):
    (r: Result<State, ConnectionError>)
    requires Fresh(st)
    ensures r.Ok? <==> search.Ok?
    ensures r.Err? ==> r.error == search.error
    ensures r.Ok? ==> Fresh(r.value)
    ensures r.Ok? ==> r.value.seConnections == st.seConnections + Chain(places, toYear)
    ensures r.Ok? ==> r.value.connections == st.connections + [ConnectionFor(search.value, fromYear, toYear)]
  {
    var st1 := SeLinks(st, places, toYear, |places|, true);
    assert places[..|places|] == places;
    match search
    case Err(e) => Err(e)
    case Ok(pair) =>
      var c := ConnectionFor(pair, fromYear, toYear);
      var found := Get(st1.connTracker, ArrayRef(st1.nextAlloc, pair.0.id, pair.1.id));
      var st2 := st1.(nextAlloc := st1.nextAlloc + 1);
      FreshLookupMisses(st1.connTracker, st1.nextAlloc, pair.0.id, pair.1.id);
      AllocatedLater(st1.seTracker, st1.nextAlloc, st1.nextAlloc + 1);
      AllocatedLater(st1.connTracker, st1.nextAlloc, st1.nextAlloc + 1);
      Ok(if ConnAbsent(found, fromYear, toYear) then AddConnection(st2, c) else st2)
  }

  /** The exhibitions with their places sorted by id, as the loop sorts
      each exhibition's places before using them. */
  function Stops(exs: seq<Exhibition>): (r: seq<Exhibition>)
    ensures |r| == |exs|
    ensures forall k :: 0 <= k < |exs| ==> r[k] == Exhibition(exs[k].year, SortPlaces(exs[k].places))
  {
    seq(|exs|, k requires 0 <= k < |exs| => Exhibition(exs[k].year, SortPlaces(exs[k].places)))
  }

  /** The optimal-pair search between each stop and the next, in order.
      `SearchesAt` states which search each element is. */
  function Searches(stops: seq<Exhibition>): (r: seq<Result<(Place, Place), ConnectionError>>)
    ensures |r| == if |stops| == 0 then 0 else |stops| - 1
    ensures forall k :: 0 <= k < |r| ==> r[k] != Err(NoExhibitions)
  {
    if |stops| <= 1 then []
    else
      var n := |stops| - 1;
      Searches(stops[..n]) + [GetOptimalPlaces(stops[n - 1].places, stops[n].places)]
  }

  /** The k-th search is the one between stop k and stop k+1. */
  lemma {:induction false} SearchesAt(stops: seq<Exhibition>, k: nat)
    requires k + 1 < |stops|
    ensures Searches(stops)[k] == GetOptimalPlaces(stops[k].places, stops[k + 1].places)
  {
    var n := |stops| - 1;
    if k + 1 < n {
      SearchesAt(stops[..n], k);
      assert stops[..n][k] == stops[k] && stops[..n][k + 1] == stops[k + 1];
    }
  }

  /** Whether the searches between the first n stops all succeed. */
  predicate LinksOk(found: seq<Result<(Place, Place), ConnectionError>>, n: nat)
    requires n <= |found| + 1
  {
    n <= 1 || (LinksOk(found, n - 1) && found[n - 2].Ok?)
  }

  /** The directed connections between the first n stops: one per
      consecutive pair, joining the pair its search found. */
  function Links(stops: seq<Exhibition>, found: seq<Result<(Place, Place), ConnectionError>>, n: nat): seq<Connection>
    requires n <= |stops| && n <= |found| + 1 && LinksOk(found, n)
  {
    if n <= 1 then []
    else Links(stops, found, n - 1) + [ConnectionFor(found[n - 2].value, stops[n - 2].year, stops[n - 1].year)]
  }

  /** The same-exhibition chains of the first n stops. */
  function Chains(stops: seq<Exhibition>, n: nat): seq<NonDirectionalConnection>
    requires n <= |stops|
  {
    if n == 0 then [] else Chains(stops, n - 1) + Chain(stops[n - 1].places, stops[n - 1].year)
  }

  const Start := State([], [], Tracker(map[]), Tracker(map[]), 0)

  /** The builder after the first n stops: the first exhibition's chain,
      then one `LinkStep` per later exhibition, with `found` the searches
      between consecutive stops. The searches are pure, so taking them all
      before the loop changes nothing. The first failing search ends the
      loop with its error. `PrefixSpec` states what it builds. */
  function Prefix(stops: seq<Exhibition>, found: seq<Result<(Place, Place), ConnectionError>>, n: nat):
    (r: Result<State, ConnectionError>)
    requires 1 <= n <= |stops| && |found| == |stops| - 1
    ensures r.Ok? ==> Fresh(r.value)
  {
    if n == 1 then
      Ok(SeLinks(Start, stops[0].places, stops[0].year, |stops[0].places|, false))
    else
      match Prefix(stops, found, n - 1)
      case Err(e) => Err(e)
      case Ok(st) => LinkStep(st, found[n - 2], stops[n - 1].places, stops[n - 2].year, stops[n - 1].year)
  }

  /** The loop succeeds exactly when every search does, and then holds the
      connections of `Links` and the chains of `Chains`. */
  lemma {:induction false} PrefixSpec(stops: seq<Exhibition>, found: seq<Result<(Place, Place), ConnectionError>>, n: nat)
    requires 1 <= n <= |stops| && |found| == |stops| - 1
    ensures Prefix(stops, found, n).Ok? <==> LinksOk(found, n)
    ensures Prefix(stops, found, n).Ok? ==> Prefix(stops, found, n).value.connections == Links(stops, found, n)
    ensures Prefix(stops, found, n).Ok? ==> Prefix(stops, found, n).value.seConnections == Chains(stops, n)
  {
    if n == 1 {
      var places := stops[0].places;
      assert places[..|places|] == places;
      assert Chains(stops, 1) == [] + Chain(places, stops[0].year);
    } else {
      PrefixSpec(stops, found, n - 1);
    }
  }

  /** A failing loop throws the error of the first failing search. */
  lemma {:induction false} PrefixError(stops: seq<Exhibition>, found: seq<Result<(Place, Place), ConnectionError>>, n: nat)
    requires 1 <= n <= |stops| && |found| == |stops| - 1
    ensures Prefix(stops, found, n).Err? ==>
      exists k :: 0 <= k < n - 1 && LinksOk(found, k + 1) && found[k] == Err(Prefix(stops, found, n).error)
  {
    if n > 1 {
      PrefixError(stops, found, n - 1);
      if Prefix(stops, found, n - 1).Ok? && Prefix(stops, found, n).Err? {
        PrefixSpec(stops, found, n - 1);
        assert found[n - 2] == Err(Prefix(stops, found, n).error);
      }
    }
  }

  /** `get_connections`: the directed connections between consecutive
      exhibitions in year order and the same-exhibition chains. */
  function GetConnections(inExhibitions: seq<Exhibition>):
    (r: Result<(seq<Connection>, seq<NonDirectionalConnection>), ConnectionError>)
    ensures r == Err(NoExhibitions) <==> |inExhibitions| == 0
    ensures r.Ok? <==> |inExhibitions| > 0 && LinksOk(Searches(InYearOrder(inExhibitions)), |inExhibitions|)
    ensures r.Ok? ==> r.value.0 == Links(InYearOrder(inExhibitions), Searches(InYearOrder(inExhibitions)), |inExhibitions|)
    ensures r.Ok? ==> r.value.1 == Chains(InYearOrder(inExhibitions), |inExhibitions|)
  {
    if |inExhibitions| == 0 then Err(NoExhibitions)
    else
      var stops := InYearOrder(inExhibitions);
      var found := Searches(stops);
      PrefixSpec(stops, found, |stops|);
      PrefixError(stops, found, |stops|);
      match Prefix(stops, found, |stops|)
      case Err(e) => Err(e)
      case Ok(st) => Ok((st.connections, st.seConnections))
  }

  /** The exhibitions in year order, each with its places sorted by id. */
  function InYearOrder(exhibitions: seq<Exhibition>): (r: seq<Exhibition>)
    ensures |r| == |exhibitions|
  {
    Stops(SortExhibitions(exhibitions))
  }
}

=== FILE: seqs.dfy ===
/** Small sequence operations shared by the model: the array `filter`
    that drops one value, JavaScript `Set` insertion order, and counting. */
module Seqs {

  /** No value occurs twice. */
  predicate NoDup<T(==,!new)>(s: seq<T>) {
    forall i, j :: 0 <= i < j < |s| ==> s[i] != s[j]
  }

  lemma NoDupTail<T(!new)>(s: seq<T>)
    requires |s| > 0 && NoDup(s)
    ensures NoDup(s[1..]) && s[0] !in s[1..]
  {
    forall k | 0 <= k < |s[1..]|
      ensures s[1..][k] != s[0]
    {
      assert s[1..][k] == s[k + 1];
    }
  }

  /** `s.filter((y) => y != x)`: every occurrence of `x` removed, order kept. */
  function Without<T(==,!new)>(s: seq<T>, x: T): (r: seq<T>)
    ensures x !in r
    ensures forall y :: y in r <==> y in s && y != x
    ensures |r| <= |s|
    ensures x !in s ==> r == s
  {
    if |s| == 0 then []
    else (if s[0] == x then [] else [s[0]]) + Without(s[1..], x)
  }

  /** Removing a value drops all its copies and keeps every other value's
      count. */
  lemma {:induction false} WithoutMultiset<T(!new)>(s: seq<T>, x: T)
    ensures multiset(Without(s, x)) == multiset(s)[x := 0]
  {
    if |s| > 0 {
      var rest := Without(s[1..], x);
      assert s == [s[0]] + s[1..];
      assert multiset(s) == multiset{s[0]} + multiset(s[1..]);
      WithoutMultiset(s[1..], x);
      if s[0] == x {
        assert Without(s, x) == [] + rest;
        assert [] + rest == rest;
      } else {
        assert Without(s, x) == [s[0]] + rest;
        assert multiset([s[0]] + rest) == multiset{s[0]} + multiset(rest);
      }
    }
  }

  /** Removing a value that was appended last removes the append. */
  lemma {:induction false} WithoutSnoc<T(!new)>(s: seq<T>, x: T)
    requires x !in s
    ensures Without(s + [x], x) == s
  {
    if |s| > 0 {
      assert (s + [x])[1..] == s[1..] + [x];
      WithoutSnoc(s[1..], x);
      assert s == [s[0]] + s[1..];
    } else {
      assert [x][1..] == [];
    }
  }

  /** Removing a value keeps a duplicate-free sequence duplicate-free. */
  lemma {:induction false} WithoutNoDup<T(!new)>(s: seq<T>, x: T)
    requires NoDup(s)
    ensures NoDup(Without(s, x))
  {
    if |s| > 0 {
      WithoutNoDup(s[1..], x);
      var rest := Without(s[1..], x);
      NoDupTail(s);
      assert s[0] !in rest;
    }
  }

  /** The values of `s` in first-occurrence order: the iteration order of a
      JavaScript `Set` filled from `s`. */
  function Distinct<T(==,!new)>(s: seq<T>): (r: seq<T>)
    ensures NoDup(r)
    ensures forall y :: y in r <==> y in s
    ensures |r| <= |s|
  {
    if |s| == 0 then []
    else
      var d := Distinct(s[..|s| - 1]);
      assert forall y :: y in s <==> y in s[..|s| - 1] || y == s[|s| - 1] by {
        assert s == s[..|s| - 1] + [s[|s| - 1]];
      }
      if s[|s| - 1] in d then d else d + [s[|s| - 1]]
  }

  /** Every value occurs at most once in a duplicate-free sequence. */
  lemma {:induction false} NoDupCountAll<T(!new)>(s: seq<T>)
    requires NoDup(s)
    ensures forall x :: multiset(s)[x] <= 1
  {
    if |s| > 0 {
      NoDupTail(s);
      NoDupCountAll(s[1..]);
      assert s == [s[0]] + s[1..];
    }
  }

  lemma CountTwo<T(!new)>(s: seq<T>, i: nat, j: nat)
    requires i < j < |s| && s[i] == s[j]
    ensures multiset(s)[s[i]] >= 2
  {
    assert s == s[..j] + s[j..];
    assert s[i] in s[..j] && s[j] in s[j..];
  }

  /** A rearrangement holds the same values. */
  lemma PermutationIn<T(!new)>(a: seq<T>, b: seq<T>)
    requires multiset(a) == multiset(b)
    ensures forall x :: x in a <==> x in b
  {
    forall x ensures x in a <==> x in b {
      assert x in a <==> x in multiset(a);
      assert x in b <==> x in multiset(b);
    }
  }

  /** A rearrangement of a duplicate-free sequence is duplicate-free. */
  lemma PermutationNoDup<T(!new)>(a: seq<T>, b: seq<T>)
    requires multiset(a) == multiset(b) && NoDup(b)
    ensures NoDup(a)
  {
    NoDupCountAll(b);
    forall i, j | 0 <= i < j < |a| ensures a[i] != a[j] {
      if a[i] == a[j] {
        CountTwo(a, i, j);
      }
    }
  }

  /** One more value: kept when new, dropped when already seen. */
  lemma DistinctSnoc<T(!new)>(s: seq<T>, x: T)
    ensures Distinct(s + [x]) == if x in Distinct(s) then Distinct(s) else Distinct(s) + [x]
  {
    assert (s + [x])[..|s|] == s;
  }

  /** A duplicate-free sequence is its own set of values. */
  lemma {:induction false} DistinctNoDup<T(!new)>(s: seq<T>)
    requires NoDup(s)
    ensures Distinct(s) == s
  {
    if |s| > 0 {
      var n := |s| - 1;
      assert NoDup(s[..n]);
      DistinctNoDup(s[..n]);
      assert s[n] !in s[..n];
      assert s == s[..n] + [s[n]];
    }
  }

  /** The values of `a` that also occur in `b`, in the order of `a`
      (`d3.intersection`). */
  function Intersect<T(==,!new)>(a: seq<T>, b: seq<T>): (r: seq<T>)
    ensures forall y :: y in r <==> y in a && y in b
    ensures NoDup(a) ==> NoDup(r)
    ensures |r| <= |a|
  {
    if |a| == 0 then []
    else
      var rest := Intersect(a[1..], b);
      assert NoDup(a) ==> NoDup(a[1..]) && a[0] !in a[1..] by {
        if NoDup(a) { NoDupTail(a); }
      }
      (if a[0] in b then [a[0]] else []) + rest
  }

  /** When `v` is the only value `a` and `b` can share, their intersection
      is `[v]` or empty. */
  lemma {:induction false} IntersectSingle<T(!new)>(a: seq<T>, b: seq<T>, v: T)
    requires NoDup(a)
    requires forall y :: y in a && y in b ==> y == v
    ensures Intersect(a, b) == (if v in a && v in b then [v] else [])
  {
    if |a| > 0 {
      NoDupTail(a);
      IntersectSingle(a[1..], b, v);
      assert a == [a[0]] + a[1..];
    }
  }

  /** `a` is `b` with some elements dropped, order kept. */
  predicate IsSubsequence<T(==)>(a: seq<T>, b: seq<T>) {
    |a| == 0 ||
    (|b| > 0 && ((a[0] == b[0] && IsSubsequence(a[1..], b[1..])) || IsSubsequence(a, b[1..])))
  }

  lemma {:induction false} SubsequenceIn<T>(a: seq<T>, b: seq<T>)
    requires IsSubsequence(a, b)
    ensures forall x :: x in a ==> x in b
  {
    if |a| > 0 {
      if a[0] == b[0] && IsSubsequence(a[1..], b[1..]) {
        SubsequenceIn(a[1..], b[1..]);
        assert a == [a[0]] + a[1..];
      } else {
        SubsequenceIn(a, b[1..]);
      }
    }
  }

  /** Appending `y` adds one occurrence of `y` and nothing else. */
  lemma SnocCount<T>(s: seq<T>, y: T, x: T)
    ensures multiset(s + [y])[x] == multiset(s)[x] + (if x == y then 1 else 0)
  {
    assert multiset(s + [y]) == multiset(s) + multiset([y]);
  }

  /** Appending an element to the longer sequence keeps a subsequence one,
      and appending it to both keeps it too. */
  lemma {:induction false} SubsequenceSnoc<T>(a: seq<T>, b: seq<T>, x: T)
    requires IsSubsequence(a, b)
    ensures IsSubsequence(a, b + [x])
    ensures IsSubsequence(a + [x], b + [x])
    decreases |b|
  {
    if |b| == 0 {
      assert (a + [x])[1..] == [];
    } else {
      assert (b + [x])[0] == b[0] && (b + [x])[1..] == b[1..] + [x];
      if |a| == 0 {
        SubsequenceSnoc(a, b[1..], x);
        assert a + [x] == [x];
      } else {
        assert (a + [x])[0] == a[0] && (a + [x])[1..] == a[1..] + [x];
        if a[0] == b[0] && IsSubsequence(a[1..], b[1..]) {
          SubsequenceSnoc(a[1..], b[1..], x);
        } else {
          SubsequenceSnoc(a, b[1..], x);
        }
      }
    }
  }

  /** `Array.prototype.reverse`. */
  function Reverse<T>(s: seq<T>): (r: seq<T>)
    ensures |r| == |s|
    ensures forall i :: 0 <= i < |s| ==> r[i] == s[|s| - 1 - i]
  {
    if |s| == 0 then [] else Reverse(s[1..]) + [s[0]]
  }

  /** Distinct values of a prefix, then of the rest, are the distinct values
      of the whole. */
  lemma {:induction false} DistinctAppend<T(!new)>(a: seq<T>, b: seq<T>)
    ensures Distinct(Distinct(a) + b) == Distinct(a + b)
  {
    if |b| > 0 {
      var n := |b| - 1;
      DistinctAppend(a, b[..n]);
      assert b == b[..n] + [b[n]];
      assert Distinct(a) + b == (Distinct(a) + b[..n]) + [b[n]];
      assert a + b == (a + b[..n]) + [b[n]];
      DistinctSnoc(Distinct(a) + b[..n], b[n]);
      DistinctSnoc(a + b[..n], b[n]);
    } else {
      assert Distinct(a) + b == Distinct(a) && a + b == a;
      DistinctNoDup(Distinct(a));
    }
  }

  lemma {:induction false} ReverseMultiset<T>(s: seq<T>)
    ensures multiset(Reverse(s)) == multiset(s)
  {
    if |s| > 0 {
      ReverseMultiset(s[1..]);
      assert s == [s[0]] + s[1..];
    }
  }
}

=== FILE: sorting.dfy ===
/** A stable insertion sort parameterised by a comparison, standing in for
    `Array.prototype.sort`, which is stable. Used for exhibitions by year,
    place years in string order, places by id and artist names. */
module Sorting {

  import opened Seqs

  ghost predicate Total<T(!new)>(le: (T, T) -> bool) {
    forall a, b :: le(a, b) || le(b, a)
  }

  ghost predicate Transitive<T(!new)>(le: (T, T) -> bool) {
    forall a, b, c :: le(a, b) && le(b, c) ==> le(a, c)
  }

  /** A comparison that a sort can order by. */
  ghost predicate TotalPreorder<T(!new)>(le: (T, T) -> bool) {
    Total(le) && Transitive(le)
  }

  predicate SortedBy<T(!new)>(le: (T, T) -> bool, s: seq<T>) {
    forall i, j :: 0 <= i < j < |s| ==> le(s[i], s[j])
  }

  /** Places `x` after every leading element not greater than it. */
  function InsertBy<T(!new)>(le: (T, T) -> bool, x: T, s: seq<T>): (r: seq<T>)
    ensures |r| == |s| + 1
    ensures multiset(r) == multiset(s) + multiset{x}
  {
    if |s| == 0 then [x]
    else if le(s[0], x) then
      assert s == [s[0]] + s[1..];
      [s[0]] + InsertBy(le, x, s[1..])
    else [x] + s
  }

  /** Inserts the elements of `s` one after another, so equal elements keep
      their input order. */
  function SortBy<T(!new)>(le: (T, T) -> bool, s: seq<T>): (r: seq<T>)
    ensures |r| == |s|
    ensures multiset(r) == multiset(s)
  {
    if |s| == 0 then []
    else
      assert s == s[..|s| - 1] + [s[|s| - 1]];
      InsertBy(le, s[|s| - 1], SortBy(le, s[..|s| - 1]))
  }

  /** Putting an element that is not greater than any other in front keeps
      a sequence sorted. */
  lemma ConsSorted<T(!new)>(le: (T, T) -> bool, a: T, rest: seq<T>)
    requires SortedBy(le, rest)
    requires forall k :: 0 <= k < |rest| ==> le(a, rest[k])
    ensures SortedBy(le, [a] + rest)
  {
    var r := [a] + rest;
    forall i, j | 0 <= i < j < |r|
      ensures le(r[i], r[j])
    {
      assert r[j] == rest[j - 1];
      if i > 0 {
        assert r[i] == rest[i - 1];
      }
    }
  }

  lemma {:induction false} InsertBySorted<T(!new)>(le: (T, T) -> bool, x: T, s: seq<T>)
    requires TotalPreorder(le)
    requires SortedBy(le, s)
    ensures SortedBy(le, InsertBy(le, x, s))
  {
    if |s| > 0 {
      if le(s[0], x) {
        var rest := InsertBy(le, x, s[1..]);
        InsertBySorted(le, x, s[1..]);
        forall k | 0 <= k < |rest|
          ensures le(s[0], rest[k])
        {
          assert rest[k] in multiset(rest);
          if rest[k] != x {
            assert rest[k] in multiset(s[1..]);
            var m :| 0 <= m < |s[1..]| && s[1..][m] == rest[k];
            assert s[m + 1] == rest[k];
          }
        }
        ConsSorted(le, s[0], rest);
      } else {
        assert le(x, s[0]);
        ConsSorted(le, x, s);
      }
    }
  }

  /** The sort orders its result by any total preorder. */
  lemma {:induction false} SortBySorted<T(!new)>(le: (T, T) -> bool, s: seq<T>)
    requires TotalPreorder(le)
    ensures SortedBy(le, SortBy(le, s))
  {
    if |s| > 0 {
      SortBySorted(le, s[..|s| - 1]);
      InsertBySorted(le, s[|s| - 1], SortBy(le, s[..|s| - 1]));
    }
  }

  lemma {:induction false} InsertByLast<T(!new)>(le: (T, T) -> bool, x: T, s: seq<T>)
    requires forall k :: 0 <= k < |s| ==> le(s[k], x)
    ensures InsertBy(le, x, s) == s + [x]
  {
    if |s| > 0 {
      InsertByLast(le, x, s[1..]);
      assert s == [s[0]] + s[1..];
    }
  }

  /** The front of a sorted sequence is sorted and not greater than its
      last element. */
  lemma SortedInit<T(!new)>(le: (T, T) -> bool, s: seq<T>)
    requires SortedBy(le, s) && |s| > 0
    ensures SortedBy(le, s[..|s| - 1])
    ensures forall k :: 0 <= k < |s| - 1 ==> le(s[k], s[|s| - 1])
  {
    var p := s[..|s| - 1];
    forall i, j | 0 <= i < j < |p| ensures le(p[i], p[j]) {
      assert p[i] == s[i] && p[j] == s[j];
    }
  }

  /** Sorting input that is already in order changes nothing: the stable sort
      leaves equal elements where they were. */
  lemma {:induction false} SortByIdentity<T(!new)>(le: (T, T) -> bool, s: seq<T>)
    requires SortedBy(le, s)
    ensures SortBy(le, s) == s
  {
    if |s| > 0 {
      var p := s[..|s| - 1];
      var x := s[|s| - 1];
      assert p + [x] == s;
      assert SortBy(le, s) == InsertBy(le, x, SortBy(le, p));
      SortedInit(le, s);
      SortByIdentity(le, p);
      InsertByLast(le, x, p);
    }
  }

  /** Dropping elements from a sorted sequence keeps it sorted. */
  lemma {:induction false} SortedSubsequence<T(!new)>(le: (T, T) -> bool, s: seq<T>, x: T)
    requires SortedBy(le, s)
    ensures SortedBy(le, Without(s, x))
  {
    if |s| > 0 {
      SortedSubsequence(le, s[1..], x);
      var rest := Without(s[1..], x);
      forall k | 0 <= k < |rest|
        ensures le(s[0], rest[k])
      {
        assert rest[k] in s[1..];
        var m :| 0 <= m < |s[1..]| && s[1..][m] == rest[k];
        assert s[m + 1] == rest[k];
      }
      if s[0] != x {
        ConsSorted(le, s[0], rest);
      }
    }
  }

  lemma SortedTail<T(!new)>(le: (T, T) -> bool, s: seq<T>)
    requires SortedBy(le, s) && |s| > 0
    ensures SortedBy(le, s[1..])
  {
    forall p, q | 0 <= p < q < |s[1..]| ensures le(s[1..][p], s[1..][q]) {
      assert s[1..][p] == s[p + 1] && s[1..][q] == s[q + 1];
    }
  }

  lemma MultisetTail<T>(a: seq<T>, b: seq<T>)
    requires multiset(a) == multiset(b) && |a| > 0 && |b| > 0 && a[0] == b[0]
    ensures multiset(a[1..]) == multiset(b[1..])
  {
    assert a == [a[0]] + a[1..] && b == [b[0]] + b[1..];
    assert multiset(a) == multiset{a[0]} + multiset(a[1..]);
    assert multiset(b) == multiset{b[0]} + multiset(b[1..]);
    assert multiset(a[1..]) == multiset(a) - multiset{a[0]};
  }

  /** Two sorted arrangements of one multiset start with the same element. */
  lemma SortedHeads<T(!new)>(le: (T, T) -> bool, a: seq<T>, b: seq<T>)
    requires forall x, y :: le(x, y) && le(y, x) ==> x == y
    requires SortedBy(le, a) && SortedBy(le, b)
    requires multiset(a) == multiset(b) && |a| > 0
    ensures |b| > 0 && a[0] == b[0]
  {
    assert a[0] in multiset(b);
    assert b[0] in multiset(a);
    var i :| 0 <= i < |b| && b[i] == a[0];
    var j :| 0 <= j < |a| && a[j] == b[0];
    if i > 0 && j > 0 {
      assert le(b[0], b[i]) && le(a[0], a[j]);
    }
  }

  /** Under a total order, a sorted arrangement of a multiset is unique. */
  lemma {:induction false} SortedUnique<T(!new)>(le: (T, T) -> bool, a: seq<T>, b: seq<T>)
    requires Total(le)
    requires forall x, y :: le(x, y) && le(y, x) ==> x == y
    requires SortedBy(le, a) && SortedBy(le, b)
    requires multiset(a) == multiset(b)
    ensures a == b
    decreases |a|
  {
    assert |b| == |multiset(b)| == |a|;
    if |a| > 0 {
      SortedHeads(le, a, b);
      MultisetTail(a, b);
      SortedTail(le, a);
      SortedTail(le, b);
      SortedUnique(le, a[1..], b[1..]);
      assert a == [a[0]] + a[1..] && b == [b[0]] + b[1..];
    }
  }

  /** Dropping elements keeps a sorted sequence sorted. */
  lemma {:induction false} SubsequenceSorted<T(!new)>(le: (T, T) -> bool, a: seq<T>, b: seq<T>)
    requires IsSubsequence(a, b) && SortedBy(le, b)
    ensures SortedBy(le, a)
  {
    if |a| > 0 {
      assert SortedBy(le, b[1..]) by {
        forall p, q | 0 <= p < q < |b[1..]| ensures le(b[1..][p], b[1..][q]) {
          assert b[1..][p] == b[p + 1] && b[1..][q] == b[q + 1];
        }
      }
      if a[0] == b[0] && IsSubsequence(a[1..], b[1..]) {
        SubsequenceSorted(le, a[1..], b[1..]);
        SubsequenceIn(a[1..], b[1..]);
        forall k | 0 <= k < |a[1..]|
          ensures le(a[0], a[1..][k])
        {
          assert a[1..][k] in a[1..];
          var m :| 0 <= m < |b[1..]| && b[1..][m] == a[1..][k];
          assert b[m + 1] == a[1..][k];
        }
        ConsSorted(le, a[0], a[1..]);
        assert a == [a[0]] + a[1..];
      } else {
        SubsequenceSorted(le, a, b[1..]);
      }
    }
  }
}

=== FILE: text.dfy ===
/** The JavaScript string behaviour the model depends on: decimal formatting
    of integers (template literals), `Number.parseInt`, the default string
    comparison used by `Array.prototype.sort`, and ASCII lower-casing. */
module Text {

  import opened Wrappers
  import opened Sorting

  predicate IsDigit(c: char) {
    '0' <= c <= '9'
  }

  function DigitChar(d: nat): (c: char)
    requires d < 10
    ensures IsDigit(c)
  {
    (d + '0' as int) as char
  }

  function DigitValue(c: char): (d: nat)
    requires IsDigit(c)
    ensures d < 10 && DigitChar(d) == c
  {
    c as int - '0' as int
  }

  /** Decimal digits of `n`, most significant first, no leading zero. */
  function NatToString(n: nat): (s: string)
    ensures |s| > 0
    ensures forall i :: 0 <= i < |s| ==> IsDigit(s[i])
  {
    if n < 10 then [DigitChar(n)] else NatToString(n / 10) + [DigitChar(n % 10)]
  }

  /** `${n}` for an integer `n`. */
  function IntToString(n: int): (s: string)
    ensures ',' !in s
  {
    if n < 0 then "-" + NatToString(-n) else NatToString(n)
  }

  /** Length of the run of digits at the front of `s`. */
  function DigitRun(s: string): (k: nat)
    ensures k <= |s|
    ensures forall i :: 0 <= i < k ==> IsDigit(s[i])
    ensures k < |s| ==> !IsDigit(s[k])
  {
    if |s| == 0 || !IsDigit(s[0]) then 0 else 1 + DigitRun(s[1..])
  }

  /** Value of a string of decimal digits. */
  function DigitsValue(s: string): nat
    requires forall i :: 0 <= i < |s| ==> IsDigit(s[i])
  {
    if |s| == 0 then 0
    else DigitsValue(s[..|s| - 1]) * 10 + DigitValue(s[|s| - 1])
  }

  /** The characters `parseInt` skips before the numeral: ECMAScript white
      space and line terminators. */
  predicate IsJsSpace(c: char) {
    c == '\t' || c == '\n' || c == '\U{000B}' || c == '\U{000C}' || c == '\r' || c == ' '
    || c == '\U{00A0}' || c == '\U{1680}' || ('\U{2000}' <= c <= '\U{200A}')
    || c == '\U{2028}' || c == '\U{2029}' || c == '\U{202F}' || c == '\U{205F}'
    || c == '\U{3000}' || c == '\U{FEFF}'
  }

  /** Length of the run of white space at the front of `s`. */
  function SpaceRun(s: string): (k: nat)
    ensures k <= |s|
    ensures forall i :: 0 <= i < k ==> IsJsSpace(s[i])
    ensures k < |s| ==> !IsJsSpace(s[k])
  {
    if |s| == 0 || !IsJsSpace(s[0]) then 0 else 1 + SpaceRun(s[1..])
  }

  predicate IsHexDigit(c: char) {
    IsDigit(c) || 'a' <= c <= 'f' || 'A' <= c <= 'F'
  }

  function HexDigitValue(c: char): (d: nat)
    requires IsHexDigit(c)
    ensures d < 16
    ensures IsDigit(c) ==> d == DigitValue(c)
  {
    if IsDigit(c) then DigitValue(c)
    else if 'a' <= c <= 'f' then (c as int - 'a' as int) + 10
    else (c as int - 'A' as int) + 10
  }

  /** Length of the run of hexadecimal digits at the front of `s`. */
  function HexRun(s: string): (k: nat)
    ensures k <= |s|
    ensures forall i :: 0 <= i < k ==> IsHexDigit(s[i])
    ensures k < |s| ==> !IsHexDigit(s[k])
  {
    if |s| == 0 || !IsHexDigit(s[0]) then 0 else 1 + HexRun(s[1..])
  }

  /** Value of a string of hexadecimal digits. */
  function HexValue(s: string): nat
    requires forall i :: 0 <= i < |s| ==> IsHexDigit(s[i])
  {
    if |s| == 0 then 0
    else HexValue(s[..|s| - 1]) * 16 + HexDigitValue(s[|s| - 1])
  }

  /** What `parseInt` reads of its argument: a sign, the radix and the
      digits. */
  datatype Numeral = Numeral(negative: bool, hex: bool, digits: string)

  /** Skip the leading white space, take an optional sign; a `0x` or `0X`
      prefix then selects hexadecimal, otherwise decimal; the digits are the
      longest run in that radix. */
  function ReadNumeral(s: string): (n: Numeral)
    ensures forall i :: 0 <= i < |n.digits| ==> if n.hex then IsHexDigit(n.digits[i]) else IsDigit(n.digits[i])
  {
    var t := s[SpaceRun(s)..];
    var signed := |t| > 0 && (t[0] == '-' || t[0] == '+');
    var body := if signed then t[1..] else t;
    var hex := |body| >= 2 && body[0] == '0' && (body[1] == 'x' || body[1] == 'X');
    var rest := if hex then body[2..] else body;
    var k := if hex then HexRun(rest) else DigitRun(rest);
    Numeral(signed && t[0] == '-', hex, rest[..k])
  }

  /** `Number.parseInt(s)` without a radix argument: `None` (NaN) when no
      digit follows the blanks, the sign and the prefix. */
  function ParseInt(s: string): (r: Option<int>)
    ensures r.None? <==> |ReadNumeral(s).digits| == 0
    ensures r.Some? && !ReadNumeral(s).negative ==> r.value >= 0
    ensures r.Some? && ReadNumeral(s).negative ==> r.value <= 0
  {
    var n := ReadNumeral(s);
    if |n.digits| == 0 then None
    else
      var v := if n.hex then HexValue(n.digits) else DigitsValue(n.digits);
      Some(if n.negative then -v else v)
  }

  /** Leading white space does not change what `parseInt` reads. */
  lemma ParseIntSkipsSpace(c: char, s: string)
    requires IsJsSpace(c)
    ensures ParseInt([c] + s) == ParseInt(s)
  {
    var cs := [c] + s;
    assert cs[1..] == s;
    assert SpaceRun(cs) == 1 + SpaceRun(s);
    assert cs[SpaceRun(cs)..] == s[SpaceRun(s)..];
  }

  /** A string of decimal digits, with an optional minus sign in front,
      reads as its digits in decimal. */
  lemma ReadNumeralOfDigits(s: string)
    requires |s| > 0 && (s[0] == '-' || IsDigit(s[0]))
    requires forall i :: 1 <= i < |s| ==> IsDigit(s[i])
    ensures ReadNumeral(s) == Numeral(s[0] == '-', false, if s[0] == '-' then s[1..] else s)
  {
    assert !IsJsSpace(s[0]);
    assert SpaceRun(s) == 0;
    assert s[0..] == s;
    var body := if s[0] == '-' then s[1..] else s;
    assert forall i :: 0 <= i < |body| ==> IsDigit(body[i]);
    DigitRunAll(body);
    assert body[..|body|] == body;
    assert |body| >= 2 ==> IsDigit(body[1]);
  }

  /** Text that starts with anything but white space, a sign or a digit
      reads as NaN. */
  lemma ParseIntNoDigit(s: string)
    requires |s| > 0 && !IsJsSpace(s[0]) && !IsDigit(s[0]) && s[0] != '-' && s[0] != '+'
    ensures ParseInt(s) == None
  {
    assert SpaceRun(s) == 0;
    assert s[0..] == s;
    assert DigitRun(s) == 0;
  }

  lemma DigitsValueTwelve()
    ensures DigitsValue("12") == 12
  {
    assert "12"[..1] == "1" && "1"[..0] == [];
  }

  lemma HexValueTwentySix()
    ensures HexValue("1A") == 26
  {
    assert "1A"[..1] == "1" && "1"[..0] == [];
  }

  lemma ParseIntTwelve()
    ensures ParseInt("12") == Some(12)
  {
    ReadNumeralOfDigits("12");
    DigitsValueTwelve();
  }

  /** The digit run stops at the exponent marker: "1e3" reads as 1. */
  lemma ParseIntStopsAtExponent()
    ensures ParseInt("1e3") == Some(1)
  {
    assert SpaceRun("1e3") == 0;
    assert DigitRun("e3") == 0;
    assert DigitRun("1e3") == 1;
    assert "1e3"[..1] == "1";
    assert ReadNumeral("1e3") == Numeral(false, false, "1");
    assert DigitsValue("1") == 1 by {
      assert "1"[..0] == [];
    }
    DecimalNumeral("1e3", false, "1");
  }

  /** Blanks are skipped: " 12" reads as 12. */
  lemma ParseIntLeadingBlank()
    ensures ParseInt(" 12") == Some(12)
  {
    ParseIntTwelve();
    ParseIntSkipsSpace(' ', "12");
    assert [' '] + "12" == " 12";
  }

  /** `0x` selects hexadecimal, after the sign: "0x1A" reads as 26 and
      "-0x1A" as -26. */
  lemma ParseIntHex(s: string)
    requires s == "0x1A" || s == "-0x1A"
    ensures ParseInt(s) == Some(if s[0] == '-' then -26 else 26)
  {
    HexNumeral(s);
    HexValueTwentySix();
  }

  /** A hexadecimal numeral "0x1A", with an optional minus sign. */
  lemma HexNumeral(s: string)
    requires s == "0x1A" || s == "-0x1A"
    ensures ReadNumeral(s) == Numeral(s[0] == '-', true, "1A")
  {
    assert !IsJsSpace(s[0]);
    assert SpaceRun(s) == 0;
    assert s[0..] == s;
    var body := if s[0] == '-' then s[1..] else s;
    assert body == "0x1A";
    assert body[2..] == "1A";
    assert HexRun("1A") == 2 by {
      assert "1A"[1..] == "A" && "A"[1..] == [];
    }
    assert "1A"[..2] == "1A";
  }

  lemma {:induction false} DigitsValueOfNat(n: nat)
    ensures DigitsValue(NatToString(n)) == n
  {
    if n >= 10 {
      DigitsValueOfNat(n / 10);
      var s := NatToString(n);
      assert s[..|s| - 1] == NatToString(n / 10);
    }
  }

  lemma DigitRunAll(s: string)
    requires forall i :: 0 <= i < |s| ==> IsDigit(s[i])
    ensures DigitRun(s) == |s|
  {
    if |s| > 0 {
      DigitRunAll(s[1..]);
    }
  }

  /** Parsing the decimal text of an integer gives the integer back. */
  lemma ParseIntOfString(n: int)
    ensures ParseInt(IntToString(n)) == Some(n)
  {
    var s := IntToString(n);
    var d := NatToString(if n < 0 then -n else n);
    assert s == if n < 0 then "-" + d else d;
    assert s[0] == '-' ==> s[1..] == d;
    ReadNumeralOfDigits(s);
    DecimalNumeral(s, n < 0, d);
    DigitsValueOfNat(if n < 0 then -n else n);
  }

  /** A decimal numeral with at least one digit reads as its value. */
  lemma DecimalNumeral(s: string, negative: bool, d: string)
    requires |d| > 0 && forall i :: 0 <= i < |d| ==> IsDigit(d[i])
    requires ReadNumeral(s) == Numeral(negative, false, d)
    ensures ParseInt(s) == Some(if negative then -(DigitsValue(d) as int) else DigitsValue(d) as int)
  {
  }

  /** Decimal text is injective. */
  lemma IntToStringInjective(a: int, b: int)
    requires IntToString(a) == IntToString(b)
    ensures a == b
  {
    ParseIntOfString(a);
    ParseIntOfString(b);
  }

  // ---------------------------------------------------------------------
  // String order

  /** The UTF-16 code units of one character: the character itself below
      U+10000, otherwise a high surrogate followed by a low one. */
  function Utf16Char(c: char): (u: seq<int>)
    ensures |u| == 1 <==> (c as int) < 0x10000
    ensures |u| == 1 ==> u[0] == c as int && (u[0] < 0xD800 || 0xE000 <= u[0])
    ensures |u| == 2 ==> 0xD800 <= u[0] < 0xDC00 && 0xDC00 <= u[1] < 0xE000
  {
    var n := c as int;
    if n < 0x10000 then [n]
    else [0xD800 + (n - 0x10000) / 0x400, 0xDC00 + (n - 0x10000) % 0x400]
  }

  /** A surrogate pair decodes back to its character, so one character's
      code units determine it. */
  lemma Utf16CharInjective(c: char, d: char)
    requires Utf16Char(c) == Utf16Char(d)
    ensures c == d
  {
    var u := Utf16Char(c);
    if |u| == 2 {
      assert c as int == 0x10000 + (u[0] - 0xD800) * 0x400 + (u[1] - 0xDC00);
      assert d as int == 0x10000 + (u[0] - 0xD800) * 0x400 + (u[1] - 0xDC00);
    }
  }

  /** A string as JavaScript stores it: its UTF-16 code units. */
  function Utf16(s: string): seq<int> {
    if |s| == 0 then [] else Utf16Char(s[0]) + Utf16(s[1..])
  }

  /** Different strings have different code units: the first unit of a
      character tells whether a second one follows. */
  lemma {:induction false} Utf16Injective(a: string, b: string)
    requires Utf16(a) == Utf16(b)
    ensures a == b
  {
    if |a| > 0 && |b| > 0 {
      var ua, ub := Utf16Char(a[0]), Utf16Char(b[0]);
      assert Utf16(a) == ua + Utf16(a[1..]) && Utf16(b) == ub + Utf16(b[1..]);
      assert Utf16(a)[0] == ua[0] && Utf16(b)[0] == ub[0];
      assert |ua| == |ub|;
      assert ua == Utf16(a)[..|ua|] && ub == Utf16(b)[..|ub|];
      Utf16CharInjective(a[0], b[0]);
      assert Utf16(a[1..]) == Utf16(a)[|ua|..] && Utf16(b[1..]) == Utf16(b)[|ub|..];
      Utf16Injective(a[1..], b[1..]);
      assert a == [a[0]] + a[1..] && b == [b[0]] + b[1..];
    }
  }

  /** Lexicographic order on code-unit sequences, a proper prefix first. */
  predicate UnitsLe(a: seq<int>, b: seq<int>) {
    if |a| == 0 then true
    else if |b| == 0 then false
    else if a[0] != b[0] then a[0] < b[0]
    else UnitsLe(a[1..], b[1..])
  }

  /** `a <= b` on JavaScript strings, the order `Array.prototype.sort` uses
      without a comparison: lexicographic by UTF-16 code unit. */
  predicate LexLe(a: string, b: string) {
    UnitsLe(Utf16(a), Utf16(b))
  }

  lemma {:induction false} UnitsLeTotal(a: seq<int>, b: seq<int>)
    ensures UnitsLe(a, b) || UnitsLe(b, a)
  {
    if |a| > 0 && |b| > 0 && a[0] == b[0] {
      UnitsLeTotal(a[1..], b[1..]);
    }
  }

  lemma {:induction false} UnitsLeTransitive(a: seq<int>, b: seq<int>, c: seq<int>)
    requires UnitsLe(a, b) && UnitsLe(b, c)
    ensures UnitsLe(a, c)
  {
    if |a| > 0 && |b| > 0 && |c| > 0 && a[0] == b[0] && b[0] == c[0] {
      UnitsLeTransitive(a[1..], b[1..], c[1..]);
    }
  }

  lemma {:induction false} UnitsLeAntisymmetric(a: seq<int>, b: seq<int>)
    requires UnitsLe(a, b) && UnitsLe(b, a)
    ensures a == b
  {
    if |a| > 0 && |b| > 0 {
      UnitsLeAntisymmetric(a[1..], b[1..]);
      assert a == [a[0]] + a[1..] && b == [b[0]] + b[1..];
    }
  }

  lemma LexLeTotal(a: string, b: string)
    ensures LexLe(a, b) || LexLe(b, a)
  {
    UnitsLeTotal(Utf16(a), Utf16(b));
  }

  lemma LexLeTransitive(a: string, b: string, c: string)
    requires LexLe(a, b) && LexLe(b, c)
    ensures LexLe(a, c)
  {
    UnitsLeTransitive(Utf16(a), Utf16(b), Utf16(c));
  }

  /** Strings that are each at most the other are equal: the order is a
      total order, not only a preorder. */
  lemma LexLeAntisymmetric(a: string, b: string)
    requires LexLe(a, b) && LexLe(b, a)
    ensures a == b
  {
    UnitsLeAntisymmetric(Utf16(a), Utf16(b));
    Utf16Injective(a, b);
  }

  /** The default sort comparison is one the sort can order by. */
  lemma LexLeTotalPreorder()
    ensures TotalPreorder(LexLe)
  {
    forall a: string, b: string
      ensures LexLe(a, b) || LexLe(b, a)
    {
      LexLeTotal(a, b);
    }
    forall a: string, b: string, c: string | LexLe(a, b) && LexLe(b, c)
      ensures LexLe(a, c)
    {
      LexLeTransitive(a, b, c);
    }
  }

  /** Lexicographic order by code point, a proper prefix first. */
  predicate CodePointLe(a: string, b: string) {
    if |a| == 0 then true
    else if |b| == 0 then false
    else if a[0] != b[0] then a[0] < b[0]
    else CodePointLe(a[1..], b[1..])
  }

  predicate Bmp(s: string) {
    forall i :: 0 <= i < |s| ==> (s[i] as int) < 0x10000
  }

  /** Without characters beyond U+FFFF the code-unit order is the
      code-point order. */
  lemma {:induction false} LexLeBmp(a: string, b: string)
    requires Bmp(a) && Bmp(b)
    ensures LexLe(a, b) <==> CodePointLe(a, b)
  {
    if |a| > 0 && |b| > 0 {
      assert Utf16(a) == [a[0] as int] + Utf16(a[1..]);
      assert Utf16(b) == [b[0] as int] + Utf16(b[1..]);
      assert Utf16(a)[1..] == Utf16(a[1..]) && Utf16(b)[1..] == Utf16(b[1..]);
      assert Bmp(a[1..]) by {
        forall i | 0 <= i < |a[1..]| ensures (a[1..][i] as int) < 0x10000 {
          assert a[1..][i] == a[i + 1];
        }
      }
      assert Bmp(b[1..]) by {
        forall i | 0 <= i < |b[1..]| ensures (b[1..][i] as int) < 0x10000 {
          assert b[1..][i] == b[i + 1];
        }
      }
      LexLeBmp(a[1..], b[1..]);
    } else if |a| > 0 {
      assert |Utf16(a)| > 0;
    }
  }

  /** Beyond U+FFFF the two orders part: U+1D49C is stored as the surrogates
      D835 DC9C and so sorts before U+FF21, whose code point is smaller. */
  lemma CodeUnitOrderIsNotCodePointOrder()
    ensures LexLe("\U{1D49C}", "\U{FF21}") && !LexLe("\U{FF21}", "\U{1D49C}")
    ensures CodePointLe("\U{FF21}", "\U{1D49C}")
  {
    assert Utf16("\U{1D49C}") == [0xD835, 0xDC9C];
    assert Utf16("\U{FF21}") == [0xFF21];
  }

  /** Comparing two equally long strings extended by one character each. */
  lemma {:induction false} CodePointLeSnoc(s: string, c: char, t: string, e: char)
    requires |s| == |t|
    ensures CodePointLe(s + [c], t + [e]) <==> (s != t && CodePointLe(s, t)) || (s == t && c <= e)
  {
    if |s| > 0 {
      assert (s + [c])[1..] == s[1..] + [c];
      assert (t + [e])[1..] == t[1..] + [e];
      CodePointLeSnoc(s[1..], c, t[1..], e);
      if s[0] == t[0] {
        assert s == [s[0]] + s[1..] && t == [t[0]] + t[1..];
        assert s == t <==> s[1..] == t[1..];
      }
    }
  }

  /** For numbers written with the same count of digits, string order is
      numeric order. */
  lemma {:induction false} CodePointLeSameLength(a: nat, b: nat)
    requires |NatToString(a)| == |NatToString(b)|
    ensures CodePointLe(NatToString(a), NatToString(b)) <==> a <= b
  {
    if a < 10 || b < 10 {
      assert a < 10 && b < 10;
    } else {
      var s, t := NatToString(a / 10), NatToString(b / 10);
      CodePointLeSameLength(a / 10, b / 10);
      CodePointLeSnoc(s, DigitChar(a % 10), t, DigitChar(b % 10));
      if s == t {
        DigitsValueOfNat(a / 10);
        DigitsValueOfNat(b / 10);
      }
    }
  }

  lemma FourDigits(n: nat)
    requires 1000 <= n <= 9999
    ensures |NatToString(n)| == 4
  {
    var a := n / 10;
    var b := a / 10;
    var c := b / 10;
    assert 1 <= c <= 9 && 10 <= b <= 99 && 100 <= a <= 999;
    assert |NatToString(b)| == |NatToString(c)| + 1 == 2;
    assert |NatToString(a)| == |NatToString(b)| + 1;
  }

  /** `years.sort()` compares years as strings; for four-digit years that is
      numeric order. */
  lemma YearStringOrder(a: int, b: int)
    requires 1000 <= a <= 9999 && 1000 <= b <= 9999
    ensures LexLe(IntToString(a), IntToString(b)) <==> a <= b
  {
    FourDigits(a);
    FourDigits(b);
    LexLeBmp(IntToString(a), IntToString(b));
    CodePointLeSameLength(a, b);
  }

  /** Outside four digits the string order is not numeric: "10" sorts
      before "9". */
  lemma StringOrderIsNotNumeric()
    ensures LexLe(IntToString(10), IntToString(9))
    ensures !LexLe(IntToString(9), IntToString(10))
  {
    assert IntToString(10) == ['1', '0'];
    assert IntToString(9) == ['9'];
    assert Utf16(IntToString(10)) == ['1' as int, '0' as int];
    assert Utf16(IntToString(9)) == ['9' as int];
  }

  // ---------------------------------------------------------------------
  // Case-insensitive search

  function ToLowerChar(c: char): char {
    if 'A' <= c <= 'Z' then (c as int + 32) as char else c
  }

  /** `s.toLowerCase()` on ASCII letters. */
  function ToLower(s: string): (r: string)
    ensures |r| == |s|
    ensures forall i :: 0 <= i < |s| ==> r[i] == ToLowerChar(s[i])
  {
    if |s| == 0 then [] else [ToLowerChar(s[0])] + ToLower(s[1..])
  }

  /** `needle` occurs in `hay` starting at position `i`. */
  predicate OccursAt(hay: string, needle: string, i: int) {
    0 <= i <= |hay| - |needle| && hay[i..i + |needle|] == needle
  }

  /** `hay.includes(needle)`. */
  predicate Contains(hay: string, needle: string) {
    exists i | 0 <= i <= |hay| - |needle| :: OccursAt(hay, needle, i)
  }

  lemma ContainsEmpty(hay: string)
    ensures Contains(hay, "")
  {
    assert OccursAt(hay, "", 0);
  }
}

=== FILE: trajectory_graph.dfy ===
/** The graph state of `ArtistTrajectoryGraph` in
    frontend/src/app/map-view/artist_trajectory_graph.ts: places interned by
    name, connection points interned by (place index, year), the trajectory
    of each artist as a list of connection-point lists, and the per-place
    years and representatives the connection step reads. */
module TrajectoryGraph {

  import opened Wrappers
  import opened Seqs
  import opened Sorting
  import opened Text
  import opened NpnMap

  /** A frontend place as the graph sees it: only its name is read, and it
      may be missing. */
  datatype PlaceIn = PlaceIn(place: Option<string>)

  /** An exhibition with its start year and its places (what
      `Place.from_hosts` makes of its hosts). */
  datatype ExhibitionIn = ExhibitionIn(startYear: int, places: seq<PlaceIn>)

  datatype ArtistIn = ArtistIn(id: int, exhibitions: seq<ExhibitionIn>)

  datatype PlacePoint = PlacePoint(place: PlaceIn, years: seq<int>)

  datatype ConnectionPoint = ConnectionPoint(plIndex: nat, year: int)

  /** One entry of `cp_list` per exhibition with places: the indices of its
      connection points. */
  datatype Trajectory = Trajectory(artistId: int, cpList: seq<seq<nat>>)

  /** `_places` with `_unique_places`. */
  datatype PlaceTable = PlaceTable(places: seq<PlacePoint>, index: map<string, nat>)

  /** `_connection_points` with `_unique_cps`. */
  datatype CpTable = CpTable(cps: seq<ConnectionPoint>, index: NPNMap)

  datatype Graph = Graph(pt: PlaceTable, ct: CpTable)

  const Empty := Graph(PlaceTable([], map[]), CpTable([], EmptyMap))

  // ---------------------------------------------------------------------
  // Places

  function PlaceNames(places: seq<PlacePoint>): (r: seq<Option<string>>)
    ensures |r| == |places|
    ensures forall i :: 0 <= i < |places| ==> r[i] == places[i].place.place
  {
    seq(|places|, i requires 0 <= i < |places| => places[i].place.place)
  }

  /** The names of the named places, in order. */
  function SomeNames(ps: seq<PlaceIn>): (r: seq<Option<string>>)
    ensures forall x :: x in r ==> x.Some?
    ensures |r| <= |ps|
  {
    if |ps| == 0 then []
    else
      var n := |ps| - 1;
      SomeNames(ps[..n]) + (if ps[n].place.Some? then [ps[n].place] else [])
  }

  /** `_unique_places` maps each name to the position of the one place
      with that name, and every place is named and listed there. */
  predicate PlacesIndexed(t: PlaceTable) {
    (forall name :: name in t.index ==>
      t.index[name] < |t.places| && t.places[t.index[name]].place.place == Some(name)) &&
    (forall i :: 0 <= i < |t.places| ==>
      t.places[i].place.place.Some? && t.places[i].place.place.value in t.index &&
      t.index[t.places[i].place.place.value] == i)
  }

  /** One step of `add_places`: an unnamed place is skipped, a known name
      gives its index, a new name is appended. */
  function AddPlace(t: PlaceTable, p: PlaceIn): (r: (PlaceTable, Option<nat>))
    ensures |t.places| <= |r.0.places|
    ensures r.1.Some? <==> p.place.Some?
  {
    match p.place
    case None => (t, None)
    case Some(name) =>
      if name in t.index then (t, Some(t.index[name]))
      else
        var i := |t.places|;
        (PlaceTable(t.places + [PlacePoint(p, [])], t.index[name := i]), Some(i))
  }

  /** `add_places`. */
  function AddPlaces(t: PlaceTable, ps: seq<PlaceIn>): (r: (PlaceTable, seq<nat>))
    ensures |t.places| <= |r.0.places|
    ensures |r.1| == |SomeNames(ps)|
  {
    if |ps| == 0 then (t, [])
    else
      var n := |ps| - 1;
      var prev := AddPlaces(t, ps[..n]);
      var next := AddPlace(prev.0, ps[n]);
      (next.0, prev.1 + (if next.1.Some? then [next.1.value] else []))
  }

  /** A valid index lists each name once. */
  lemma PlacesIndexedNoDup(t: PlaceTable)
    requires PlacesIndexed(t)
    ensures NoDup(PlaceNames(t.places))
  {
  }

  /** `_unique_places` finds each of its names at a place of that name. */
  predicate IndexSound(t: PlaceTable) {
    forall name :: name in t.index ==>
      t.index[name] < |t.places| && t.places[t.index[name]].place.place == Some(name)
  }

  /** One step keeps the index valid. */
  lemma AddPlaceIndexed(t: PlaceTable, p: PlaceIn)
    requires PlacesIndexed(t)
    ensures PlacesIndexed(AddPlace(t, p).0)
  {
  }

  /** One step: a new name is appended, a known one is looked up, and the
      returned index holds a place of that name. */
  lemma AddPlaceSpec(t: PlaceTable, p: PlaceIn)
    requires PlacesIndexed(t)
    ensures p.place.None? ==> AddPlace(t, p).0 == t
    ensures p.place.Some? ==>
      PlaceNames(AddPlace(t, p).0.places) ==
        if p.place in PlaceNames(t.places) then PlaceNames(t.places) else PlaceNames(t.places) + [p.place]
  {
    if p.place.Some? {
      var name := p.place.value;
      if name !in t.index {
        assert p.place !in PlaceNames(t.places);
        assert PlaceNames(AddPlace(t, p).0.places) == PlaceNames(t.places) + [p.place];
      } else {
        assert p.place == PlaceNames(t.places)[t.index[name]];
      }
    }
  }

  /** One step returns the index of a place with the given name and leaves
      the earlier places alone. */
  lemma AddPlaceAt(t: PlaceTable, p: PlaceIn)
    requires IndexSound(t)
    ensures p.place.Some? ==>
      AddPlace(t, p).1.value < |AddPlace(t, p).0.places| &&
      AddPlace(t, p).0.places[AddPlace(t, p).1.value].place.place == p.place
    ensures forall i :: 0 <= i < |t.places| ==> AddPlace(t, p).0.places[i] == t.places[i]
  {
  }

  /** Adding places keeps the index valid. */
  lemma {:induction false} AddPlacesIndexed(t: PlaceTable, ps: seq<PlaceIn>)
    requires PlacesIndexed(t)
    ensures PlacesIndexed(AddPlaces(t, ps).0)
  {
    if |ps| > 0 {
      var n := |ps| - 1;
      AddPlacesIndexed(t, ps[..n]);
      AddPlaceIndexed(AddPlaces(t, ps[..n]).0, ps[n]);
    }
  }

  /** Adding places appends exactly the new names, in first-seen order. */
  lemma {:induction false} AddPlacesSpec(t: PlaceTable, ps: seq<PlaceIn>)
    requires PlacesIndexed(t)
    ensures PlaceNames(AddPlaces(t, ps).0.places) == Distinct(PlaceNames(t.places) + SomeNames(ps))
  {
    if |ps| == 0 {
      assert PlaceNames(t.places) + SomeNames(ps) == PlaceNames(t.places);
      PlacesIndexedNoDup(t);
      DistinctNoDup(PlaceNames(t.places));
    } else {
      var n := |ps| - 1;
      AddPlacesSpec(t, ps[..n]);
      AddPlacesIndexed(t, ps[..n]);
      AddPlaceSpec(AddPlaces(t, ps[..n]).0, ps[n]);
      var pre := PlaceNames(t.places) + SomeNames(ps[..n]);
      if ps[n].place.Some? {
        assert SomeNames(ps) == SomeNames(ps[..n]) + [ps[n].place];
        assert PlaceNames(t.places) + SomeNames(ps) == pre + [ps[n].place];
        DistinctSnoc(pre, ps[n].place);
      } else {
        assert SomeNames(ps) == SomeNames(ps[..n]);
      }
    }
  }

  /** Each index holds a place with the matching name. */
  predicate IndicesName(places: seq<PlacePoint>, idxs: seq<nat>, names: seq<Option<string>>) {
    |idxs| == |names| &&
    forall j :: 0 <= j < |idxs| ==> idxs[j] < |places| && places[idxs[j]].place.place == names[j]
  }

  lemma IndicesNameGrow(places: seq<PlacePoint>, more: seq<PlacePoint>, idxs: seq<nat>, names: seq<Option<string>>)
    requires IndicesName(places, idxs, names)
    requires |places| <= |more| && forall i :: 0 <= i < |places| ==> more[i] == places[i]
    ensures IndicesName(more, idxs, names)
  {
  }

  lemma IndicesNameSnoc(places: seq<PlacePoint>, idxs: seq<nat>, names: seq<Option<string>>, i: nat, name: Option<string>)
    requires IndicesName(places, idxs, names)
    requires i < |places| && places[i].place.place == name
    ensures IndicesName(places, idxs + [i], names + [name])
  {
  }

  /** Every named place gets the index of the place with its name. */
  lemma {:induction false} AddPlacesAt(t: PlaceTable, ps: seq<PlaceIn>)
    requires PlacesIndexed(t)
    ensures IndicesName(AddPlaces(t, ps).0.places, AddPlaces(t, ps).1, SomeNames(ps))
  {
    if |ps| > 0 {
      var n := |ps| - 1;
      var prev := AddPlaces(t, ps[..n]);
      var next := AddPlace(prev.0, ps[n]);
      var names := SomeNames(ps[..n]);
      AddPlacesAt(t, ps[..n]);
      AddPlacesIndexed(t, ps[..n]);
      assert IndexSound(prev.0);
      AddPlaceAt(prev.0, ps[n]);
      IndicesNameGrow(prev.0.places, next.0.places, prev.1, names);
      if ps[n].place.Some? {
        assert SomeNames(ps) == names + [ps[n].place];
        IndicesNameSnoc(next.0.places, prev.1, names, next.1.value, ps[n].place);
      } else {
        assert SomeNames(ps) == names;
      }
    }
  }

  // ---------------------------------------------------------------------
  // Connection points

  function PairOf(cp: ConnectionPoint): NumberPair {
    NumberPair(cp.plIndex, cp.year)
  }

  /** `_unique_cps` maps the (place index, year) pair of every connection
      point to its position, and nothing else. */
  ghost predicate CpsIndexed(t: CpTable) {
    (forall k :: 0 <= k < |t.cps| ==> t.index.Get(PairOf(t.cps[k])) == Some(k)) &&
    (forall np :: t.index.Get(np).Some? ==>
      t.index.Get(np).value < |t.cps| && PairOf(t.cps[t.index.Get(np).value]) == np)
  }

  /** Every connection point names one of `count` places. */
  predicate CpsIn(cps: seq<ConnectionPoint>, count: nat) {
    forall k :: 0 <= k < |cps| ==> cps[k].plIndex < count
  }

  ghost predicate Valid(g: Graph) {
    PlacesIndexed(g.pt) && CpsIndexed(g.ct) && CpsIn(g.ct.cps, |g.pt.places|)
  }

  lemma EmptyValid()
    ensures Valid(Empty) && |Empty.pt.places| == 0 && |Empty.ct.cps| == 0
  {
    forall np ensures Empty.ct.index.Get(np) == None {
      GetEmpty(np);
    }
  }

  /** A valid index lists each connection point once. */
  lemma CpsIndexedNoDup(t: CpTable)
    requires CpsIndexed(t)
    ensures NoDup(t.cps)
  {
  }

  /** One step of `add_connection_points`. */
  function AddCp(t: CpTable, plIndex: nat, year: int): (r: (CpTable, nat))
    ensures |t.cps| <= |r.0.cps|
  {
    var np := NumberPair(plIndex, year);
    match t.index.Get(np)
    case Some(k) => (t, k)
    case None =>
      var k := |t.cps|;
      (CpTable(t.cps + [ConnectionPoint(plIndex, year)], t.index.Set(np, k)), k)
  }

  /** The connection points of `place_indices` in one year. */
  function LocalCps(indices: seq<nat>, year: int): (r: seq<ConnectionPoint>)
    ensures |r| == |indices|
    ensures forall j :: 0 <= j < |r| ==> r[j] == ConnectionPoint(indices[j], year)
  {
    seq(|indices|, j requires 0 <= j < |indices| => ConnectionPoint(indices[j], year))
  }

  lemma LocalCpsSnoc(indices: seq<nat>, year: int)
    requires |indices| > 0
    ensures LocalCps(indices, year) ==
      LocalCps(indices[..|indices| - 1], year) + [ConnectionPoint(indices[|indices| - 1], year)]
  {
  }

  /** `add_connection_points`. */
  function AddConnectionPoints(t: CpTable, indices: seq<nat>, year: int): (r: (CpTable, seq<nat>))
    ensures |t.cps| <= |r.0.cps|
    ensures |r.1| == |indices|
  {
    if |indices| == 0 then (t, [])
    else
      var n := |indices| - 1;
      var prev := AddConnectionPoints(t, indices[..n], year);
      var next := AddCp(prev.0, indices[n], year);
      (next.0, prev.1 + [next.1])
  }

  /** Appending a point whose pair is not yet known keeps the index
      valid. */
  lemma AppendCpIndexed(t: CpTable, cp: ConnectionPoint)
    requires CpsIndexed(t) && t.index.Get(PairOf(cp)).None?
    ensures CpsIndexed(CpTable(t.cps + [cp], t.index.Set(PairOf(cp), |t.cps|)))
    ensures cp !in t.cps
  {
    var np := PairOf(cp);
    var t2 := CpTable(t.cps + [cp], t.index.Set(np, |t.cps|));
    forall k | 0 <= k < |t.cps| ensures t.cps[k] != cp {
      assert t.index.Get(PairOf(t.cps[k])) == Some(k);
    }
    forall q ensures t2.index.Get(q) == if q == np then Some(|t.cps|) else t.index.Get(q) {
      GetSet(t.index, np, |t.cps|, q);
    }
  }

  /** One step keeps the index valid; a known pair gives its index, a new
      pair is appended. */
  lemma AddCpSpec(t: CpTable, plIndex: nat, year: int)
    requires CpsIndexed(t)
    ensures CpsIndexed(AddCp(t, plIndex, year).0)
    ensures AddCp(t, plIndex, year).0.cps ==
      if ConnectionPoint(plIndex, year) in t.cps then t.cps else t.cps + [ConnectionPoint(plIndex, year)]
    ensures AddCp(t, plIndex, year).1 < |AddCp(t, plIndex, year).0.cps|
    ensures AddCp(t, plIndex, year).0.cps[AddCp(t, plIndex, year).1] == ConnectionPoint(plIndex, year)
  {
    var cp := ConnectionPoint(plIndex, year);
    assert PairOf(cp) == NumberPair(plIndex, year);
    match t.index.Get(PairOf(cp))
    case Some(k) => {
      assert k < |t.cps| && PairOf(t.cps[k]) == PairOf(cp);
      assert t.cps[k] == cp;
    }
    case None => {
      AppendCpIndexed(t, cp);
    }
  }

  /** Adding connection points keeps the index valid. */
  lemma {:induction false} AddConnectionPointsIndexed(t: CpTable, indices: seq<nat>, year: int)
    requires CpsIndexed(t)
    ensures CpsIndexed(AddConnectionPoints(t, indices, year).0)
  {
    if |indices| > 0 {
      var n := |indices| - 1;
      AddConnectionPointsIndexed(t, indices[..n], year);
      AddCpSpec(AddConnectionPoints(t, indices[..n], year).0, indices[n], year);
    }
  }

  /** Adding connection points appends exactly the new (place, year) pairs,
      in first-seen order. */
  lemma {:induction false} AddConnectionPointsSpec(t: CpTable, indices: seq<nat>, year: int)
    requires CpsIndexed(t)
    ensures AddConnectionPoints(t, indices, year).0.cps == Distinct(t.cps + LocalCps(indices, year))
  {
    if |indices| == 0 {
      assert t.cps + LocalCps(indices, year) == t.cps;
      CpsIndexedNoDup(t);
      DistinctNoDup(t.cps);
    } else {
      var n := |indices| - 1;
      var cp := ConnectionPoint(indices[n], year);
      var pre := t.cps + LocalCps(indices[..n], year);
      LocalCpsSnoc(indices, year);
      assert t.cps + LocalCps(indices, year) == pre + [cp];
      var prev := AddConnectionPoints(t, indices[..n], year);
      assert AddConnectionPoints(t, indices, year).0 == AddCp(prev.0, indices[n], year).0;
      AddConnectionPointsSpec(t, indices[..n], year);
      AddConnectionPointsIndexed(t, indices[..n], year);
      AddCpSpec(prev.0, indices[n], year);
      DistinctSnoc(pre, cp);
    }
  }

  /** Every returned index holds the connection point of its place in that
      year. */
  lemma {:induction false} AddConnectionPointsAt(t: CpTable, indices: seq<nat>, year: int)
    requires CpsIndexed(t)
    ensures forall j :: 0 <= j < |indices| ==>
      AddConnectionPoints(t, indices, year).1[j] < |AddConnectionPoints(t, indices, year).0.cps| &&
      AddConnectionPoints(t, indices, year).0.cps[AddConnectionPoints(t, indices, year).1[j]] ==
        ConnectionPoint(indices[j], year)
  {
    if |indices| > 0 {
      var n := |indices| - 1;
      var prev := AddConnectionPoints(t, indices[..n], year);
      var next := AddCp(prev.0, indices[n], year);
      var all := AddConnectionPoints(t, indices, year);
      assert all == (next.0, prev.1 + [next.1]);
      AddConnectionPointsAt(t, indices[..n], year);
      AddConnectionPointsIndexed(t, indices[..n], year);
      AddCpSpec(prev.0, indices[n], year);
      assert all.0.cps[..|prev.0.cps|] == prev.0.cps;
      forall j | 0 <= j < |indices|
        ensures all.1[j] < |all.0.cps| && all.0.cps[all.1[j]] == ConnectionPoint(indices[j], year)
      {
        if j < n {
          assert all.1[j] == prev.1[j] && indices[j] == indices[..n][j];
          assert all.0.cps[prev.1[j]] == prev.0.cps[prev.1[j]];
        }
      }
    }
  }

  /** New connection points name the given places only. */
  lemma {:induction false} AddConnectionPointsIn(t: CpTable, indices: seq<nat>, year: int, count: nat)
    requires CpsIn(t.cps, count)
    requires forall j :: 0 <= j < |indices| ==> indices[j] < count
    ensures CpsIn(AddConnectionPoints(t, indices, year).0.cps, count)
  {
    if |indices| > 0 {
      AddConnectionPointsIn(t, indices[..|indices| - 1], year, count);
    }
  }

  // ---------------------------------------------------------------------
  // Trajectories

  /** The exhibition sort of `add_artist_trajectory`: by start year (every
      year is defined here). */
  predicate ExLe(a: ExhibitionIn, b: ExhibitionIn) {
    a.startYear <= b.startYear
  }

  lemma ExLeTotalPreorder()
    ensures TotalPreorder(ExLe)
  {
  }

  /** The exhibitions that have places; the others are skipped. */
  function WithPlaces(exs: seq<ExhibitionIn>): (r: seq<ExhibitionIn>)
    ensures forall e :: e in r ==> e in exs && |e.places| > 0
    ensures forall e :: e in exs && |e.places| > 0 ==> e in r
  {
    if |exs| == 0 then []
    else
      var n := |exs| - 1;
      WithPlaces(exs[..n]) + (if |exs[n].places| > 0 then [exs[n]] else [])
  }

  /** The skip keeps the exhibitions with places in their order, each as
      often as it occurs, and drops every other one. */
  lemma WithPlacesSpec(exs: seq<ExhibitionIn>)
    ensures IsSubsequence(WithPlaces(exs), exs)
    ensures forall x :: multiset(WithPlaces(exs))[x] == if |x.places| > 0 then multiset(exs)[x] else 0
  {
    WithPlacesSubsequence(exs);
    forall x ensures multiset(WithPlaces(exs))[x] == if |x.places| > 0 then multiset(exs)[x] else 0 {
      WithPlacesCount(exs, x);
    }
  }

  lemma {:induction false} WithPlacesSubsequence(exs: seq<ExhibitionIn>)
    ensures IsSubsequence(WithPlaces(exs), exs)
  {
    if |exs| > 0 {
      var n := |exs| - 1;
      var w := WithPlaces(exs[..n]);
      WithPlacesSubsequence(exs[..n]);
      SubsequenceSnoc(w, exs[..n], exs[n]);
      assert exs == exs[..n] + [exs[n]];
      if |exs[n].places| > 0 {
        assert WithPlaces(exs) == w + [exs[n]];
      } else {
        assert WithPlaces(exs) == w + [];
        assert w + [] == w;
      }
    }
  }

  lemma {:induction false} WithPlacesCount(exs: seq<ExhibitionIn>, x: ExhibitionIn)
    ensures multiset(WithPlaces(exs))[x] == if |x.places| > 0 then multiset(exs)[x] else 0
  {
    if |exs| > 0 {
      var n := |exs| - 1;
      var w := WithPlaces(exs[..n]);
      WithPlacesCount(exs[..n], x);
      assert exs == exs[..n] + [exs[n]];
      SnocCount(exs[..n], exs[n], x);
      if |exs[n].places| > 0 {
        assert WithPlaces(exs) == w + [exs[n]];
        SnocCount(w, exs[n], x);
      } else {
        assert WithPlaces(exs) == w + [];
        assert w + [] == w;
      }
    }
  }

  /** The `forEach` over the sorted exhibitions. */
  function AddExhibitions(g: Graph, exs: seq<ExhibitionIn>): (r: (Graph, seq<seq<nat>>))
    ensures |r.1| == |WithPlaces(exs)|
  {
    if |exs| == 0 then (g, [])
    else
      var n := |exs| - 1;
      var prev := AddExhibitions(g, exs[..n]);
      if |exs[n].places| == 0 then prev
      else
        var placed := AddPlaces(prev.0.pt, exs[n].places);
        var added := AddConnectionPoints(prev.0.ct, placed.1, exs[n].startYear);
        (Graph(placed.0, added.0), prev.1 + [added.1])
  }

  /** Every index of a list of connection-point lists names a point. */
  predicate CpListIn(cpList: seq<seq<nat>>, count: nat) {
    forall j, i :: 0 <= j < |cpList| && 0 <= i < |cpList[j]| ==> cpList[j][i] < count
  }

  /** Adding exhibitions keeps the place index valid. */
  lemma {:induction false} AddExhibitionsPlaces(g: Graph, exs: seq<ExhibitionIn>)
    requires PlacesIndexed(g.pt)
    ensures PlacesIndexed(AddExhibitions(g, exs).0.pt)
  {
    if |exs| > 0 {
      var n := |exs| - 1;
      AddExhibitionsPlaces(g, exs[..n]);
      AddPlacesIndexed(AddExhibitions(g, exs[..n]).0.pt, exs[n].places);
    }
  }

  /** Adding exhibitions keeps the connection-point index valid and only
      adds points. */
  lemma {:induction false} AddExhibitionsCps(g: Graph, exs: seq<ExhibitionIn>)
    requires CpsIndexed(g.ct)
    ensures CpsIndexed(AddExhibitions(g, exs).0.ct)
    ensures |g.ct.cps| <= |AddExhibitions(g, exs).0.ct.cps|
  {
    if |exs| > 0 {
      var n := |exs| - 1;
      AddExhibitionsCps(g, exs[..n]);
      var prev := AddExhibitions(g, exs[..n]);
      if |exs[n].places| > 0 {
        AddConnectionPointsIndexed(prev.0.ct, AddPlaces(prev.0.pt, exs[n].places).1, exs[n].startYear);
      }
    }
  }

  /** Every list refers to existing connection points. */
  lemma {:induction false} AddExhibitionsLists(g: Graph, exs: seq<ExhibitionIn>)
    requires CpsIndexed(g.ct)
    ensures CpListIn(AddExhibitions(g, exs).1, |AddExhibitions(g, exs).0.ct.cps|)
  {
    if |exs| > 0 {
      var n := |exs| - 1;
      AddExhibitionsLists(g, exs[..n]);
      AddExhibitionsCps(g, exs[..n]);
      var prev := AddExhibitions(g, exs[..n]);
      if |exs[n].places| > 0 {
        var e := exs[n];
        var placed := AddPlaces(prev.0.pt, e.places);
        AddConnectionPointsAt(prev.0.ct, placed.1, e.startYear);
        var added := AddConnectionPoints(prev.0.ct, placed.1, e.startYear);
        assert AddExhibitions(g, exs).1 == prev.1 + [added.1];
        assert forall i :: 0 <= i < |added.1| ==> added.1[i] < |added.0.cps|;
      }
    }
  }

  /** Every connection point added names an existing place. */
  lemma {:induction false} AddExhibitionsIn(g: Graph, exs: seq<ExhibitionIn>)
    requires PlacesIndexed(g.pt) && CpsIn(g.ct.cps, |g.pt.places|)
    ensures CpsIn(AddExhibitions(g, exs).0.ct.cps, |AddExhibitions(g, exs).0.pt.places|)
  {
    if |exs| > 0 {
      var n := |exs| - 1;
      AddExhibitionsIn(g, exs[..n]);
      AddExhibitionsPlaces(g, exs[..n]);
      var prev := AddExhibitions(g, exs[..n]);
      if |exs[n].places| > 0 {
        var e := exs[n];
        AddPlacesAt(prev.0.pt, e.places);
        var placed := AddPlaces(prev.0.pt, e.places);
        AddConnectionPointsIn(prev.0.ct, placed.1, e.startYear, |placed.0.places|);
      }
    }
  }

  /** Adding exhibitions keeps the graph valid, and every list refers to
      existing connection points. */
  lemma AddExhibitionsValid(g: Graph, exs: seq<ExhibitionIn>)
    requires Valid(g)
    ensures Valid(AddExhibitions(g, exs).0)
    ensures |g.ct.cps| <= |AddExhibitions(g, exs).0.ct.cps|
    ensures CpListIn(AddExhibitions(g, exs).1, |AddExhibitions(g, exs).0.ct.cps|)
  {
    AddExhibitionsPlaces(g, exs);
    AddExhibitionsCps(g, exs);
    AddExhibitionsLists(g, exs);
    AddExhibitionsIn(g, exs);
  }

  /** One list per exhibition with places, holding one connection point
      per named place. */
  lemma {:induction false} AddExhibitionsShape(g: Graph, exs: seq<ExhibitionIn>)
    ensures forall j :: 0 <= j < |WithPlaces(exs)| ==>
      |AddExhibitions(g, exs).1[j]| == |SomeNames(WithPlaces(exs)[j].places)|
  {
    if |exs| > 0 {
      var n := |exs| - 1;
      AddExhibitionsShape(g, exs[..n]);
      if |exs[n].places| > 0 {
        assert WithPlaces(exs) == WithPlaces(exs[..n]) + [exs[n]];
      }
    }
  }

  /** `add_artist_trajectory`: sort the exhibitions by year, then add
      them. */
  function AddArtistTrajectory(g: Graph, a: ArtistIn): (r: (Graph, Trajectory))
    ensures r.1.artistId == a.id
  {
    var added := AddExhibitions(g, SortBy(ExLe, a.exhibitions));
    (added.0, Trajectory(a.id, added.1))
  }

  /** The `artists.map` of the constructor. */
  function AddTrajectories(g: Graph, artists: seq<ArtistIn>): (r: (Graph, seq<Trajectory>))
    ensures |r.1| == |artists|
  {
    if |artists| == 0 then (g, [])
    else
      var n := |artists| - 1;
      var prev := AddTrajectories(g, artists[..n]);
      var next := AddArtistTrajectory(prev.0, artists[n]);
      (next.0, prev.1 + [next.1])
  }

  /** Every trajectory refers to existing connection points only. */
  predicate TrajectoriesIn(ts: seq<Trajectory>, count: nat) {
    forall j :: 0 <= j < |ts| ==> CpListIn(ts[j].cpList, count)
  }

  lemma {:induction false} AddTrajectoriesValid(g: Graph, artists: seq<ArtistIn>)
    requires Valid(g)
    ensures Valid(AddTrajectories(g, artists).0)
    ensures |g.ct.cps| <= |AddTrajectories(g, artists).0.ct.cps|
    ensures TrajectoriesIn(AddTrajectories(g, artists).1, |AddTrajectories(g, artists).0.ct.cps|)
  {
    if |artists| > 0 {
      var n := |artists| - 1;
      AddTrajectoriesValid(g, artists[..n]);
      var prev := AddTrajectories(g, artists[..n]);
      AddExhibitionsValid(prev.0, SortBy(ExLe, artists[n].exhibitions));
    }
  }

  /** An artist's list of connection-point lists has one entry per
      exhibition with places, in year order (`WithPlacesSpec` keeps the
      order of the year sort), and an entry is empty exactly when none of
      that exhibition's places is named. */
  lemma TrajectoryShape(g: Graph, a: ArtistIn)
    ensures |AddArtistTrajectory(g, a).1.cpList| == |WithPlaces(SortBy(ExLe, a.exhibitions))|
    ensures forall j :: 0 <= j < |AddArtistTrajectory(g, a).1.cpList| ==>
      (|AddArtistTrajectory(g, a).1.cpList[j]| == 0 <==>
       |SomeNames(WithPlaces(SortBy(ExLe, a.exhibitions))[j].places)| == 0)
  {
    AddExhibitionsShape(g, SortBy(ExLe, a.exhibitions));
  }

  // ---------------------------------------------------------------------
  // Place years

  /** The years of the connection points at one place, in order. */
  function YearsOf(cps: seq<ConnectionPoint>, p: nat): (r: seq<int>)
    ensures |r| <= |cps|
    ensures forall y :: y in r <==> ConnectionPoint(p, y) in cps
  {
    if |cps| == 0 then []
    else
      var n := |cps| - 1;
      YearsOf(cps[..n], p) + (if cps[n].plIndex == p then [cps[n].year] else [])
  }

  /** The push loop of `compute_place_years`. */
  function PushYears(places: seq<PlacePoint>, cps: seq<ConnectionPoint>): (r: seq<PlacePoint>)
    requires forall k :: 0 <= k < |cps| ==> cps[k].plIndex < |places|
    ensures |r| == |places|
    ensures forall i :: 0 <= i < |places| ==> r[i].place == places[i].place
  {
    if |cps| == 0 then places
    else
      var n := |cps| - 1;
      var ps := PushYears(places, cps[..n]);
      var p := cps[n].plIndex;
      ps[p := ps[p].(years := ps[p].years + [cps[n].year])]
  }

  lemma {:induction false} PushYearsSpec(places: seq<PlacePoint>, cps: seq<ConnectionPoint>, p: nat)
    requires forall k :: 0 <= k < |cps| ==> cps[k].plIndex < |places|
    requires p < |places|
    ensures PushYears(places, cps)[p].years == places[p].years + YearsOf(cps, p)
  {
    if |cps| > 0 {
      PushYearsSpec(places, cps[..|cps| - 1], p);
    }
  }

  /** `years.sort()` without a comparison: the years compared as
      decimal strings. */
  predicate YearStrLe(a: int, b: int) {
    LexLe(IntToString(a), IntToString(b))
  }

  lemma YearStrLeTotalPreorder()
    ensures TotalPreorder(YearStrLe)
  {
    LexLeTotalPreorder();
  }

  /** `compute_place_years`: every place collects the years of its
      connection points, then sorts them. */
  function ComputePlaceYears(g: Graph): (r: Graph)
    requires CpsIn(g.ct.cps, |g.pt.places|)
    ensures r.ct == g.ct && r.pt.index == g.pt.index
    ensures |r.pt.places| == |g.pt.places|
    ensures forall i :: 0 <= i < |g.pt.places| ==> r.pt.places[i].place == g.pt.places[i].place
  {
    var pushed := PushYears(g.pt.places, g.ct.cps);
    var sorted := seq(|pushed|, i requires 0 <= i < |pushed| =>
      pushed[i].(years := SortBy(YearStrLe, pushed[i].years)));
    Graph(PlaceTable(sorted, g.pt.index), g.ct)
  }

  lemma ComputePlaceYearsAt(g: Graph, p: nat)
    requires CpsIn(g.ct.cps, |g.pt.places|) && p < |g.pt.places|
    ensures ComputePlaceYears(g).pt.places[p].years ==
      SortBy(YearStrLe, PushYears(g.pt.places, g.ct.cps)[p].years)
  {
  }

  /** Connection points are distinct, so one place never holds a year
      twice. */
  lemma {:induction false} YearsOfNoDup(cps: seq<ConnectionPoint>, p: nat)
    requires NoDup(cps)
    ensures NoDup(YearsOf(cps, p))
  {
    if |cps| > 0 {
      var n := |cps| - 1;
      assert NoDup(cps[..n]);
      YearsOfNoDup(cps[..n], p);
      if cps[n].plIndex == p {
        assert cps[n] !in cps[..n];
      }
    }
  }

  predicate FourDigitYears(ys: seq<int>) {
    forall y :: y in ys ==> 1000 <= y <= 9999
  }

  predicate Increasing(ys: seq<int>) {
    forall i, j :: 0 <= i < j < |ys| ==> ys[i] < ys[j]
  }

  /** Distinct four-digit years in string order are in increasing
      order. */
  lemma StringSortedIncreasing(s: seq<int>)
    requires SortedBy(YearStrLe, s) && NoDup(s) && FourDigitYears(s)
    ensures Increasing(s)
  {
    forall i, j | 0 <= i < j < |s| ensures s[i] < s[j] {
      assert s[i] in s && s[j] in s;
      YearStringOrder(s[i], s[j]);
    }
  }

  /** Sorting distinct years as strings keeps them distinct; for four-digit
      years the string order is numeric order. */
  lemma SortYearsSpec(ys: seq<int>)
    requires NoDup(ys)
    ensures multiset(SortBy(YearStrLe, ys)) == multiset(ys)
    ensures SortedBy(YearStrLe, SortBy(YearStrLe, ys))
    ensures NoDup(SortBy(YearStrLe, ys))
    ensures FourDigitYears(ys) ==> Increasing(SortBy(YearStrLe, ys))
  {
    var sorted := SortBy(YearStrLe, ys);
    YearStrLeTotalPreorder();
    SortBySorted(YearStrLe, ys);
    PermutationNoDup(sorted, ys);
    if FourDigitYears(ys) {
      PermutationIn(sorted, ys);
      StringSortedIncreasing(sorted);
    }
  }

  /** Each place of a fresh graph ends up with exactly the years of its
      connection points, once each, in string order; for four-digit years
      that is numeric order. */
  lemma PlaceYearsSpec(g: Graph, p: nat)
    requires Valid(g) && p < |g.pt.places|
    requires forall i :: 0 <= i < |g.pt.places| ==> g.pt.places[i].years == []
    ensures var ys := ComputePlaceYears(g).pt.places[p].years;
      multiset(ys) == multiset(YearsOf(g.ct.cps, p)) && SortedBy(YearStrLe, ys) && NoDup(ys) &&
      (FourDigitYears(YearsOf(g.ct.cps, p)) ==> Increasing(ys))
  {
    PushYearsSpec(g.pt.places, g.ct.cps, p);
    var pushed := PushYears(g.pt.places, g.ct.cps);
    assert pushed[p].years == YearsOf(g.ct.cps, p) by {
      assert g.pt.places[p].years == [];
    }
    ComputePlaceYearsAt(g, p);
    CpsIndexedNoDup(g.ct);
    YearsOfNoDup(g.ct.cps, p);
    SortYearsSpec(YearsOf(g.ct.cps, p));
  }

  // ---------------------------------------------------------------------
  // Representatives

  /** The `reduce` of `compute_connections` on sizes: the later value wins
      only when strictly bigger, so the result is the first largest. */
  function ArgMaxFirst(sizes: seq<nat>): (r: nat)
    requires |sizes| > 0
    ensures r < |sizes|
    ensures forall k :: 0 <= k < |sizes| ==> sizes[k] <= sizes[r]
    ensures forall k :: 0 <= k < r ==> sizes[k] < sizes[r]
  {
    if |sizes| == 1 then 0
    else
      var n := |sizes| - 1;
      var prev := ArgMaxFirst(sizes[..n]);
      if sizes[n] > sizes[prev] then n else prev
  }

  /** How many years the place of a connection point has. */
  function PlaceSize(g: Graph, cp: nat): nat
    requires cp < |g.ct.cps| && g.ct.cps[cp].plIndex < |g.pt.places|
  {
    |g.pt.places[g.ct.cps[cp].plIndex].years|
  }

  /** The representative of one entry of `cp_list`: the connection point
      whose place has the most years, the first one on ties. */
  function Representative(g: Graph, cpIndices: seq<nat>): (r: nat)
    requires CpsIn(g.ct.cps, |g.pt.places|)
    requires |cpIndices| > 0 && forall i :: 0 <= i < |cpIndices| ==> cpIndices[i] < |g.ct.cps|
    ensures r in cpIndices && r < |g.ct.cps|
    ensures forall i :: 0 <= i < |cpIndices| ==> PlaceSize(g, cpIndices[i]) <= PlaceSize(g, r)
    ensures exists i ::
      0 <= i < |cpIndices| && cpIndices[i] == r &&
      forall k :: 0 <= k < i ==> PlaceSize(g, cpIndices[k]) < PlaceSize(g, r)
  {
    var sizes := seq(|cpIndices|, i requires 0 <= i < |cpIndices| => PlaceSize(g, cpIndices[i]));
    var i := ArgMaxFirst(sizes);
    assert forall k :: 0 <= k < |cpIndices| ==> sizes[k] == PlaceSize(g, cpIndices[k]);
    cpIndices[i]
  }
}

=== FILE: trajectory_sort.dfy ===
/** `sort_trajectory_points` of frontend/src/app/map-view/artist_trajectory_graph.ts:
    the representatives of one trajectory are cut into year batches, and a
    stack of batches is resolved whenever a batch shares at most one point
    with the batch before it.

    Connection points are numbers; `yearOf[c]` is the year of point `c`,
    `reps[i]` the representative of the `i`-th exhibition and `cpList[i]`
    all of that exhibition's points. */
module TrajectorySort {

  import opened Wrappers
  import opened Seqs

  /** `PointSubset`: the positions `[first, last)` of `reps` and the points
      among them, in first-seen order (a JavaScript `Set`). */
  datatype Subset = Subset(first: nat, last: nat, unique: seq<nat>)

  /** A stack entry: a batch and the points it shares with the batch
      before it. */
  datatype Entry = Entry(ps: Subset, common: seq<nat>)

  /** A sorted step: the representative and the exhibition's other points. */
  datatype Point = Point(main: nat, side: seq<nat>)

  predicate RepsIn(yearOf: seq<int>, reps: seq<nat>) {
    forall i :: 0 <= i < |reps| ==> reps[i] < |yearOf|
  }

  /** The inputs of one call: every representative has a year and every
      exhibition a point list. */
  predicate Inputs(yearOf: seq<int>, reps: seq<nat>, cpList: seq<seq<nat>>) {
    RepsIn(yearOf, reps) && |cpList| == |reps|
  }

  // ---------------------------------------------------------------------
  // compute_subset

  /** The `while` of `compute_subset`: `running_index++` is evaluated before
      the year test, so the scan stops one past the first position of
      another year. */
  function ScanEnd(yearOf: seq<int>, reps: seq<nat>, i: nat, year: int): (r: nat)
    requires RepsIn(yearOf, reps) && i <= |reps|
    ensures i <= r <= |reps|
    ensures i < |reps| ==> i < r
    ensures forall k :: i <= k < r - 1 ==> yearOf[reps[k]] == year
    ensures i < r < |reps| ==> yearOf[reps[r - 1]] != year
    decreases |reps| - i
  {
    if i == |reps| then i
    else if yearOf[reps[i]] == year then ScanEnd(yearOf, reps, i + 1, year)
    else i + 1
  }

  /** The scan ends at the first position of another year, inclusive, or
      at the end of `reps`: nothing else satisfies its contract. */
  lemma {:induction false} ScanEndUnique(yearOf: seq<int>, reps: seq<nat>, i: nat, year: int, e: nat)
    requires RepsIn(yearOf, reps) && i < e <= |reps|
    requires forall k :: i <= k < e - 1 ==> yearOf[reps[k]] == year
    requires e == |reps| || yearOf[reps[e - 1]] != year
    ensures ScanEnd(yearOf, reps, i, year) == e
    decreases |reps| - i
  {
    if yearOf[reps[i]] == year {
      if i + 1 < e {
        ScanEndUnique(yearOf, reps, i + 1, year, e);
      }
    }
  }

  /** `compute_subset(year)` from position `i`. */
  function ComputeSubset(yearOf: seq<int>, reps: seq<nat>, i: nat, year: int): (r: Subset)
    requires RepsIn(yearOf, reps) && i <= |reps|
    ensures r.first == i && i <= r.last <= |reps|
    ensures i < |reps| ==> i < r.last
    ensures NoDup(r.unique)
    ensures forall x :: x in r.unique <==> x in reps[i..r.last]
  {
    var e := ScanEnd(yearOf, reps, i, year);
    Subset(i, e, Distinct(reps[i..e]))
  }

  // ---------------------------------------------------------------------
  // resolve_stack

  /** A step comes from some exhibition whose representative is its main,
      and its side is that exhibition's other points. */
  predicate FromRep(reps: seq<nat>, cpList: seq<seq<nat>>, p: Point) {
    exists i :: 0 <= i < |reps| && i < |cpList| && reps[i] == p.main && p.side == Without(cpList[i], p.main)
  }

  predicate AllFromReps(reps: seq<nat>, cpList: seq<seq<nat>>, ps: seq<Point>) {
    forall j :: 0 <= j < |ps| ==> FromRep(reps, cpList, ps[j])
  }

  lemma AllFromRepsAppend(reps: seq<nat>, cpList: seq<seq<nat>>, a: seq<Point>, b: seq<Point>)
    requires AllFromReps(reps, cpList, a) && AllFromReps(reps, cpList, b)
    ensures AllFromReps(reps, cpList, a + b)
  {
    forall j | 0 <= j < |a + b| ensures FromRep(reps, cpList, (a + b)[j]) {
      if j < |a| {
        assert (a + b)[j] == a[j];
      } else {
        assert (a + b)[j] == b[j - |a|];
      }
    }
  }

  /** `add_to_resolved(f, t, index)`: one step for each position in
      `[f, t)` whose representative is `index`, in position order. */
  function Emit(reps: seq<nat>, cpList: seq<seq<nat>>, f: nat, t: nat, index: nat): (r: seq<Point>)
    requires f <= t <= |reps| && |cpList| == |reps|
    ensures |r| == multiset(reps[f..t])[index]
    ensures forall j :: 0 <= j < |r| ==> r[j].main == index
    decreases t - f
  {
    if t == f then []
    else
      var prev := Emit(reps, cpList, f, t - 1, index);
      assert reps[f..t] == reps[f..t - 1] + [reps[t - 1]];
      prev + (if reps[t - 1] == index then [Point(index, Without(cpList[t - 1], index))] else [])
  }

  lemma FromRepAt(reps: seq<nat>, cpList: seq<seq<nat>>, i: nat)
    requires i < |reps| == |cpList|
    ensures FromRep(reps, cpList, Point(reps[i], Without(cpList[i], reps[i])))
  {
  }

  /** Every step `add_to_resolved` makes comes from a representative. */
  lemma {:induction false} EmitFromReps(reps: seq<nat>, cpList: seq<seq<nat>>, f: nat, t: nat, index: nat)
    requires f <= t <= |reps| && |cpList| == |reps|
    ensures AllFromReps(reps, cpList, Emit(reps, cpList, f, t, index))
    decreases t - f
  {
    if t > f {
      EmitFromReps(reps, cpList, f, t - 1, index);
      if reps[t - 1] == index {
        FromRepAt(reps, cpList, t - 1);
        AllFromRepsAppend(reps, cpList, Emit(reps, cpList, f, t - 1, index), [Point(index, Without(cpList[t - 1], index))]);
      }
    }
  }

  /** `add_to_resolved` for each of `indices` in turn (the `forEach` over a
      batch's points). */
  function EmitEach(reps: seq<nat>, cpList: seq<seq<nat>>, f: nat, t: nat, indices: seq<nat>): (r: seq<Point>)
    requires f <= t <= |reps| && |cpList| == |reps|
    ensures forall j :: 0 <= j < |r| ==> r[j].main in indices
  {
    if |indices| == 0 then []
    else
      var n := |indices| - 1;
      var prev := EmitEach(reps, cpList, f, t, indices[..n]);
      var next := Emit(reps, cpList, f, t, indices[n]);
      assert forall j :: 0 <= j < |prev| ==> (prev + next)[j] == prev[j];
      assert forall j :: |prev| <= j < |prev + next| ==> (prev + next)[j] == next[j - |prev|];
      prev + next
  }

  lemma {:induction false} EmitEachFromReps(reps: seq<nat>, cpList: seq<seq<nat>>, f: nat, t: nat, indices: seq<nat>)
    requires f <= t <= |reps| && |cpList| == |reps|
    ensures AllFromReps(reps, cpList, EmitEach(reps, cpList, f, t, indices))
  {
    if |indices| > 0 {
      var n := |indices| - 1;
      EmitEachFromReps(reps, cpList, f, t, indices[..n]);
      EmitFromReps(reps, cpList, f, t, indices[n]);
      AllFromRepsAppend(reps, cpList, EmitEach(reps, cpList, f, t, indices[..n]), Emit(reps, cpList, f, t, indices[n]));
    }
  }

  /** The points of a batch that are not `locked`. */
  function Exclude(s: seq<nat>, locked: Option<nat>): (r: seq<nat>)
    ensures locked.None? ==> r == s
    ensures locked.Some? ==> forall y :: y in r <==> y in s && y != locked.value
  {
    if locked.Some? then Without(s, locked.value) else s
  }

  predicate EntriesIn(stack: seq<Entry>, n: nat) {
    forall k :: 0 <= k < |stack| ==> stack[k].ps.first <= stack[k].ps.last <= n
  }

  /** The steps one popped entry adds: the locked point, the other points,
      and, when the entry shares points with the batch before it, the first
      shared one last. */
  function PopSteps(reps: seq<nat>, cpList: seq<seq<nat>>, top: Entry, locked: Option<nat>): seq<Point>
    requires |cpList| == |reps| && top.ps.first <= top.ps.last <= |reps|
  {
    var ps := top.ps;
    var lockedSteps := if locked.Some? then Emit(reps, cpList, ps.first, ps.last, locked.value) else [];
    var others :=
      if |top.common| == 0 then EmitEach(reps, cpList, ps.first, ps.last, Exclude(ps.unique, locked))
      else EmitEach(reps, cpList, ps.first, ps.last, Without(Exclude(ps.unique, locked), top.common[0]));
    var shared := if |top.common| == 0 then [] else Emit(reps, cpList, ps.first, ps.last, top.common[0]);
    lockedSteps + others + shared
  }

  lemma PopStepsFromReps(reps: seq<nat>, cpList: seq<seq<nat>>, top: Entry, locked: Option<nat>)
    requires |cpList| == |reps| && top.ps.first <= top.ps.last <= |reps|
    ensures AllFromReps(reps, cpList, PopSteps(reps, cpList, top, locked))
  {
    var ps := top.ps;
    var lockedSteps := if locked.Some? then Emit(reps, cpList, ps.first, ps.last, locked.value) else [];
    if locked.Some? {
      EmitFromReps(reps, cpList, ps.first, ps.last, locked.value);
    }
    var others :=
      if |top.common| == 0 then EmitEach(reps, cpList, ps.first, ps.last, Exclude(ps.unique, locked))
      else EmitEach(reps, cpList, ps.first, ps.last, Without(Exclude(ps.unique, locked), top.common[0]));
    if |top.common| == 0 {
      EmitEachFromReps(reps, cpList, ps.first, ps.last, Exclude(ps.unique, locked));
    } else {
      EmitEachFromReps(reps, cpList, ps.first, ps.last, Without(Exclude(ps.unique, locked), top.common[0]));
    }
    var shared := if |top.common| == 0 then [] else Emit(reps, cpList, ps.first, ps.last, top.common[0]);
    if |top.common| > 0 {
      EmitFromReps(reps, cpList, ps.first, ps.last, top.common[0]);
    }
    AllFromRepsAppend(reps, cpList, lockedSteps, others);
    AllFromRepsAppend(reps, cpList, lockedSteps + others, shared);
  }

  /** The `while` of `resolve_stack`, popping from the top. An entry that
      shares nothing with the batch before it ends the loop; otherwise its
      first shared point becomes the locked one for the entry below. The
      second `int_it.next()` is discarded, so the shared point can equal
      the locked one and be emitted twice. Returns the steps in push order
      and the entries left on the stack. */
  function ResolveFrom(reps: seq<nat>, cpList: seq<seq<nat>>, stack: seq<Entry>, locked: Option<nat>, acc: seq<Point>)
    : (r: (seq<Point>, seq<Entry>))
    requires |cpList| == |reps| && EntriesIn(stack, |reps|)
    ensures |acc| <= |r.0| && r.0[..|acc|] == acc
    ensures |r.1| <= |stack| && r.1 == stack[..|r.1|]
    ensures |stack| > 0 ==> |r.1| < |stack|
    decreases |stack|
  {
    if |stack| == 0 then (acc, [])
    else
      var top := stack[|stack| - 1];
      var next := acc + PopSteps(reps, cpList, top, locked);
      assert next[..|acc|] == acc;
      if |top.common| == 0 then (next, stack[..|stack| - 1])
      else
        var r := ResolveFrom(reps, cpList, stack[..|stack| - 1], Some(top.common[0]), next);
        assert r.0[..|acc|] == r.0[..|next|][..|acc|];
        r
  }

  lemma {:induction false} ResolveFromReps(reps: seq<nat>, cpList: seq<seq<nat>>, stack: seq<Entry>, locked: Option<nat>, acc: seq<Point>)
    requires |cpList| == |reps| && EntriesIn(stack, |reps|)
    requires AllFromReps(reps, cpList, acc)
    ensures AllFromReps(reps, cpList, ResolveFrom(reps, cpList, stack, locked, acc).0)
    decreases |stack|
  {
    if |stack| > 0 {
      var top := stack[|stack| - 1];
      PopStepsFromReps(reps, cpList, top, locked);
      AllFromRepsAppend(reps, cpList, acc, PopSteps(reps, cpList, top, locked));
      if |top.common| > 0 {
        ResolveFromReps(reps, cpList, stack[..|stack| - 1], Some(top.common[0]), acc + PopSteps(reps, cpList, top, locked));
      }
    }
  }

  /** `resolve_stack`: the steps in reverse push order, and the stack it
      leaves behind. */
  function Resolve(reps: seq<nat>, cpList: seq<seq<nat>>, stack: seq<Entry>): (r: (seq<Point>, seq<Entry>))
    requires |cpList| == |reps| && EntriesIn(stack, |reps|)
    ensures |r.1| <= |stack| && r.1 == stack[..|r.1|]
    ensures |stack| > 0 ==> |r.1| < |stack|
  {
    var res := ResolveFrom(reps, cpList, stack, None, []);
    (Reverse(res.0), res.1)
  }

  lemma ResolveFromRepsAll(reps: seq<nat>, cpList: seq<seq<nat>>, stack: seq<Entry>)
    requires |cpList| == |reps| && EntriesIn(stack, |reps|)
    ensures AllFromReps(reps, cpList, Resolve(reps, cpList, stack).0)
  {
    var res := ResolveFrom(reps, cpList, stack, None, []);
    assert Resolve(reps, cpList, stack).0 == Reverse(res.0);
    ResolveFromReps(reps, cpList, stack, None, []);
    AllFromRepsReverse(reps, cpList, res.0);
  }

  lemma AllFromRepsReverse(reps: seq<nat>, cpList: seq<seq<nat>>, ps: seq<Point>)
    requires AllFromReps(reps, cpList, ps)
    ensures AllFromReps(reps, cpList, Reverse(ps))
  {
    var out := Reverse(ps);
    forall j | 0 <= j < |out| ensures FromRep(reps, cpList, out[j]) {
      assert out[j] == ps[|ps| - 1 - j];
    }
  }

  /** Only the bottom entry may share nothing with the batch before it. */
  predicate StackShape(stack: seq<Entry>) {
    forall k :: 0 < k < |stack| ==> |stack[k].common| > 0
  }

  /** Under that shape the resolve loop runs to the bottom and empties the
      stack. */
  lemma {:induction false} ResolveFromClears(reps: seq<nat>, cpList: seq<seq<nat>>, stack: seq<Entry>, locked: Option<nat>, acc: seq<Point>)
    requires |cpList| == |reps| && EntriesIn(stack, |reps|)
    requires StackShape(stack)
    ensures ResolveFrom(reps, cpList, stack, locked, acc).1 == []
    decreases |stack|
  {
    if |stack| > 0 {
      var top := stack[|stack| - 1];
      if |top.common| > 0 {
        ResolveFromClears(reps, cpList, stack[..|stack| - 1], Some(top.common[0]), acc + PopSteps(reps, cpList, top, locked));
      }
    }
  }

  lemma ResolveClears(reps: seq<nat>, cpList: seq<seq<nat>>, stack: seq<Entry>)
    requires |cpList| == |reps| && EntriesIn(stack, |reps|)
    requires StackShape(stack)
    ensures Resolve(reps, cpList, stack).1 == []
  {
    ResolveFromClears(reps, cpList, stack, None, []);
  }

  // ---------------------------------------------------------------------
  // The main loop

  /** The loop state: `running_index`, `last_pss`, `unsorted_stack` and
      `sorted_points`. */
  datatype State = State(ri: nat, last: Subset, stack: seq<Entry>, sorted: seq<Point>)

  predicate StateIn(reps: seq<nat>, s: State) {
    s.ri <= |reps| && EntriesIn(s.stack, |reps|)
  }

  /** The steps one iteration appends to `sorted_points`. With no shared
      point the stack so far is resolved; with one, it is resolved together
      with the new batch, and the shared point is emitted once more from
      the new batch; with more, nothing is resolved. */
  function StepSteps(reps: seq<nat>, cpList: seq<seq<nat>>, stack: seq<Entry>, sub: Subset, common: seq<nat>): (r: seq<Point>)
    requires |cpList| == |reps| && EntriesIn(stack, |reps|) && sub.first <= sub.last <= |reps|
    ensures |common| >= 2 ==> r == []
  {
    if |common| == 0 then Resolve(reps, cpList, stack).0
    else if |common| == 1 then
      Resolve(reps, cpList, stack + [Entry(sub, common)]).0 + Emit(reps, cpList, sub.first, sub.last, common[0])
    else []
  }

  /** The stack after one iteration: what the resolve left, if any, and
      the new batch, without the shared point when there was exactly one. */
  function StepStack(reps: seq<nat>, cpList: seq<seq<nat>>, stack: seq<Entry>, sub: Subset, common: seq<nat>): (r: seq<Entry>)
    requires |cpList| == |reps| && EntriesIn(stack, |reps|) && sub.first <= sub.last <= |reps|
    ensures EntriesIn(r, |reps|)
    ensures |r| > 0 && r[|r| - 1].common == common && r[|r| - 1].ps.first == sub.first && r[|r| - 1].ps.last == sub.last
    ensures |common| >= 2 ==> r == stack + [Entry(sub, common)]
  {
    if |common| == 0 then Resolve(reps, cpList, stack).1 + [Entry(sub, common)]
    else if |common| == 1 then
      Resolve(reps, cpList, stack + [Entry(sub, common)]).1 + [Entry(sub.(unique := Without(sub.unique, common[0])), common)]
    else stack + [Entry(sub, common)]
  }

  lemma StepStepsOne(reps: seq<nat>, cpList: seq<seq<nat>>, stack: seq<Entry>, sub: Subset, common: seq<nat>)
    requires |cpList| == |reps| && EntriesIn(stack, |reps|) && sub.first <= sub.last <= |reps|
    requires |common| == 1
    ensures StepSteps(reps, cpList, stack, sub, common) ==
      Resolve(reps, cpList, stack + [Entry(sub, common)]).0 + Emit(reps, cpList, sub.first, sub.last, common[0])
  {
  }

  /** One iteration of the `while`: cut the next batch from
      `running_index`, intersect it with the last one, resolve as the
      number of shared points says and push the batch. */
  function Step(yearOf: seq<int>, reps: seq<nat>, cpList: seq<seq<nat>>, s: State): (r: State)
    requires Inputs(yearOf, reps, cpList) && StateIn(reps, s) && s.ri < |reps|
    ensures StateIn(reps, r) && s.ri < r.ri
    ensures |s.sorted| <= |r.sorted| && r.sorted[..|s.sorted|] == s.sorted
  {
    var sub := ComputeSubset(yearOf, reps, s.ri, yearOf[reps[s.ri]]);
    var common := Intersect(sub.unique, s.last.unique);
    var last := if |common| == 1 then sub.(unique := Without(sub.unique, common[0])) else sub;
    var sorted := s.sorted + StepSteps(reps, cpList, s.stack, sub, common);
    assert sorted[..|s.sorted|] == s.sorted;
    State(sub.last, last, StepStack(reps, cpList, s.stack, sub, common), sorted)
  }

  lemma StepFromReps(yearOf: seq<int>, reps: seq<nat>, cpList: seq<seq<nat>>, s: State)
    requires Inputs(yearOf, reps, cpList) && StateIn(reps, s) && s.ri < |reps|
    requires AllFromReps(reps, cpList, s.sorted)
    ensures AllFromReps(reps, cpList, Step(yearOf, reps, cpList, s).sorted)
  {
    var sub := ComputeSubset(yearOf, reps, s.ri, yearOf[reps[s.ri]]);
    var common := Intersect(sub.unique, s.last.unique);
    var added := StepSteps(reps, cpList, s.stack, sub, common);
    assert Step(yearOf, reps, cpList, s).sorted == s.sorted + added;
    StepStepsFromReps(reps, cpList, s.stack, sub, common);
    AllFromRepsAppend(reps, cpList, s.sorted, added);
  }

  lemma StepStepsFromReps(reps: seq<nat>, cpList: seq<seq<nat>>, stack: seq<Entry>, sub: Subset, common: seq<nat>)
    requires |cpList| == |reps| && EntriesIn(stack, |reps|) && sub.first <= sub.last <= |reps|
    ensures AllFromReps(reps, cpList, StepSteps(reps, cpList, stack, sub, common))
  {
    if |common| == 0 {
      ResolveFromRepsAll(reps, cpList, stack);
    } else if |common| == 1 {
      var pushed := stack + [Entry(sub, common)];
      StepStepsOne(reps, cpList, stack, sub, common);
      ResolveFromRepsAll(reps, cpList, pushed);
      EmitFromReps(reps, cpList, sub.first, sub.last, common[0]);
      AllFromRepsAppend(reps, cpList, Resolve(reps, cpList, pushed).0, Emit(reps, cpList, sub.first, sub.last, common[0]));
    }
  }

  /** Every iteration keeps the stack shape, so each resolve empties the
      stack. */
  lemma StepShape(reps: seq<nat>, cpList: seq<seq<nat>>, stack: seq<Entry>, sub: Subset, common: seq<nat>)
    requires |cpList| == |reps| && EntriesIn(stack, |reps|) && sub.first <= sub.last <= |reps|
    requires StackShape(stack)
    ensures StackShape(StepStack(reps, cpList, stack, sub, common))
    ensures |common| <= 1 ==> |StepStack(reps, cpList, stack, sub, common)| == 1
  {
    var pushed := stack + [Entry(sub, common)];
    if |common| == 0 {
      ResolveClears(reps, cpList, stack);
    } else {
      forall k | 0 < k < |pushed| ensures |pushed[k].common| > 0 {
        if k < |stack| {
          assert pushed[k] == stack[k];
        }
      }
      if |common| == 1 {
        ResolveClears(reps, cpList, pushed);
      }
    }
  }

  /** The `while (running_index < reps.length)`. When it ends the stack
      still holds the batches since the last resolve; they are dropped. */
  function Loop(yearOf: seq<int>, reps: seq<nat>, cpList: seq<seq<nat>>, s: State): (r: seq<Point>)
    requires Inputs(yearOf, reps, cpList) && StateIn(reps, s)
    ensures |s.sorted| <= |r| && r[..|s.sorted|] == s.sorted
    decreases |reps| - s.ri
  {
    if s.ri == |reps| then s.sorted
    else
      var next := Step(yearOf, reps, cpList, s);
      var r := Loop(yearOf, reps, cpList, next);
      assert r[..|s.sorted|] == r[..|next.sorted|][..|s.sorted|];
      r
  }

  lemma {:induction false} LoopFromReps(yearOf: seq<int>, reps: seq<nat>, cpList: seq<seq<nat>>, s: State)
    requires Inputs(yearOf, reps, cpList) && StateIn(reps, s)
    requires AllFromReps(reps, cpList, s.sorted)
    ensures AllFromReps(reps, cpList, Loop(yearOf, reps, cpList, s))
    decreases |reps| - s.ri
  {
    if s.ri < |reps| {
      StepFromReps(yearOf, reps, cpList, s);
      LoopFromReps(yearOf, reps, cpList, Step(yearOf, reps, cpList, s));
    }
  }

  /** The state before the loop: the first batch alone on the stack. */
  function Start(yearOf: seq<int>, reps: seq<nat>): (r: State)
    requires RepsIn(yearOf, reps) && |reps| > 0
    ensures 0 < r.ri && r.sorted == [] && |r.stack| == 1 && StackShape(r.stack)
    ensures r.stack[0].ps.first == 0 && r.stack[0].ps.last == r.ri && r.stack[0].common == []
  {
    var first := ComputeSubset(yearOf, reps, 0, yearOf[reps[0]]);
    State(first.last, first, [Entry(first, [])], [])
  }

  /** `sort_trajectory_points(reps, cp_list)`. The source reads `reps[0]`,
      so a trajectory needs at least one representative. Every step's main
      is a representative and its side is that exhibition's other points. */
  function SortTrajectory(yearOf: seq<int>, reps: seq<nat>, cpList: seq<seq<nat>>): (r: seq<Point>)
    requires Inputs(yearOf, reps, cpList) && |reps| > 0
    ensures forall j :: 0 <= j < |r| ==> FromRep(reps, cpList, r[j])
    ensures forall j :: 0 <= j < |r| ==> r[j].main in reps && r[j].main !in r[j].side
  {
    var s := Start(yearOf, reps);
    LoopFromReps(yearOf, reps, cpList, s);
    var r := Loop(yearOf, reps, cpList, s);
    forall j | 0 <= j < |r| ensures r[j].main in reps && r[j].main !in r[j].side {
      assert FromRep(reps, cpList, r[j]);
    }
    r
  }

  // ---------------------------------------------------------------------
  // Properties

  /** If the first batch takes every representative the loop never runs:
      no step is emitted. */
  lemma OneBatchNoSteps(yearOf: seq<int>, reps: seq<nat>, cpList: seq<seq<nat>>)
    requires Inputs(yearOf, reps, cpList) && |reps| > 0
    requires ScanEnd(yearOf, reps, 0, yearOf[reps[0]]) == |reps|
    ensures SortTrajectory(yearOf, reps, cpList) == []
  {
  }

  /** A trajectory of one or two exhibitions yields no steps: the first
      batch always swallows the second position. */
  lemma {:induction false} ShortTrajectoryNoSteps(yearOf: seq<int>, reps: seq<nat>, cpList: seq<seq<nat>>)
    requires Inputs(yearOf, reps, cpList) && 0 < |reps| <= 2
    ensures SortTrajectory(yearOf, reps, cpList) == []
  {
    var e := ScanEnd(yearOf, reps, 0, yearOf[reps[0]]);
    assert e == |reps| by {
      if |reps| == 2 {
        assert ScanEnd(yearOf, reps, 1, yearOf[reps[0]]) == 2;
      }
    }
    OneBatchNoSteps(yearOf, reps, cpList);
  }

  /** Three exhibitions in three different years at three places. */
  const ThreeYears: seq<int> := [1905, 1906, 1907]
  const ThreeReps: seq<nat> := [0, 1, 2]
  const ThreeLists: seq<seq<nat>> := [[0], [1], [2]]

  /** The first scan overshoots into 1906: the first batch takes positions
      0 and 1. */
  lemma ThreeYearsStart()
    ensures Start(ThreeYears, ThreeReps) ==
      State(2, Subset(0, 2, [0, 1]), [Entry(Subset(0, 2, [0, 1]), [])], [])
  {
    assert ThreeYears[ThreeReps[0]] == 1905;
    assert ScanEnd(ThreeYears, ThreeReps, 0, 1905) == 2 by {
      assert ScanEnd(ThreeYears, ThreeReps, 1, 1905) == 2;
    }
    assert ThreeReps[0..2] == [0, 1];
    assert Distinct([0, 1]) == [0, 1] by {
      assert [0, 1][..1] == [0] && [0][..0] == [];
    }
    assert ComputeSubset(ThreeYears, ThreeReps, 0, 1905) == Subset(0, 2, [0, 1]);
  }

  lemma ThreeYearsEmit()
    ensures Emit(ThreeReps, ThreeLists, 0, 2, 0) == [Point(0, [])]
    ensures Emit(ThreeReps, ThreeLists, 0, 2, 1) == [Point(1, [])]
  {
    assert Without([0], 0) == [] && Without([1], 1) == [];
    assert Emit(ThreeReps, ThreeLists, 0, 1, 0) == [Point(0, [])];
    assert Emit(ThreeReps, ThreeLists, 0, 1, 1) == [];
  }

  lemma ThreeYearsEmitEach()
    ensures EmitEach(ThreeReps, ThreeLists, 0, 2, [0, 1]) == [Point(0, []), Point(1, [])]
  {
    ThreeYearsEmit();
    assert [0, 1][..1] == [0] && [0][..0] == [];
    assert EmitEach(ThreeReps, ThreeLists, 0, 2, [0]) == [Point(0, [])];
  }

  lemma ThreeYearsPop()
    ensures PopSteps(ThreeReps, ThreeLists, Entry(Subset(0, 2, [0, 1]), []), None) == [Point(0, []), Point(1, [])]
  {
    ThreeYearsEmitEach();
  }

  lemma ThreeYearsResolveFrom()
    ensures ResolveFrom(ThreeReps, ThreeLists, [Entry(Subset(0, 2, [0, 1]), [])], None, []).0 == [Point(0, []), Point(1, [])]
  {
    ThreeYearsPop();
  }

  /** Resolving the first batch emits its points in reverse order. */
  lemma ThreeYearsResolve()
    ensures Resolve(ThreeReps, ThreeLists, [Entry(Subset(0, 2, [0, 1]), [])]).0 == [Point(1, []), Point(0, [])]
  {
    ThreeYearsResolveFrom();
  }

  /** The second batch is position 2 alone and shares nothing with the
      first. */
  lemma ThreeYearsSecond()
    ensures ComputeSubset(ThreeYears, ThreeReps, 2, 1907) == Subset(2, 3, [2])
    ensures Intersect([2], [0, 1]) == []
  {
    assert ScanEnd(ThreeYears, ThreeReps, 2, 1907) == 3;
    assert Distinct([2]) == [2] by {
      assert [2][..0] == [];
    }
    assert ThreeReps[2..3] == [2];
    assert [2][1..] == [];
  }

  /** The only iteration: the batch of position 2 shares nothing with the
      first, so the first is resolved and the loop ends. */
  lemma ThreeYearsStep()
    ensures var s := Step(ThreeYears, ThreeReps, ThreeLists, Start(ThreeYears, ThreeReps));
      s.ri == 3 && s.sorted == [Point(1, []), Point(0, [])]
  {
    ThreeYearsStart();
    ThreeYearsResolve();
    ThreeYearsSecond();
  }

  /** The points of the last batch are never emitted, and those of the
      first come out backwards. */
  lemma ThreeYearsExample()
    ensures SortTrajectory(ThreeYears, ThreeReps, ThreeLists) == [Point(1, []), Point(0, [])]
  {
    ThreeYearsStep();
  }

  /** The mains of a list of steps. */
  function Mains(ps: seq<Point>): (r: seq<nat>)
    ensures |r| == |ps|
    ensures forall j :: 0 <= j < |ps| ==> r[j] == ps[j].main
  {
    seq(|ps|, j requires 0 <= j < |ps| => ps[j].main)
  }

  /** How many steps have main `c`. */
  function MainCount(ps: seq<Point>, c: nat): nat {
    multiset(Mains(ps))[c]
  }

  lemma MainCountAppend(a: seq<Point>, b: seq<Point>, c: nat)
    ensures MainCount(a + b, c) == MainCount(a, c) + MainCount(b, c)
  {
    assert Mains(a + b) == Mains(a) + Mains(b);
  }

  lemma MainCountReverse(a: seq<Point>, c: nat)
    ensures MainCount(Reverse(a), c) == MainCount(a, c)
  {
    assert Mains(Reverse(a)) == Reverse(Mains(a));
    ReverseMultiset(Mains(a));
  }

  lemma MainCountPrefix(a: seq<Point>, k: nat, c: nat)
    requires k <= |a|
    ensures MainCount(a[..k], c) <= MainCount(a, c)
  {
    assert a == a[..k] + a[k..];
    MainCountAppend(a[..k], a[k..], c);
  }

  lemma {:induction false} MainCountAll(ps: seq<Point>, c: nat)
    requires forall j :: 0 <= j < |ps| ==> ps[j].main == c
    ensures MainCount(ps, c) == |ps|
  {
    if |ps| > 0 {
      var n := |ps| - 1;
      MainCountAll(ps[..n], c);
      assert ps == ps[..n] + [ps[n]];
      MainCountAppend(ps[..n], [ps[n]], c);
      assert Mains([ps[n]]) == [c];
    }
  }

  /** `add_to_resolved(f, t, c)` emits one step of main `c` per position of
      `c` in `[f, t)`. */
  lemma EmitCount(reps: seq<nat>, cpList: seq<seq<nat>>, f: nat, t: nat, c: nat)
    requires f <= t <= |reps| && |cpList| == |reps|
    ensures MainCount(Emit(reps, cpList, f, t, c), c) == multiset(reps[f..t])[c]
  {
    MainCountAll(Emit(reps, cpList, f, t, c), c);
  }

  lemma EntriesInPush(stack: seq<Entry>, top: Entry, n: nat)
    requires EntriesIn(stack, n) && top.ps.first <= top.ps.last <= n
    ensures EntriesIn(stack + [top], n)
  {
    var pushed := stack + [top];
    forall k | 0 <= k < |pushed| ensures pushed[k].ps.first <= pushed[k].ps.last <= n {
      if k < |stack| {
        assert pushed[k] == stack[k];
      }
    }
  }

  /** Popping a batch that shares `c` emits every step of `c` in it. */
  lemma PopSharedCount(reps: seq<nat>, cpList: seq<seq<nat>>, sub: Subset, c: nat)
    requires |cpList| == |reps| && sub.first <= sub.last <= |reps|
    ensures MainCount(PopSteps(reps, cpList, Entry(sub, [c]), None), c) >= multiset(reps[sub.first..sub.last])[c]
  {
    var top := Entry(sub, [c]);
    assert |top.common| == 1 && top.common[0] == c && top.ps == sub;
    var e := Emit(reps, cpList, sub.first, sub.last, c);
    var others := EmitEach(reps, cpList, sub.first, sub.last, Without(Exclude(sub.unique, None), c));
    assert PopSteps(reps, cpList, top, None) == [] + others + e;
    assert [] + others + e == others + e;
    EmitCount(reps, cpList, sub.first, sub.last, c);
    MainCountAppend(others, e, c);
  }

  /** Resolving starts with the steps of the top batch. */
  lemma ResolveStartsWithTop(reps: seq<nat>, cpList: seq<seq<nat>>, stack: seq<Entry>, top: Entry)
    requires |cpList| == |reps| && EntriesIn(stack + [top], |reps|) && |top.common| > 0
    requires top.ps.first <= top.ps.last <= |reps|
    ensures var steps := PopSteps(reps, cpList, top, None);
      |steps| <= |ResolveFrom(reps, cpList, stack + [top], None, []).0| &&
      ResolveFrom(reps, cpList, stack + [top], None, []).0[..|steps|] == steps
  {
    var pushed := stack + [top];
    assert pushed[..|pushed| - 1] == stack && pushed[|pushed| - 1] == top;
    var steps := PopSteps(reps, cpList, top, None);
    assert [] + steps == steps;
    assert ResolveFrom(reps, cpList, pushed, None, []) == ResolveFrom(reps, cpList, stack, Some(top.common[0]), steps);
  }

  /** Resolving a stack topped by a batch that shares exactly `c` with the
      batch before emits every step of `c` in that batch. */
  lemma SharedPointResolved(reps: seq<nat>, cpList: seq<seq<nat>>, stack: seq<Entry>, sub: Subset, c: nat)
    requires |cpList| == |reps| && EntriesIn(stack, |reps|) && sub.first <= sub.last <= |reps|
    ensures EntriesIn(stack + [Entry(sub, [c])], |reps|)
    ensures MainCount(ResolveFrom(reps, cpList, stack + [Entry(sub, [c])], None, []).0, c) >=
      multiset(reps[sub.first..sub.last])[c]
  {
    var top := Entry(sub, [c]);
    EntriesInPush(stack, top, |reps|);
    PopSharedCount(reps, cpList, sub, c);
    ResolveStartsWithTop(reps, cpList, stack, top);
    var steps := PopSteps(reps, cpList, top, None);
    MainCountPrefix(ResolveFrom(reps, cpList, stack + [top], None, []).0, |steps|, c);
  }

  /** With exactly one point `c` shared with the batch before, the steps
      of `c` in the new batch are emitted twice: once while the stack is
      resolved, and again by the loop just after it. */
  lemma SharedPointTwice(reps: seq<nat>, cpList: seq<seq<nat>>, stack: seq<Entry>, sub: Subset, c: nat)
    requires |cpList| == |reps| && EntriesIn(stack, |reps|) && sub.first <= sub.last <= |reps|
    ensures MainCount(StepSteps(reps, cpList, stack, sub, [c]), c) >=
      2 * multiset(reps[sub.first..sub.last])[c]
  {
    SharedPointResolved(reps, cpList, stack, sub, c);
    var x := ResolveFrom(reps, cpList, stack + [Entry(sub, [c])], None, []).0;
    var e := Emit(reps, cpList, sub.first, sub.last, c);
    EmitCount(reps, cpList, sub.first, sub.last, c);
    MainCountReverse(x, c);
    StepStepsOne(reps, cpList, stack, sub, [c]);
    assert StepSteps(reps, cpList, stack, sub, [c]) == Reverse(x) + e;
    MainCountAppend(Reverse(x), e, c);
  }
}

=== FILE: wrappers.dfy ===
/** Optional values and error-carrying results, standing in for the source's
    `undefined` values and thrown errors. */
module Wrappers {

  /** A value that may be missing (`undefined` in the source). */
  datatype Option<+T> = None | Some(value: T) {

    /** The value, or `default` when missing. */
    function GetOr(default: T): T {
      match this
      case Some(v) => v
      case None => default
    }
  }

  /** The outcome of an operation that can throw. */
  datatype Result<+T, +E> = Ok(value: T) | Err(error: E)
}
